=== FILE: README.md ===
# Tax derivation core of the filing assistant, in Dafny

This project models the part of the filing assistant's API server that derives
tax facts from a user's uploaded documents. Every document is a record with a
type string (`salary_slip`, `form_16`, `form_26as`, …) and a metadata map. The
server turns a list of them into the following:

- a **tax summary**: income, TDS and capped deductions; taxable income after the
  ₹50,000 standard deduction; tax on the old-regime slabs; and either net payable
  or refund;
- a **fallback regime comparison** (old against new regime);
- a **gap analysis**: missing and incomplete documents, recommendations and a
  completion percentage;
- a **consistency report**: TDS mismatch, income variance, PAN mismatch and
  incomplete Form 26AS;
- an **ITR draft**, a **filing checklist** and the **completion status** of the
  auto-file analysis;
- an **insights feed**: opportunities, risks, deadline nudges and optimizations,
  sorted by priority and then by time stamp;
- the monthly **tax health score**;
- the **tax deadline calendar** of a financial year.

Everything is a pure function over immutable datatypes:

| Module | File | What it holds |
|---|---|---|
| `Values` | `values.dfy` | Metadata values and the `float(m.get(k, 0) or 0)` reading. |
| `Documents` | `documents.dfy` | Document kinds and the extraction fallback. |
| `Slabs` | `slabs.dfy` | The old-regime slab table. |
| `Summary` | `summary.dfy` | `calculate_tax_summary`. |
| `Regime` | `regime.dfy` | The fallback regime comparison. |
| `Gaps` | `gaps.dfy` | `analyze_document_gaps`. |
| `Consistency` | `consistency.dfy` | `check_consistencies`. |
| `Calendar` | `calendar.dfy` | Proleptic Gregorian ordinals, `timedelta.days`, `%B %d, %Y`. |
| `Insights` | `insights.dfy` | The insights feed. |
| `Health` | `health.dfy` | The health score. |
| `Filing` | `filing.dfy` | ITR draft, checklist and auto-file analysis. |
| `Deadlines` | `deadlines.dfy` | The deadline calendar. |

## How the model represents Python

- **Numbers.** Amounts are `real`. A numeric read is `float(x or 0)`: a missing,
  null, false, zero or empty value reads as 0. The precondition `NumericAt`
  admits every value except a non-empty string, which Python would parse or
  reject.
- **Text reads.** `.upper()` and `.lower()` need a string or a missing key
  (`StrAt`).
- **Documents.** A document holds its parsed kind. `Documents.Record` builds one
  from the wire type string, and `DocType()` gives the string back unchanged.
- **Clock.** The clock is a parameter: one `Instant` (a date plus microseconds
  since midnight) or one `Date` per call. `Calendar.DaysUntil` and
  `Calendar.DaysBetween` reproduce `timedelta.days`, which rounds toward minus
  infinity.
- **Time stamps.** Every insight created in one call carries the same stamp:
  the call's instant in microseconds.
- **Sorting.** The sorts are stable insertion sorts with the source's keys. The
  key is `(priority rank, timestamp)` for insights and the `YYYY-MM-DD` text
  for deadlines. The model sorts deadlines by calendar order (`DateLe`).
  `Calendar.TextLess` is Python's `<` on strings. For four-digit years,
  `Deadlines.DateLeIsKeyOrder` proves that comparing the texts orders dates
  exactly as `DateLe` does. `Deadlines.DeadlinesInKeyOrder` proves that the
  returned list is strictly increasing in that text.
- **Rounding.** `round()` is round-half-to-even.

### Boundary behaviour of the code

- **Bracket boundaries.** A slab applies only strictly above its floor (`>`), so
  an income exactly at a floor is taxed entirely at the rates below it:
  tax(700000) = 22500, tax(900000) = 57500 and tax(1500000) = 172500
  (`Slabs.TaxAtEdges`). Just above 700000, 900000 and 1500000 the tax jumps
  upward by 15000, 10000 and 15000 (`Slabs.TaxJumps`). The tax is still
  non-decreasing over the whole range (`Slabs.TaxMonotone`).
- **Zero documents.** Scoring a user with no documents gives 49, at level
  `needs_improvement` (`Health.NothingUploadedScores49`). The health-score
  endpoint never computes it: with no documents it returns 0 at once
  (`Health.HealthEndpoint`).

### Behaviours of the code that the proofs bring out

- **The HRA opportunity never fires.** It is guarded by "salary slips and no
  rent receipts", then sums rent over the (empty) rent receipts
  (`Insights.HraOpportunity`).
- **The NPS opportunity fires for every summary.** The summary never fills the
  NPS section (`Insights.AggregateAlwaysSuggestsNps`).
- **The undeclared-bank-interest risk never fires on a computed summary.** Bank
  interest can only come from bank interest certificates
  (`Insights.AggregateNeverUndeclared`).
- **The Q4 advance-tax and ITR nudges never fire.** They are dated in the next
  calendar year, always more than 30 days away
  (`Insights.NextYearNudgesNeverFire`).
- **Total salary depends on document order.** A salary slip adds its gross
  amount, while a Form 16 takes the maximum
  (`Summary.TotalSalaryIsOrderSensitive`).
- **Every other total is order-independent.** TDS, bank interest, capital gains
  and the deduction totals do not depend on document order
  (`Summary.AggregateSumsArePermutationInvariant`).
- **A Form 26AS with zero TDS is only a warning.** Beside a Form 16 it never makes the report
  "issues_found" (`Consistency.ZeroForm26asIsOnlyAWarning`).
- **The ITR draft's deductions total leaves items out.** It omits 24(b), 80E and
  80G, which the summary deducts (`Filing.DraftTotalOmitsItems`).

## Verifying

All files are given to Dafny 4.11 together:

```
dafny verify --resource-limit 2000000 --verification-time-limit 0 \
  --warn-contradictory-assumptions *.dfy
```

The proofs are meant to stay within that resource limit under any solver
seed (`--boogie /randomSeed:N`).

## Model

| member | source | states |
|---|---|---|
| `Values.Num` | api-endpoints/server.py:1285-1287 | a numeric metadata read is 0 exactly when the stored value is falsy or absent, 1 for `True`, and the stored number otherwise |
| `Values.Text` | api-endpoints/server.py:1312 | a text read returns the stored string, or "" when the key is absent |
| `Values.Upper` | api-endpoints/server.py:1312 | upper-casing keeps the length and maps each character independently |
| `Values.Lower` | api-endpoints/server.py:1330 | lower-casing keeps the length and maps each character independently |
| `Values.ContainsIff` | api-endpoints/server.py:1316 | the substring test `'80C' in section` holds exactly when the pattern occurs at some position |
| `Documents.KindOf` | api-endpoints/server.py:96-141 | parsing a type string and naming the kind gives the string back (no type string is lost) |
| `Documents.Record` | api-endpoints/server.py:1280-1281 | a stored document reports exactly the type string, id, metadata and upload time it was given |
| `Documents.OfKind` | api-endpoints/server.py:1783 | the filter keeps every document of the kind, as often as the input holds it, and nothing else; it is empty exactly when no document has the kind |
| `Documents.MissingFields` | api-endpoints/server.py:220-222 | a required field is reported exactly when it is absent or falsy |
| `Documents.FieldErrors` | api-endpoints/server.py:220-222 | one error message per missing field, each naming exactly one missing field |
| `Documents.ExtractFallback` | api-endpoints/server.py:207-229 | the user's metadata is kept, and nothing is added except `fileName`, copied from `file_name` only when `fileName` is absent; exactly one "Missing required field" error per required field that is absent or falsy; confidence 0.5 |
| `Slabs.Tax` | api-endpoints/server.py:1383-1397 | the tax is non-negative, zero up to 250000, and never more than 30% of the excess over 250000 |
| `Slabs.OldRegimeSlabsUpward` | api-endpoints/server.py:1386-1397 | each slab's tax at its floor is at least the tax the slab below reaches there, and rates are non-negative |
| `Slabs.TableTaxMonotone` | api-endpoints/server.py:1386-1397 | tax on any upward slab table is non-decreasing in the taxable amount |
| `Slabs.TaxIsTable` | api-endpoints/server.py:1386-1397 | the if-chain of the source equals the slab table read as data |
| `Slabs.TaxMonotone` | api-endpoints/server.py:1386-1397 | more taxable income never means less tax |
| `Slabs.TaxAtEdges` | api-endpoints/server.py:1386-1397 | the tax at each bracket boundary, with the strict `>` comparison |
| `Slabs.TaxJumps` | api-endpoints/server.py:1386-1397 | crossing 700000, 900000 or 1500000 raises the tax by a fixed jump |
| `Summary.ClassifySection` | api-endpoints/server.py:1312-1327 | an investment goes to 80C exactly when its upper-cased section contains "80C", and to 80D exactly when it contains "80D" but not "80C" |
| `Summary.Finish` | api-endpoints/server.py:1356-1401 | net payable minus refund is tax minus TDS, at most one of them is non-zero, and other income is interest plus capital gains; nothing else changes |
| `Summary.Aggregate` | api-endpoints/server.py:1231-1403 | the summary of a document list is finished: payable and refund balance tax against TDS, and one of them is zero |
| `Summary.AccumulateIsSum` | api-endpoints/server.py:1279-1354 | each additive total of the loop equals the sum of the documents' contributions |
| `Summary.SumOfPermutation` | api-endpoints/server.py:1279-1354 | a sum of contributions does not depend on document order |
| `Summary.AggregateSumsArePermutationInvariant` | api-endpoints/server.py:1279-1354 | TDS, bank interest, capital gains and deduction totals are the same for any reordering of the documents |
| `Summary.AddToSectionBalanced` | api-endpoints/server.py:1317-1342 | appending a detail and its amount keeps a section's total equal to the sum of its details |
| `Summary.AccumulateInvariants` | api-endpoints/server.py:1235-1354 | the loop never touches NPS, advance tax or self-assessment tax, and every section's total equals the sum of its details |
| `Summary.AggregateNeverFillsNps` | api-endpoints/server.py:1244-1276 | a computed summary always has NPS total, advance tax and self-assessment tax 0 |
| `Summary.StepNonNegative` | api-endpoints/server.py:1279-1354 | a document with non-negative amounts keeps every summary field non-negative |
| `Summary.AggregateNonNegative` | api-endpoints/server.py:1356-1401 | non-negative documents give a non-negative summary and non-negative capped deductions |
| `Summary.Section80CWinsOver80D` | api-endpoints/server.py:1316-1327 | a section naming both 80C and 80D counts only toward 80C |
| `Summary.StepIdentity` | api-endpoints/server.py:1292-1295 | one document keeps a truthy PAN and employer name; a falsy PAN is replaced by a salary slip's `pan`, a falsy employer name by a slip's `employer` or a Form 16's `employer_name`, and other kinds leave both alone |
| `Summary.NoSlipPanFalsy` | api-endpoints/server.py:1294-1295 | without a salary slip carrying a truthy `pan`, the accumulated PAN stays falsy |
| `Summary.NoEmployerFalsy` | api-endpoints/server.py:1292-1305 | without a salary slip or Form 16 offering a truthy employer, the accumulated employer name stays falsy |
| `Summary.FirstPanWinsAccumulate` | api-endpoints/server.py:1294-1295 | the accumulated PAN is the `pan` of the first salary slip whose `pan` is truthy |
| `Summary.FirstPanWins` | api-endpoints/server.py:1294-1295 | the summary's PAN is the `pan` of the first salary slip whose `pan` is truthy; later slips never overwrite it |
| `Summary.NoPanWithoutSlip` | api-endpoints/server.py:1294-1295 | with no salary slip carrying a truthy `pan`, the summary's PAN is falsy |
| `Summary.FirstEmployerWinsAccumulate` | api-endpoints/server.py:1292-1305 | the accumulated employer name comes from the first salary slip (`employer`) or Form 16 (`employer_name`) offering a truthy one |
| `Summary.FirstEmployerWins` | api-endpoints/server.py:1292-1305 | the summary's employer name comes from the first salary slip (`employer`) or Form 16 (`employer_name`) offering a truthy one; later documents never overwrite it |
| `Summary.NoEmployerWithoutOffer` | api-endpoints/server.py:1292-1305 | with no truthy employer offered, the summary's employer name is falsy |
| `Summary.SalarySlipStep` | api-endpoints/server.py:1283-1290 | a salary slip adds its gross salary to the total salary |
| `Summary.Form16Step` | api-endpoints/server.py:1297-1301 | a Form 16 raises the total salary to its total income, never adds it |
| `Summary.TotalSalaryIsOrderSensitive` | api-endpoints/server.py:1289-1301 | a slip then a Form 16 gives a different total salary than the reverse order |
| `Summary.ExampleSteps` | api-endpoints/server.py:1283-1327 | a worked slip and an 80C proof step the summary as the source does |
| `Summary.SalaryAnd80CExample` | api-endpoints/server.py:1231-1403 | a ₹12 lakh salary with ₹90,000 TDS and a ₹1.5 lakh 80C proof gives taxable ₹10 lakh, tax ₹82,500 and a refund of ₹7,500 |
| `Regime.EffectiveRate` | api-endpoints/server.py:1502-1512 | the effective rate is tax as a percentage of taxable income, with taxable income floored at 1 |
| `Regime.FallbackComparison` | api-endpoints/server.py:1484-1517 | new-regime taxable income ignores every deduction but the standard one; old is recommended exactly when its tax is strictly lower; savings are the gap between the two taxes |
| `Regime.OldRegimeNeverWorseFor` | api-endpoints/server.py:1484-1514 | with non-negative deductions the old regime's taxable income and tax are never above the new regime's |
| `Regime.OldRegimeNeverWorse` | api-endpoints/server.py:1484-1514 | for every document list with non-negative amounts the old regime's tax is never above the new regime's, and the savings are exactly the difference |
| `Gaps.CompletionPercentage` | api-endpoints/server.py:1849-1863 | the completion percentage lies in [0, 100], and is 100 when nothing is required |
| `Gaps.IncompleteForm16` | api-endpoints/server.py:1791-1800 | one fixed "Missing Part A or Part B" entry per Form 16 that lacks both parts, so the list is non-empty exactly when some Form 16 does |
| `Gaps.NoForm16NoneLacking` | api-endpoints/server.py:1783-1800 | with no Form 16 uploaded, no Form 16 lacks its parts, so skipping the check loses nothing |
| `Gaps.MissingDocuments` | api-endpoints/server.py:1782-1809 | Form 16 and Form 26AS are reported missing exactly when no document of that kind exists, in that order |
| `Gaps.Recommendations` | api-endpoints/server.py:1811-1839 | each of the three recommendations is made exactly under its condition, at most once, in the order investment proof, rent receipt, bank interest, and nothing else is recommended |
| `Gaps.RecommendationParts` | api-endpoints/server.py:1811-1839 | concatenating the three optional recommendations contains each exactly when its part is present, holds nothing else, and keeps the source's order |
| `Gaps.AnalyzeGaps` | api-endpoints/server.py:1740-1847 | the status is ready exactly when both Form 16 and Form 26AS are present; one incomplete entry per Form 16 lacking both parts; the missing list and recommendations as above; completion in [0, 100] |
| `Gaps.GapCatalogShape` | api-endpoints/server.py:1743-1774 | the catalog requires exactly Form 16 and Form 26AS |
| `Gaps.OptionalCountIsOther` | api-endpoints/server.py:1860 | the optional documents are those of any kind other than the two required ones |
| `Gaps.CompletionOverGapCatalog` | api-endpoints/server.py:1849-1863 | completion is 40 per required kind present plus 5 per other document, the latter capped at 20 |
| `Gaps.NoDocumentsIff` | api-endpoints/server.py:1851-1860 | no required kind present and no other document happens exactly for an empty list |
| `Gaps.CompletionFull` | api-endpoints/server.py:1849-1863 | completion is 100 exactly when both required kinds and at least four other documents are present |
| `Gaps.CompletionEmpty` | api-endpoints/server.py:1849-1863 | completion is 0 exactly for an empty document list |
| `Gaps.ExtremesOf` | api-endpoints/server.py:1859-1863 | the completion formula reaches 100 and 0 exactly at its extremes |
| `Consistency.KindSum` | api-endpoints/server.py:1877-1879 | the sum over documents of a kind is 0 without such documents and non-negative for non-negative metadata |
| `Consistency.Pans` | api-endpoints/server.py:1908-1912 | the PAN set holds exactly the upper-cased PANs of documents that carry one |
| `Consistency.MultiplePansIff` | api-endpoints/server.py:1914 | more than one PAN is found exactly when two documents carry PANs that differ after upper-casing |
| `Consistency.Lacking26asIff` | api-endpoints/server.py:1923-1932 | the count of incomplete Form 26AS documents is positive exactly when one lacks a non-zero TDS total |
| `Consistency.Missing26asWarnings` | api-endpoints/server.py:1923-1932 | one low-severity warning per Form 26AS without a TDS total |
| `Consistency.TdsInconsistencies` | api-endpoints/server.py:1876-1890 | a TDS mismatch, carrying the absolute difference, is raised exactly when both TDS sums are positive and differ by more than 100 |
| `Consistency.VarianceWarnings` | api-endpoints/server.py:1892-1905 | an income variance, carrying the absolute difference, is raised exactly when both sums are positive and differ by more than 5% of the Form 16 income |
| `Consistency.PanWarnings` | api-endpoints/server.py:1907-1920 | one PAN warning exactly when the documents disagree on the PAN |
| `Consistency.CheckConsistencies` | api-endpoints/server.py:1865-1939 | status is clean exactly when there are no inconsistencies; total issues counts both lists; each warning kind occurs exactly as often as its check fires |
| `Consistency.WarningCounts` | api-endpoints/server.py:1899-1932 | the warnings list holds exactly the variance, PAN and 26AS warnings, and never a TDS mismatch |
| `Consistency.TdsMismatchCases` | api-endpoints/server.py:1881-1890 | for one Form 16 and one Form 26AS with positive TDS, the report has issues exactly when the two differ by more than 100 |
| `Consistency.ZeroForm26asIsOnlyAWarning` | api-endpoints/server.py:1876-1932 | a Form 26AS with zero TDS leaves the report clean with one issue counted |
| `Calendar.YearStep` | api-endpoints/server.py:1094 | consecutive January firsts lie one year's length apart under the Gregorian leap rule |
| `Calendar.OrdinalNextDay` | api-endpoints/server.py:1094 | the next calendar day has the next ordinal, so date differences count days |
| `Calendar.OrdinalMonotone` | api-endpoints/server.py:1094 | ordinals follow calendar order |
| `Calendar.DaysUntil` | api-endpoints/server.py:2506 | whole days to a deadline's midnight, rounded toward minus infinity as `timedelta.days` does |
| `Calendar.DaysBetween` | api-endpoints/server.py:1094 | `(b - a).days` is the difference of the two ordinals: positive when `a` is earlier, negative when it is later, 0 for equal dates |
| `Calendar.DaysBetweenCountsDays` | api-endpoints/server.py:1094 | the day difference counts calendar days: moving the later date on to the next calendar day adds exactly one |
| `Calendar.DecimalRoundTrip` | api-endpoints/server.py:2515 | the zero-padded decimal text of a number reads back as that number |
| `Calendar.DecimalWidth` | api-endpoints/server.py:1027-1083 | below 10 to the width, the padded decimal has exactly that many digits |
| `Calendar.TextLessAppend` | api-endpoints/server.py:1100 | after prefixes of equal length, string order is decided by the prefixes unless they are equal |
| `Calendar.DigitsOrder` | api-endpoints/server.py:1100 | on digit strings of one length, string order is numeric order and equal strings have equal values |
| `Calendar.DecimalOrder` | api-endpoints/server.py:1100 | padded decimals of one width compare as their numbers do, and are equal exactly for equal numbers |
| `Calendar.DashedTextOrder` | api-endpoints/server.py:1100 | three dash-separated fields of matching widths compare field by field |
| `Calendar.IsoTextOrder` | api-endpoints/server.py:1027-1100 | for four-digit years, the `YYYY-MM-DD` text of one date is smaller exactly when the date is earlier, and equal exactly for the same date |
| `Insights.TaxSavings` | api-endpoints/server.py:2577-2600 | savings are never negative and at least the drop in tax the extra deduction brings |
| `Insights.SavingsBounds` | api-endpoints/server.py:2577-2600 | savings never exceed the current tax and grow with the extra deduction |
| `Insights.SavingsExtremes` | api-endpoints/server.py:2577-2600 | no extra deduction saves nothing, and one covering all taxable income saves the whole tax |
| `Insights.HraOpportunity` | api-endpoints/server.py:2351-2369 | the HRA opportunity never fires: its guard leaves no rent receipts to sum |
| `Insights.Section80COpportunity` | api-endpoints/server.py:2371-2386 | the 80C opportunity fires exactly when more than ₹10,000 of room is left, and prices the whole room |
| `Insights.Section80DOpportunity` | api-endpoints/server.py:2388-2403 | the 80D opportunity fires exactly when more than ₹5,000 of room is left, and prices the whole room |
| `Insights.NpsOpportunity` | api-endpoints/server.py:2405-2420 | the NPS opportunity fires exactly when more than ₹10,000 of room is left, and prices the whole room |
| `Insights.DetectOpportunities` | api-endpoints/server.py:2346-2422 | one insight per deduction with room (80C below 140000, 80D below 20000, NPS below 40000), in that order, and nothing else; HRA never appears |
| `Insights.AggregateAlwaysSuggestsNps` | api-endpoints/server.py:2405-2420 | for every computed summary the NPS opportunity is offered |
| `Insights.TdsRisks` | api-endpoints/server.py:2430-2442 | one critical risk per TDS-mismatch inconsistency |
| `Insights.DetectRisks` | api-endpoints/server.py:2424-2488 | each risk category appears exactly under its condition, the count adds up, and only TDS risks are critical |
| `Insights.BankInterestWithoutCertificates` | api-endpoints/server.py:1307-1309 | bank interest is 0 without bank interest certificates |
| `Insights.AggregateNeverUndeclared` | api-endpoints/server.py:2458-2472 | on a computed summary the undeclared-bank-interest risk never fires |
| `Insights.TdsRiskIffMismatch` | api-endpoints/server.py:2430-2442 | the TDS risk appears exactly when the consistency check flags the TDS sums |
| `Insights.AdvanceTaxNudge` | api-endpoints/server.py:2505-2519 | an installment nudge fires exactly 0 to 7 days ahead, critical exactly at 3 days or fewer |
| `Insights.ItrNudge` | api-endpoints/server.py:2521-2536 | the ITR nudge fires exactly 0 to 30 days before July 31 of next year |
| `Insights.CurrentYearNudges` | api-endpoints/server.py:2497-2519 | one nudge exactly when June 15, September 15 or December 15 of this year is 0 to 7 days away, never more; it carries its days left and is critical exactly at 3 days or fewer |
| `Insights.UpcomingDeadlines` | api-endpoints/server.py:2490-2538 | the deadline feed holds one nudge exactly when a Q1 to Q3 installment of this year is 0 to 7 days away, and never more; the nudge carries its days left and is critical exactly at 3 days or fewer |
| `Insights.NextYearNudgesNeverFire` | api-endpoints/server.py:2502-2536 | the Q4 installment and ITR nudges, dated next year, never fire |
| `Insights.NextYearIsFar` | api-endpoints/server.py:2502-2522 | March 15 and July 31 of next year are always more than 30 days away |
| `Insights.InstallmentSpacing` | api-endpoints/server.py:2498-2501 | the Q1, Q2 and Q3 dates lie 92 and 91 days apart |
| `Insights.HeadlineDeductions` | api-endpoints/server.py:2546-2550 | the headline total caps 80C and 80D but counts HRA in full |
| `Insights.HeadlineCountsRawHra` | api-endpoints/server.py:2546-2550 | unlike the summary, the headline total counts HRA above half the salary |
| `Insights.SuggestOptimizations` | api-endpoints/server.py:2540-2575 | the old-regime suggestion appears exactly when headline deductions pass ₹2 lakh, the standard-deduction note exactly when total salary is positive, and nothing else |
| `Insights.Insert` | api-endpoints/server.py:2339-2342 | inserting keeps the feed sorted by (priority rank, time stamp), adds exactly the new insight, and puts it last when it is not smaller |
| `Insights.SortInsights` | api-endpoints/server.py:2339-2342 | the sort yields a sorted permutation of its input in which insights with equal keys keep their input order (stability) |
| `Insights.InsertStable` | api-endpoints/server.py:2339-2342 | inserting puts the new insight behind every insight with its key and keeps the order of those insights |
| `Insights.SortKeepsSorted` | api-endpoints/server.py:2339-2342 | sorting a feed that is already in key order leaves it unchanged |
| `Insights.Generated` | api-endpoints/server.py:2316-2336 | every insight of the four concatenated feeds carries the call's time stamp |
| `Insights.TiedAtStamp` | api-endpoints/server.py:2339-2342 | when all time stamps agree, the insights sharing a sort key are exactly those of one priority |
| `Insights.GenerateInsights` | api-endpoints/server.py:2316-2344 | the feed is sorted, holds exactly the opportunities, risks, nudges and optimizations, all with the call's time stamp, and the insights of each priority keep the order in which they were generated |
| `Insights.CriticalFirst` | api-endpoints/server.py:2339-2342 | in a sorted feed everything before a critical insight is critical |
| `Insights.InsightsFeed` | api-endpoints/server.py:2740-2757 | the endpoint's feed is empty exactly when no document is uploaded |
| `Insights.FeedNonEmpty` | api-endpoints/server.py:2747-2757 | with documents the generated feed is never empty |
| `Health.RoundHalfEven` | api-endpoints/server.py:2699 | rounding stays within a half of its input and breaks ties toward the even integer |
| `Health.RoundIsNearest` | api-endpoints/server.py:2699 | the rounded value is an integer nearest to its input |
| `Health.RoundMonotone` | api-endpoints/server.py:2699 | rounding is monotone |
| `Health.DocumentFactor` | api-endpoints/server.py:2610-2619 | the document factor scales completion to 30 points |
| `Health.ConsistencyFactor` | api-endpoints/server.py:2621-2634 | the consistency factor is 25 when clean and loses 5 per issue otherwise, never below 0 |
| `Health.DeductionFactor` | api-endpoints/server.py:2636-2657 | the deduction factor is 20, 15, 10 or 5 by the ₹2, 1.5 and 1 lakh thresholds |
| `Health.PlanningFactor` | api-endpoints/server.py:2659-2677 | the planning factor is 15, 12, 10 or 5, each exactly under its condition |
| `Health.ComplianceFactor` | api-endpoints/server.py:2679-2696 | the compliance factor loses 3 points per missing document and is 0 from three missing on |
| `Health.CalculateHealth` | api-endpoints/server.py:2602-2724 | the score is the rounded sum of the five factors, lies in [0, 100], and the level follows from the score |
| `Health.HealthMonotoneInCompletion` | api-endpoints/server.py:2610-2699 | more complete documents never lower the score |
| `Health.HealthEndpoint` | api-endpoints/server.py:2786-2802 | the endpoint scores 0 with no factors exactly when no document is uploaded, and in [0, 100] otherwise |
| `Health.NothingUploadedScores49` | api-endpoints/server.py:2602-2713 | scoring an empty document list gives 49 at level needs_improvement |
| `Health.ScoreOfNothing` | api-endpoints/server.py:2602-2713 | zero completion, a clean report, no deductions, no payable tax and two missing documents score 49 |
| `Health.FactorsOfDocuments` | api-endpoints/server.py:2621-2696 | consistency points are lost exactly on a TDS mismatch; compliance is at least 4, and 10 exactly when both required kinds are present |
| `Filing.DeductionSchedule` | api-endpoints/server.py:1977-1985 | the draft's deductions are the summary's capped deductions item by item |
| `Filing.GenerateItrDraft` | api-endpoints/server.py:1941-2017 | gross salary, TDS, interest, capital gains, taxable income, payable and refund are the summary's own; gross income adds salary and other income; the deductions total adds 80C, 80D, HRA and the standard deduction; payable and refund balance tax against TDS; the verification block has no place, today's date and a signature required |
| `Filing.DraftTotalOmitsItems` | api-endpoints/server.py:1986-1994 | the draft's deductions total lacks exactly the 24(b), 80E and 80G items the summary deducts |
| `Filing.Title` | api-endpoints/server.py:2045 | `str.title()` upper-cases letters that start a word and lower-cases the others, keeping the length |
| `Filing.TitleIdempotent` | api-endpoints/server.py:2045 | title-casing twice is title-casing once |
| `Filing.Unscore` | api-endpoints/server.py:2045 | underscores become spaces and nothing else changes |
| `Filing.Form26asHeading` | api-endpoints/server.py:2045 | `form_26as` becomes the heading "Form 26As" |
| `Filing.UploadItems` | api-endpoints/server.py:2043-2049 | one pending upload item per missing document, with its priority and description |
| `Filing.VerifyItems` | api-endpoints/server.py:2051-2057 | one completed, low-priority verify item per uploaded document, with its upload time |
| `Filing.IssueItems` | api-endpoints/server.py:2060-2074 | one pending item per inconsistency or warning, with its severity |
| `Filing.CollectionStage` | api-endpoints/server.py:2023-2057 | collection is complete exactly when the gaps are ready; pending uploads come first, then completed verifications |
| `Filing.VerificationStage` | api-endpoints/server.py:2028-2074 | verification is clean exactly when the report is clean, with one pending item per issue |
| `Filing.PreparationStage` | api-endpoints/server.py:2032-2096 | preparation is ready, and its auto-fill item completed, exactly when the gaps are ready |
| `Filing.GenerateChecklist` | api-endpoints/server.py:2019-2120 | the checklist is the four stages, with filing not started |
| `Filing.FilingPending` | api-endpoints/server.py:2098-2118 | the filing stage's three tasks are all pending |
| `Filing.OpenTasks` | api-endpoints/server.py:2019-2120 | the pending tasks are the missing documents, the issues, two or three preparation tasks and three filing tasks |
| `Filing.ChecklistOfDocuments` | api-endpoints/server.py:2145-2149 | the verification items number the report's total issues; collection is complete exactly when Form 16 and Form 26AS are present, and then every item is completed |
| `Filing.CompletionStatusOf` | api-endpoints/server.py:2157-2161 | overall completion averages the documents score with verification (100 if clean, else 50), lies in [25, 100], and is 100 exactly when both are full |
| `Filing.FilingCompletion` | api-endpoints/server.py:2145-2161 | overall completion is 100 exactly when both required kinds, four other documents and no TDS mismatch are present |
| `Filing.AnalyzeForFiling` | api-endpoints/server.py:2122-2162 | the analysis's completion lies in [25, 100] with the same exact-100 condition, and its collection stage is complete exactly when the gaps are ready |
| `Deadlines.FinancialYearContainsToday` | api-endpoints/server.py:1010-1015 | the default financial year is the April-to-March year containing today |
| `Deadlines.OrdinalOrder` | api-endpoints/server.py:1093-1097 | one date's ordinal is smaller exactly when the date is earlier, and equal exactly for the same date |
| `Deadlines.DateLeIsKeyOrder` | api-endpoints/server.py:1100 | for four-digit years, comparing the `date` texts orders dates exactly as the model's date order does |
| `Deadlines.Classify` | api-endpoints/server.py:1091-1097 | the days until a deadline are the difference of the ordinals of its date and today; it is overdue exactly when it is before today, and upcoming exactly when it is 0 to 30 days ahead |
| `Deadlines.ClassifyAll` | api-endpoints/server.py:1092-1097 | every deadline is classified against the same day |
| `Deadlines.InsertByDate` | api-endpoints/server.py:1100 | inserting keeps the list in date order and adds exactly the new deadline |
| `Deadlines.SortByDate` | api-endpoints/server.py:1100 | the sort yields a date-ordered permutation of its input |
| `Deadlines.SortedArrangementUnique` | api-endpoints/server.py:1100 | two date-ordered arrangements of the same deadlines with distinct dates are equal |
| `Deadlines.ChronologicalIncreasing` | api-endpoints/server.py:1025-1088 | the seven deadlines in chronological order have strictly increasing dates |
| `Deadlines.ChronologicalIsRotation` | api-endpoints/server.py:1025-1088 | the chronological order is the declared order with the two ITR deadlines moved to the end |
| `Deadlines.ClassifiedDeclared` | api-endpoints/server.py:1025-1097 | the seven deadlines are classified in their declared order |
| `Deadlines.Table` | api-endpoints/server.py:1025-1097 | the reference table: the seven classified deadlines in chronological order |
| `Deadlines.TableShape` | api-endpoints/server.py:1025-1100 | the reference table is date-ordered with distinct dates and holds exactly the declared deadlines |
| `Deadlines.SortedIsTable` | api-endpoints/server.py:1099-1100 | sorting the declared deadlines gives the reference table |
| `Deadlines.IncreasingKeys` | api-endpoints/server.py:1100 | entries with four-digit-year deadlines in increasing date order have strictly increasing `date` texts |
| `Deadlines.ChronologicalKeyed` | api-endpoints/server.py:1027-1083 | every date of the table is valid and has a four-digit year |
| `Deadlines.DeadlinesInKeyOrder` | api-endpoints/server.py:1100 | the returned deadlines are in strictly increasing order of their `date` text, the source's sort key |
| `Deadlines.GetDeadlines` | api-endpoints/server.py:1005-1107 | the response names the financial year, counts seven deadlines and lists the reference table |
| `Deadlines.DayNumbersSpread` | api-endpoints/server.py:1025-1088 | consecutive deadlines are more than 30 days apart |
| `Deadlines.AtMostOneUpcoming` | api-endpoints/server.py:1090-1100 | at most one deadline is upcoming on any day |

## Left out

- Document upload, storage and retrieval are not modelled. Neither are the
  PDF/OCR text extraction, the Gemini extraction and chat, Firestore, Firebase
  Storage, the Places search and the PDF renderers. They are I/O or foreign
  calls; the model starts from the document list the store returns.
- The Gemini regime comparison is not modelled, only the fallback computed when
  Gemini fails.
- Formatted messages (`₹{x:,.0f}`, `f"... {days} day{'s'}"`) and the descriptions
  of issues are carried as opaque text or left out. Their number formatting is
  presentation only.
- Float rounding is not modelled: amounts are exact reals, so results agree
  with Python wherever the doubles are exact.
- Numeric strings in metadata (`float("123")`) are not parsed. The precondition
  `NumericAt` excludes non-empty strings, for which Python either parses or
  raises.
- Upper- and lower-casing, and `str.title()`, are modelled for ASCII only.
  Python's Unicode case tables are not modelled.
- The text of the PAN-mismatch warning is not modelled, because the order of
  `', '.join` over a set is unspecified.
- The financial-year label is not parsed: `Deadlines.GetDeadlines` takes the
  starting year as a number or none. `TableYear` bounds it to four-digit years,
  so that the ISO date text sorts like the dates.
- Insights of one call share one time stamp, though the source reads the clock
  for each insight. The reads differ only by microseconds.
- `Insights.ItrNudge` and `Insights.UpcomingDeadlines` require a year below 9999,
  since `datetime(year + 1, …)` would raise in year 9999.
- The ITR draft's user-profile address and its `last_updated` time stamp are
  not modelled. The `completeness` figures are carried as the constants the
  source writes, with no contract about them.
- The deadline records' constant `type` field is not modelled. Neither are the
  chat history, user-added deadlines, the health score's `month` label
  (`%Y-%m` of the clock) and the previous month's health score.
- Nested list and dict metadata values, such as `part_a` holding a list, are
  not representable in `Values.Value`. A non-empty one is truthy in Python; the
  model reads only scalars and strings.
- `analyze_document_gaps` takes a `financial_year` argument that it never reads,
  so the model has no such parameter.
- `extract_metadata_fallback` takes the extracted document text but never reads
  it, so `Documents.ExtractFallback` has no such parameter.
- The store's `document_type` is assumed to be a string. A document built with
  `Documents.Record` holds `Unknown(n)` only for a name `n` outside the eleven
  known kinds.

=== FILE: calendar.dfy ===
/**
 The proleptic Gregorian calendar the pipeline's date arithmetic runs on:
 day ordinals (day 1 is 0001-01-01), whole days between a date and a moment
 as `timedelta.days` gives them (rounded toward minus infinity), and the
 `%B %d, %Y` date text of the deadline nudges.
 */
module Calendar {

  predicate Leap(y: int) {
    y % 4 == 0 && (y % 100 != 0 || y % 400 == 0)
  }

  function DaysInMonth(y: int, m: int): int
    requires 1 <= m <= 12
  {
    if m == 2 then (if Leap(y) then 29 else 28)
    else if m == 4 || m == 6 || m == 9 || m == 11 then 30
    else 31
  }

  function DaysInYear(y: int): int {
    if Leap(y) then 366 else 365
  }

  /** Days of the year `y` before the first of month `m`. */
  function DaysBeforeMonth(y: int, m: int): (r: int)
    requires 1 <= m <= 12
    ensures 28 * (m - 1) <= r <= 31 * (m - 1)
  {
    if m == 1 then 0 else DaysBeforeMonth(y, m - 1) + DaysInMonth(y, m - 1)
  }

  /** Days before January 1 of year `y`. */
  function DaysBeforeYear(y: int): (r: int)
    requires y >= 1
    ensures 365 * (y - 1) <= r <= 366 * (y - 1)
  {
    var n := y - 1;
    365 * n + n / 4 - n / 100 + n / 400
  }

  datatype Date = Date(year: int, month: int, day: int)

  /** A date `datetime.date` accepts. */
  predicate ValidDate(d: Date) {
    1 <= d.year <= 9999 && 1 <= d.month <= 12 && 1 <= d.day <= DaysInMonth(d.year, d.month)
  }

  /** `date.toordinal()`. */
  function Ordinal(d: Date): int
    requires ValidDate(d)
  {
    DaysBeforeYear(d.year) + DaysBeforeMonth(d.year, d.month) + d.day
  }

  /** The first of each month as a day-of-year offset. */
  lemma MonthTable(y: int)
    ensures DaysBeforeMonth(y, 2) == 31
    ensures DaysBeforeMonth(y, 3) == 59 + (if Leap(y) then 1 else 0)
    ensures DaysBeforeMonth(y, 4) == 90 + (if Leap(y) then 1 else 0)
    ensures DaysBeforeMonth(y, 5) == 120 + (if Leap(y) then 1 else 0)
    ensures DaysBeforeMonth(y, 6) == 151 + (if Leap(y) then 1 else 0)
    ensures DaysBeforeMonth(y, 7) == 181 + (if Leap(y) then 1 else 0)
    ensures DaysBeforeMonth(y, 8) == 212 + (if Leap(y) then 1 else 0)
    ensures DaysBeforeMonth(y, 9) == 243 + (if Leap(y) then 1 else 0)
    ensures DaysBeforeMonth(y, 10) == 273 + (if Leap(y) then 1 else 0)
    ensures DaysBeforeMonth(y, 11) == 304 + (if Leap(y) then 1 else 0)
    ensures DaysBeforeMonth(y, 12) == 334 + (if Leap(y) then 1 else 0)
  {
    var leap := if Leap(y) then 1 else 0;
    assert DaysBeforeMonth(y, 2) == 31;
    assert DaysBeforeMonth(y, 3) == 59 + leap;
    assert DaysBeforeMonth(y, 4) == 90 + leap;
    assert DaysBeforeMonth(y, 5) == 120 + leap;
    assert DaysBeforeMonth(y, 6) == 151 + leap;
    assert DaysBeforeMonth(y, 7) == 181 + leap;
    assert DaysBeforeMonth(y, 8) == 212 + leap;
    assert DaysBeforeMonth(y, 9) == 243 + leap;
    assert DaysBeforeMonth(y, 10) == 273 + leap;
    assert DaysBeforeMonth(y, 11) == 304 + leap;
    assert DaysBeforeMonth(y, 12) == 334 + leap;
  }

  /** The twelve months fill the year. */
  lemma MonthsFillYear(y: int)
    ensures DaysBeforeMonth(y, 12) + DaysInMonth(y, 12) == DaysInYear(y)
  {
    MonthTable(y);
  }

  /** The leap rule in the year count: consecutive January firsts lie a
      year's length apart. */
  lemma YearStep(y: int)
    requires y >= 1
    ensures DaysBeforeYear(y + 1) == DaysBeforeYear(y) + DaysInYear(y)
  {
    LeapStep(y - 1);
  }

  /** The leap-day count grows by one exactly across a leap year. */
  lemma LeapStep(n: int)
    ensures (n + 1) / 4 - n / 4 - ((n + 1) / 100 - n / 100) + ((n + 1) / 400 - n / 400)
            == if Leap(n + 1) then 1 else 0
  {
    Quotient4Step(n);
    Quotient100Step(n);
    Quotient400Step(n);
  }

  lemma Quotient4Step(n: int)
    ensures (n + 1) / 4 == n / 4 + (if (n + 1) % 4 == 0 then 1 else 0)
  {
  }

  lemma Quotient100Step(n: int)
    ensures (n + 1) / 100 == n / 100 + (if (n + 1) % 100 == 0 then 1 else 0)
  {
  }

  lemma Quotient400Step(n: int)
    ensures (n + 1) / 400 == n / 400 + (if (n + 1) % 400 == 0 then 1 else 0)
  {
  }

  /** The calendar successor of a date, written independently of ordinals. */
  function NextDay(d: Date): Date
    requires ValidDate(d)
  {
    if d.day < DaysInMonth(d.year, d.month) then Date(d.year, d.month, d.day + 1)
    else if d.month < 12 then Date(d.year, d.month + 1, 1)
    else Date(d.year + 1, 1, 1)
  }

  /** Ordinals count days: the next calendar day has the next ordinal. */
  lemma OrdinalNextDay(d: Date)
    requires ValidDate(d) && d.year < 9999
    ensures ValidDate(NextDay(d))
    ensures Ordinal(NextDay(d)) == Ordinal(d) + 1
  {
    if d.day == DaysInMonth(d.year, d.month) && d.month == 12 {
      MonthsFillYear(d.year);
      YearStep(d.year);
    }
  }

  /** Calendar order on dates (the order of their zero-padded ISO text). */
  predicate Before(a: Date, b: Date) {
    a.year < b.year
    || (a.year == b.year && a.month < b.month)
    || (a.year == b.year && a.month == b.month && a.day < b.day)
  }

  lemma {:induction false} DaysBeforeYearMonotone(a: int, b: int)
    requires 1 <= a <= b
    ensures DaysBeforeYear(a) + (if a < b then DaysInYear(a) else 0) <= DaysBeforeYear(b)
    decreases b - a
  {
    if a < b {
      YearStep(a);
      if a + 1 < b {
        DaysBeforeYearMonotone(a + 1, b);
      }
    }
  }

  lemma {:induction false} DaysBeforeMonthMonotone(y: int, a: int, b: int)
    requires 1 <= a < b <= 12
    ensures DaysBeforeMonth(y, a) + DaysInMonth(y, a) <= DaysBeforeMonth(y, b)
    decreases b - a
  {
    if a + 1 < b {
      DaysBeforeMonthMonotone(y, a + 1, b);
    }
  }

  lemma DaysBeforeMonthBound(y: int, m: int)
    requires 1 <= m <= 12
    ensures DaysBeforeMonth(y, m) + DaysInMonth(y, m) <= DaysInYear(y)
  {
    if m < 12 {
      DaysBeforeMonthMonotone(y, m, 12);
    }
    MonthsFillYear(y);
  }

  /** A date's ordinal does not pass the last day of its year. */
  lemma OrdinalWithinYear(d: Date)
    requires ValidDate(d) && d.year < 9999
    ensures Ordinal(d) <= DaysBeforeYear(d.year + 1)
  {
    DaysBeforeMonthBound(d.year, d.month);
    YearStep(d.year);
  }

  /** Ordinals follow the calendar order. */
  lemma OrdinalMonotone(a: Date, b: Date)
    requires ValidDate(a) && ValidDate(b) && Before(a, b)
    ensures Ordinal(a) < Ordinal(b)
  {
    if a.year < b.year {
      DaysBeforeMonthBound(a.year, a.month);
      DaysBeforeYearMonotone(a.year, b.year);
    } else if a.month < b.month {
      DaysBeforeMonthMonotone(a.year, a.month, b.month);
    }
  }

  // ---------------------------------------------------------------------
  // Moments and whole days.

  /** Microseconds in a day. */
  const DayMicros: int := 86400000000

  /** A UTC moment: a date and the microseconds elapsed since its midnight. */
  datatype Instant = Instant(date: Date, micros: int)

  predicate ValidInstant(t: Instant) {
    ValidDate(t.date) && 0 <= t.micros < DayMicros
  }

  /** `(datetime(deadline) - now).days`: whole days from `now` to the
      deadline's midnight, rounded toward minus infinity. */
  function DaysUntil(deadline: Date, now: Instant): (r: int)
    requires ValidDate(deadline) && ValidInstant(now)
    ensures r * DayMicros <= (Ordinal(deadline) - Ordinal(now.date)) * DayMicros - now.micros < (r + 1) * DayMicros
  {
    Ordinal(deadline) - Ordinal(now.date) - (if now.micros > 0 then 1 else 0)
  }

  /** `(b - a).days` for two dates: the difference of their ordinals,
      positive when `a` comes first and negative when `b` does. */
  function DaysBetween(a: Date, b: Date): (r: int)
    requires ValidDate(a) && ValidDate(b)
    ensures r == Ordinal(b) - Ordinal(a)
    ensures Before(a, b) ==> r > 0
    ensures Before(b, a) ==> r < 0
    ensures a == b ==> r == 0
  {
    if Before(a, b) then
      OrdinalMonotone(a, b);
      Ordinal(b) - Ordinal(a)
    else if Before(b, a) then
      OrdinalMonotone(b, a);
      Ordinal(b) - Ordinal(a)
    else Ordinal(b) - Ordinal(a)
  }

  /** Counting in calendar steps: moving the later date one calendar day on
      adds exactly one day. */
  lemma DaysBetweenCountsDays(a: Date, b: Date)
    requires ValidDate(a) && ValidDate(b) && b.year < 9999
    ensures ValidDate(NextDay(b)) && DaysBetween(a, NextDay(b)) == DaysBetween(a, b) + 1
  {
    OrdinalNextDay(b);
  }

  /** The timestamp of a moment in microseconds since 0001-01-01, the order
      in which its ISO text sorts. */
  function Stamp(t: Instant): (r: nat)
    requires ValidInstant(t)
  {
    (Ordinal(t.date) - 1) * DayMicros + t.micros
  }

  // ---------------------------------------------------------------------
  // `strftime('%B %d, %Y')`

  const MonthNames: seq<string> := ["January", "February", "March", "April", "May", "June", "July",
    "August", "September", "October", "November", "December"]

  function DigitChar(n: int): char
    requires 0 <= n <= 9
  {
    "0123456789"[n]
  }

  /** A non-negative number in decimal, at least `width` digits, zero-padded. */
  function Decimal(n: nat, width: nat): (s: string)
    ensures |s| >= width
    ensures forall i :: 0 <= i < |s| ==> '0' <= s[i] <= '9'
    decreases n + width
  {
    var last := [DigitChar(n % 10)];
    if n < 10 && width <= 1 then last
    else Decimal(n / 10, if width > 0 then width - 1 else 0) + last
  }

  /** Reading the digits back gives the number. */
  function DigitsValue(s: string): nat
    requires forall i :: 0 <= i < |s| ==> '0' <= s[i] <= '9'
  {
    if |s| == 0 then 0 else DigitsValue(s[..|s| - 1]) * 10 + (s[|s| - 1] as int - '0' as int)
  }

  lemma {:induction false} DecimalRoundTrip(n: nat, width: nat)
    ensures DigitsValue(Decimal(n, width)) == n
    decreases n + width
  {
    var s := Decimal(n, width);
    DigitCharValue(n % 10);
    if !(n < 10 && width <= 1) {
      var w := if width > 0 then width - 1 else 0;
      DecimalRoundTrip(n / 10, w);
      var front := Decimal(n / 10, w);
      assert s == front + [DigitChar(n % 10)];
      assert s[..|s| - 1] == front;
    }
  }

  lemma DigitCharValue(d: int)
    requires 0 <= d <= 9
    ensures DigitChar(d) as int - '0' as int == d
  {
  }

  // ---------------------------------------------------------------------
  // `f"{year}-{mm}-{dd}"` and Python's string order on it

  /** The ISO text of a date with a four-digit year, as the deadline table
      writes it. */
  function IsoDate(d: Date): (s: string)
    requires 1000 <= d.year <= 9999 && 1 <= d.month && 1 <= d.day
  {
    Dashed(Decimal(d.year, 4), Decimal(d.month, 2), Decimal(d.day, 2))
  }

  function Dashed(y: string, m: string, d: string): string {
    y + "-" + m + "-" + d
  }

  /** Python's `<` on strings: lexicographic by code point, a proper prefix first. */
  predicate TextLess(a: string, b: string) {
    if |a| == 0 then |b| > 0
    else if |b| == 0 then false
    else if a[0] == b[0] then TextLess(a[1..], b[1..])
    else a[0] < b[0]
  }

  /** Below `10^width`, the padded decimal has exactly `width` digits. */
  lemma {:induction false} DecimalWidth(n: nat, width: nat, bound: nat)
    requires width >= 1 && n < bound && bound == Pow10(width)
    ensures |Decimal(n, width)| == width
    decreases width
  {
    if !(n < 10 && width <= 1) {
      assert width > 1;
      DecimalWidth(n / 10, width - 1, Pow10(width - 1));
    }
  }

  function Pow10(k: nat): nat {
    if k == 0 then 1 else 10 * Pow10(k - 1)
  }

  /** Comparing after equal-length prefixes: the prefixes decide unless they agree. */
  lemma {:induction false} TextLessAppend(s: string, t: string, u: string, v: string)
    requires |s| == |t|
    ensures TextLess(s + u, t + v) <==> TextLess(s, t) || (s == t && TextLess(u, v))
    decreases |s|
  {
    if |s| > 0 {
      assert (s + u)[0] == s[0] && (t + v)[0] == t[0];
      assert (s + u)[1..] == s[1..] + u && (t + v)[1..] == t[1..] + v;
      TextLessAppend(s[1..], t[1..], u, v);
      if s[0] == t[0] {
        assert s == t <==> s[1..] == t[1..] by {
          if s[1..] == t[1..] { assert s == [s[0]] + s[1..] && t == [t[0]] + t[1..]; }
        }
      }
    } else {
      assert s + u == u && t + v == v;
    }
  }

  predicate AllDigits(s: string) {
    forall i :: 0 <= i < |s| ==> '0' <= s[i] <= '9'
  }

  lemma DigitPairOrder(x: nat, c: int, y: nat, e: int)
    requires 0 <= c <= 9 && 0 <= e <= 9
    ensures x * 10 + c < y * 10 + e <==> x < y || (x == y && c < e)
    ensures x * 10 + c == y * 10 + e <==> x == y && c == e
  {
    if x < y { assert x * 10 + 10 <= y * 10; }
    if y < x { assert y * 10 + 10 <= x * 10; }
  }

  /** On digit strings of one length, string order is numeric order. */
  lemma {:induction false} DigitsOrder(s: string, t: string)
    requires AllDigits(s) && AllDigits(t) && |s| == |t|
    ensures TextLess(s, t) <==> DigitsValue(s) < DigitsValue(t)
    ensures s == t <==> DigitsValue(s) == DigitsValue(t)
    decreases |s|
  {
    if |s| > 0 {
      var n := |s| - 1;
      var p, q := s[..n], t[..n];
      assert s == p + [s[n]] && t == q + [t[n]];
      DigitsOrder(p, q);
      TextLessAppend(p, q, [s[n]], [t[n]]);
      assert TextLess([s[n]], [t[n]]) <==> s[n] < t[n] by {
        assert [s[n]][1..] == [] && [t[n]][1..] == [];
      }
      DigitPairOrder(DigitsValue(p), s[n] as int - '0' as int, DigitsValue(q), t[n] as int - '0' as int);
    } else {
      assert s == [] && t == [];
    }
  }

  /** Padded decimals of one width compare as their numbers do. */
  lemma DecimalOrder(a: nat, b: nat, width: nat)
    requires width >= 1 && a < Pow10(width) && b < Pow10(width)
    ensures |Decimal(a, width)| == width && |Decimal(b, width)| == width
    ensures TextLess(Decimal(a, width), Decimal(b, width)) <==> a < b
    ensures Decimal(a, width) == Decimal(b, width) <==> a == b
  {
    DecimalWidth(a, width, Pow10(width));
    DecimalWidth(b, width, Pow10(width));
    DecimalRoundTrip(a, width);
    DecimalRoundTrip(b, width);
    DigitsOrder(Decimal(a, width), Decimal(b, width));
  }

  /** Three dash-separated fields of matching widths compare field by field. */
  lemma DashedTextOrder(y1: string, m1: string, d1: string, y2: string, m2: string, d2: string)
    requires |y1| == |y2| && |m1| == |m2|
    ensures TextLess(Dashed(y1, m1, d1), Dashed(y2, m2, d2))
            <==> TextLess(y1, y2) || (y1 == y2 && (TextLess(m1, m2) || (m1 == m2 && TextLess(d1, d2))))
    ensures Dashed(y1, m1, d1) == Dashed(y2, m2, d2) <==> y1 == y2 && m1 == m2 && d1 == d2
  {
    var dash1, dash2 := "-" + d1, "-" + d2;
    var rest1, rest2 := "-" + (m1 + dash1), "-" + (m2 + dash2);
    assert Dashed(y1, m1, d1) == y1 + rest1 && Dashed(y2, m2, d2) == y2 + rest2;
    TextLessAppend(y1, y2, rest1, rest2);
    TextLessAppend("-", "-", m1 + dash1, m2 + dash2);
    TextLessAppend(m1, m2, dash1, dash2);
    TextLessAppend("-", "-", d1, d2);
    assert !TextLess("-", "-") by { assert "-"[1..] == ""; }
    assert y1 + rest1 == y2 + rest2 <==> y1 == y2 && rest1 == rest2 by {
      if y1 + rest1 == y2 + rest2 {
        assert y1 == (y1 + rest1)[..|y1|] && y2 == (y2 + rest2)[..|y1|];
        assert rest1 == (y1 + rest1)[|y1|..] && rest2 == (y2 + rest2)[|y1|..];
      }
    }
    assert rest1 == rest2 <==> m1 == m2 && d1 == d2 by {
      if rest1 == rest2 {
        assert m1 == rest1[1..|m1| + 1] && m2 == rest2[1..|m1| + 1];
        assert d1 == rest1[|m1| + 2..] && d2 == rest2[|m1| + 2..];
      }
    }
  }

  /** For four-digit years, ISO text order is calendar order. */
  lemma IsoTextOrder(a: Date, b: Date)
    requires ValidDate(a) && ValidDate(b) && 1000 <= a.year && 1000 <= b.year
    ensures TextLess(IsoDate(a), IsoDate(b)) <==> Before(a, b)
    ensures IsoDate(a) == IsoDate(b) <==> a == b
  {
    assert Pow10(2) == 100 && Pow10(4) == 10000;
    assert a.day <= 31 && b.day <= 31;
    var ya, ma, da := Decimal(a.year, 4), Decimal(a.month, 2), Decimal(a.day, 2);
    var yb, mb, db := Decimal(b.year, 4), Decimal(b.month, 2), Decimal(b.day, 2);
    DecimalOrder(a.year, b.year, 4);
    DecimalOrder(a.month, b.month, 2);
    DecimalOrder(a.day, b.day, 2);
    DashedTextOrder(ya, ma, da, yb, mb, db);
  }

  /** `January 05, 2025`. */
  function LongDate(d: Date): (s: string)
    requires ValidDate(d)
  {
    MonthNames[d.month - 1] + " " + Decimal(d.day, 2) + ", " + Decimal(d.year, 4)
  }
}

=== FILE: consistency.dfy ===
/**
 The cross-document consistency check: Form 16 against Form 26AS TDS, Form 16
 income against the salary slips, PAN agreement, and Form 26AS uploads without
 a TDS total.
 */
module Consistency {
  import opened Values
  import opened Documents

  datatype IssueKind = TdsMismatch | IncomeVariance | PanMismatch | Missing26asData

  /** One reported issue. The formatted description text is not modelled. */
  datatype Issue = Issue(kind: IssueKind, severity: Priority, difference: Option<real>, action: string)

  datatype ReportStatus = Clean | IssuesFound

  datatype Report = Report(
    inconsistencies: seq<Issue>,
    warnings: seq<Issue>,
    status: ReportStatus,
    totalIssues: nat)

  // ---------------------------------------------------------------------
  // Per-kind sums.

  /** Every document of kind `k` holds a value `float(v or 0)` accepts under `key`. */
  predicate NumericFor(docs: seq<Document>, k: DocKind, key: string) {
    forall i :: 0 <= i < |docs| && docs[i].Kind() == k ==> NumericAt(docs[i].metadata, key)
  }

  /** `sum(float(d['metadata'].get(key, 0) or 0) for d in docs if kind is k)`. */
  function KindSum(docs: seq<Document>, k: DocKind, key: string): (r: real)
    requires NumericFor(docs, k, key)
    ensures !HasKind(docs, k) ==> r == 0.0
    ensures (forall i :: 0 <= i < |docs| ==> NonNegative(docs[i].metadata)) ==> r >= 0.0
  {
    if |docs| == 0 then 0.0
    else
      assert NumericFor(docs[1..], k, key) by {
        forall i | 0 <= i < |docs[1..]| ensures docs[1..][i] == docs[i + 1] { }
      }
      assert !HasKind(docs, k) ==> !HasKind(docs[1..], k) by {
        if HasKind(docs[1..], k) {
          var i :| 0 <= i < |docs[1..]| && docs[1..][i].Kind() == k;
          assert docs[i + 1].Kind() == k;
        }
      }
      var head := if docs[0].Kind() == k then Num(docs[0].metadata, key) else 0.0;
      assert NonNegative(docs[0].metadata) ==> head >= 0.0 by {
        if docs[0].Kind() == k && NonNegative(docs[0].metadata) {
          NumNonNegative(docs[0].metadata, key);
        }
      }
      head + KindSum(docs[1..], k, key)
  }

  function Abs(x: real): real { if x >= 0.0 then x else -x }

  // ---------------------------------------------------------------------
  // PAN numbers.

  /** A document carries a PAN when its `pan` value is truthy. */
  predicate HasPan(d: Document) {
    "pan" in d.metadata && Truthy(d.metadata["pan"])
  }

  /** A truthy PAN must be a string for `.upper()` to apply. */
  predicate PanReadable(d: Document) {
    HasPan(d) ==> d.metadata["pan"].VStr?
  }

  function PanOf(d: Document): string
    requires HasPan(d) && PanReadable(d)
  {
    Upper(d.metadata["pan"].s)
  }

  /** The set of upper-cased PANs of the documents. */
  function Pans(docs: seq<Document>): (r: set<string>)
    requires forall i :: 0 <= i < |docs| ==> PanReadable(docs[i])
    ensures forall p :: p in r <==> exists i :: 0 <= i < |docs| && HasPan(docs[i]) && PanOf(docs[i]) == p
  {
    if |docs| == 0 then {}
    else
      var rest := Pans(docs[1..]);
      assert forall p :: p in rest <==> exists i :: 1 <= i < |docs| && HasPan(docs[i]) && PanOf(docs[i]) == p by {
        forall p ensures p in rest <==> exists i :: 1 <= i < |docs| && HasPan(docs[i]) && PanOf(docs[i]) == p {
          if p in rest {
            var i :| 0 <= i < |docs[1..]| && HasPan(docs[1..][i]) && PanOf(docs[1..][i]) == p;
            assert docs[i + 1] == docs[1..][i];
          }
          if exists i :: 1 <= i < |docs| && HasPan(docs[i]) && PanOf(docs[i]) == p {
            var i :| 1 <= i < |docs| && HasPan(docs[i]) && PanOf(docs[i]) == p;
            assert docs[1..][i - 1] == docs[i];
          }
        }
      }
      if HasPan(docs[0]) then {PanOf(docs[0])} + rest else rest
  }

  /** Two documents whose PANs differ after upper-casing. */
  predicate PansDisagree(docs: seq<Document>)
    requires forall i :: 0 <= i < |docs| ==> PanReadable(docs[i])
  {
    exists i, j :: 0 <= i < |docs| && 0 <= j < |docs| && HasPan(docs[i]) && HasPan(docs[j])
                   && PanOf(docs[i]) != PanOf(docs[j])
  }

  /** More than one distinct PAN exactly when two documents disagree. */
  lemma MultiplePansIff(docs: seq<Document>)
    requires forall i :: 0 <= i < |docs| ==> PanReadable(docs[i])
    ensures |Pans(docs)| > 1 <==> PansDisagree(docs)
  {
    if |Pans(docs)| > 1 {
      TwoPansDisagree(docs);
    }
    if PansDisagree(docs) {
      DisagreeingPansAreTwo(docs);
    }
  }

  lemma TwoPansDisagree(docs: seq<Document>)
    requires forall i :: 0 <= i < |docs| ==> PanReadable(docs[i])
    requires |Pans(docs)| > 1
    ensures PansDisagree(docs)
  {
    var s := Pans(docs);
    var p :| p in s;
    assert |s - {p}| > 0;
    var q :| q in s - {p};
    assert p in s && q in s && p != q;
    var i :| 0 <= i < |docs| && HasPan(docs[i]) && PanOf(docs[i]) == p;
    var j :| 0 <= j < |docs| && HasPan(docs[j]) && PanOf(docs[j]) == q;
  }

  lemma DisagreeingPansAreTwo(docs: seq<Document>)
    requires forall i :: 0 <= i < |docs| ==> PanReadable(docs[i])
    requires PansDisagree(docs)
    ensures |Pans(docs)| > 1
  {
    var i, j :| 0 <= i < |docs| && 0 <= j < |docs| && HasPan(docs[i]) && HasPan(docs[j])
                && PanOf(docs[i]) != PanOf(docs[j]);
    PanInPans(docs, i);
    PanInPans(docs, j);
    TwoElements(Pans(docs), PanOf(docs[i]), PanOf(docs[j]));
  }

  lemma PanInPans(docs: seq<Document>, i: int)
    requires forall i :: 0 <= i < |docs| ==> PanReadable(docs[i])
    requires 0 <= i < |docs| && HasPan(docs[i])
    ensures PanOf(docs[i]) in Pans(docs)
  {
  }

  lemma TwoElements(s: set<string>, p: string, q: string)
    requires p in s && q in s && p != q
    ensures |s| > 1
  {
    SubsetCardinality({p, q}, s);
  }

  lemma SubsetCardinality(a: set<string>, b: set<string>)
    requires a <= b
    ensures |a| <= |b|
  {
    assert b == a + (b - a);
  }

  // ---------------------------------------------------------------------
  // The consistency check itself.

  /** What the source's reads demand of the documents. The salary slips'
      TDS sum is computed (and must parse) although nothing uses it. */
  predicate ConsistencyReadable(docs: seq<Document>) {
    && NumericFor(docs, Form16, "tds")
    && NumericFor(docs, Form16, "total_income")
    && NumericFor(docs, SalarySlip, "tds")
    && NumericFor(docs, SalarySlip, "gross_salary")
    && NumericFor(docs, Form26AS, "total_tds")
    && (forall i :: 0 <= i < |docs| ==> PanReadable(docs[i]))
  }

  const TdsAction: string := "Verify TDS amounts in Form 16 and Form 26AS. Contact employer if discrepancy exists."
  const IncomeAction: string := "Review if all salary slips are included or if there are other income sources"
  const PanAction: string := "Ensure all documents belong to the same PAN"
  const Missing26asAction: string := "Verify Form 26AS is complete and matches your income sources"

  const Missing26asWarning: Issue := Issue(Missing26asData, Low, None, Missing26asAction)

  /** A Form 26AS upload whose `total_tds` is missing or falsy. */
  predicate Lacks26asTotal(d: Document) {
    d.Kind() == Form26AS && !Truthy(Get(d.metadata, "total_tds", VNull))
  }

  /** The number of Form 26AS uploads without a TDS total. */
  function Lacking26as(docs: seq<Document>): nat {
    if |docs| == 0 then 0
    else (if Lacks26asTotal(docs[0]) then 1 else 0) + Lacking26as(docs[1..])
  }

  lemma {:induction false} Lacking26asIff(docs: seq<Document>)
    ensures Lacking26as(docs) > 0 <==> exists i :: 0 <= i < |docs| && Lacks26asTotal(docs[i])
  {
    if |docs| > 0 {
      Lacking26asIff(docs[1..]);
      if exists i :: 0 <= i < |docs| && Lacks26asTotal(docs[i]) {
        var i :| 0 <= i < |docs| && Lacks26asTotal(docs[i]);
        if i > 0 { assert docs[1..][i - 1] == docs[i]; }
      }
      if exists i :: 0 <= i < |docs[1..]| && Lacks26asTotal(docs[1..][i]) {
        var i :| 0 <= i < |docs[1..]| && Lacks26asTotal(docs[1..][i]);
        assert docs[i + 1] == docs[1..][i];
      }
    }
  }

  /** One low-severity warning per Form 26AS without a TDS total. */
  function Missing26asWarnings(docs: seq<Document>): (r: seq<Issue>)
    ensures |r| == Lacking26as(docs)
    ensures forall i :: 0 <= i < |r| ==> r[i] == Missing26asWarning
  {
    if |docs| == 0 then []
    else
      var rest := Missing26asWarnings(docs[1..]);
      if Lacks26asTotal(docs[0]) then [Missing26asWarning] + rest else rest
  }

  /** Form 16 and Form 26AS both report TDS and differ by more than 100. */
  predicate TdsFlagged(form16Tds: real, form26asTds: real) {
    form16Tds > 0.0 && form26asTds > 0.0 && Abs(form16Tds - form26asTds) > 100.0
  }

  /** Both incomes are positive and differ by more than 5% of the Form 16 figure. */
  predicate IncomeFlagged(form16Income: real, salaryIncome: real) {
    form16Income > 0.0 && salaryIncome > 0.0 && Abs(form16Income - salaryIncome) > form16Income * 0.05
  }

  /** The severity each kind of issue is reported with. */
  function SeverityOf(k: IssueKind): Priority {
    match k
    case TdsMismatch => High
    case IncomeVariance => Medium
    case PanMismatch => Medium
    case Missing26asData => Low
  }

  /** How many issues of kind `k` a list holds. */
  function CountKind(issues: seq<Issue>, k: IssueKind): nat {
    if |issues| == 0 then 0
    else CountKind(issues[..|issues| - 1], k) + (if issues[|issues| - 1].kind == k then 1 else 0)
  }

  lemma {:induction false} CountKindAppend(a: seq<Issue>, b: seq<Issue>, k: IssueKind)
    ensures CountKind(a + b, k) == CountKind(a, k) + CountKind(b, k)
    decreases |b|
  {
    if |b| == 0 {
      assert a + b == a;
    } else {
      assert (a + b)[..|a + b| - 1] == a + b[..|b| - 1];
      CountKindAppend(a, b[..|b| - 1], k);
    }
  }

  /** A list whose issues all have kind `k0` counts all of them under `k0`, none elsewhere. */
  lemma {:induction false} CountKindUniform(issues: seq<Issue>, k0: IssueKind, k: IssueKind)
    requires forall i :: 0 <= i < |issues| ==> issues[i].kind == k0
    ensures CountKind(issues, k) == if k == k0 then |issues| else 0
  {
    if |issues| > 0 {
      CountKindUniform(issues[..|issues| - 1], k0, k);
    }
  }

  /** An issue is well formed when it carries its kind's severity. */
  predicate WellFormed(issues: seq<Issue>) {
    forall i :: 0 <= i < |issues| ==> issues[i].severity == SeverityOf(issues[i].kind)
  }

  function VarianceWarnings(income16: real, incomeSalary: real): (r: seq<Issue>)
    ensures |r| == if IncomeFlagged(income16, incomeSalary) then 1 else 0
    ensures forall i :: 0 <= i < |r| ==> r[i].kind == IncomeVariance && r[i].difference == Some(Abs(income16 - incomeSalary))
    ensures WellFormed(r)
  {
    if income16 > 0.0 && incomeSalary > 0.0 && Abs(income16 - incomeSalary) > income16 * 0.05
    then [Issue(IncomeVariance, Medium, Some(Abs(income16 - incomeSalary)), IncomeAction)]
    else []
  }

  function PanWarnings(docs: seq<Document>): (r: seq<Issue>)
    requires forall i :: 0 <= i < |docs| ==> PanReadable(docs[i])
    ensures |r| == if PansDisagree(docs) then 1 else 0
    ensures forall i :: 0 <= i < |r| ==> r[i].kind == PanMismatch
    ensures WellFormed(r)
  {
    MultiplePansIff(docs);
    if |Pans(docs)| > 1 then [Issue(PanMismatch, Medium, None, PanAction)] else []
  }

  function TdsInconsistencies(tds16: real, tds26as: real): (r: seq<Issue>)
    ensures |r| == if TdsFlagged(tds16, tds26as) then 1 else 0
    ensures forall i :: 0 <= i < |r| ==> r[i].kind == TdsMismatch && r[i].difference == Some(Abs(tds16 - tds26as))
    ensures WellFormed(r)
  {
    if tds16 > 0.0 && tds26as > 0.0 && Abs(tds16 - tds26as) > 100.0
    then [Issue(TdsMismatch, High, Some(Abs(tds16 - tds26as)), TdsAction)]
    else []
  }

  /** `check_consistencies`. */
  function CheckConsistencies(docs: seq<Document>): (r: Report)
    requires ConsistencyReadable(docs)
    ensures r.status == Clean <==> |r.inconsistencies| == 0
    ensures r.totalIssues == |r.inconsistencies| + |r.warnings|
    ensures |r.inconsistencies| == if TdsFlagged(KindSum(docs, Form16, "tds"), KindSum(docs, Form26AS, "total_tds")) then 1 else 0
    ensures forall i :: 0 <= i < |r.inconsistencies| ==> r.inconsistencies[i].kind == TdsMismatch
    ensures CountKind(r.warnings, IncomeVariance)
            == if IncomeFlagged(KindSum(docs, Form16, "total_income"), KindSum(docs, SalarySlip, "gross_salary")) then 1 else 0
    ensures CountKind(r.warnings, PanMismatch) == if PansDisagree(docs) then 1 else 0
    ensures CountKind(r.warnings, Missing26asData) == Lacking26as(docs)
    ensures CountKind(r.warnings, TdsMismatch) == 0
    ensures WellFormed(r.inconsistencies) && WellFormed(r.warnings)
  {
    var inconsistencies := TdsInconsistencies(KindSum(docs, Form16, "tds"), KindSum(docs, Form26AS, "total_tds"));
    var tdsSalary := KindSum(docs, SalarySlip, "tds");
    var variance := VarianceWarnings(KindSum(docs, Form16, "total_income"), KindSum(docs, SalarySlip, "gross_salary"));
    var pan := PanWarnings(docs);
    var missing := Missing26asWarnings(docs);
    var warnings := variance + pan + missing;
    WarningCounts(variance, pan, missing);
    Report(inconsistencies, warnings,
      if |inconsistencies| == 0 then Clean else IssuesFound,
      |inconsistencies| + |warnings|)
  }

  /** Counting the three warning groups of the consistency check. */
  lemma WarningCounts(variance: seq<Issue>, pan: seq<Issue>, missing: seq<Issue>)
    requires forall i :: 0 <= i < |variance| ==> variance[i].kind == IncomeVariance
    requires forall i :: 0 <= i < |pan| ==> pan[i].kind == PanMismatch
    requires forall i :: 0 <= i < |missing| ==> missing[i] == Missing26asWarning
    requires WellFormed(variance) && WellFormed(pan)
    ensures CountKind(variance + pan + missing, IncomeVariance) == |variance|
    ensures CountKind(variance + pan + missing, PanMismatch) == |pan|
    ensures CountKind(variance + pan + missing, Missing26asData) == |missing|
    ensures CountKind(variance + pan + missing, TdsMismatch) == 0
    ensures WellFormed(variance + pan + missing)
  {
    forall k ensures CountKind(variance + pan + missing, k)
                     == CountKind(variance, k) + CountKind(pan, k) + CountKind(missing, k) {
      CountKindAppend(variance, pan, k);
      CountKindAppend(variance + pan, missing, k);
    }
    forall k ensures CountKind(variance, k) == if k == IncomeVariance then |variance| else 0 {
      CountKindUniform(variance, IncomeVariance, k);
    }
    forall k ensures CountKind(pan, k) == if k == PanMismatch then |pan| else 0 {
      CountKindUniform(pan, PanMismatch, k);
    }
    forall k ensures CountKind(missing, k) == if k == Missing26asData then |missing| else 0 {
      CountKindUniform(missing, Missing26asData, k);
    }
    var w := variance + pan + missing;
    forall i | 0 <= i < |w| ensures w[i].severity == SeverityOf(w[i].kind) {
      if i < |variance| { assert w[i] == variance[i]; }
      else if i < |variance| + |pan| { assert w[i] == pan[i - |variance|]; }
      else { assert w[i] == missing[i - |variance| - |pan|]; }
    }
  }

  // ---------------------------------------------------------------------
  // Worked cases.

  function Form16With(tds: real): Document {
    Document("f16", Form16, map["tds" := VNum(tds)], None)
  }

  function Form26asWith(totalTds: real): Document {
    Document("26as", Form26AS, map["total_tds" := VNum(totalTds)], None)
  }

  lemma PairSums(a: real, b: real)
    ensures ConsistencyReadable([Form16With(a), Form26asWith(b)])
    ensures KindSum([Form16With(a), Form26asWith(b)], Form16, "tds") == a
    ensures KindSum([Form16With(a), Form26asWith(b)], Form26AS, "total_tds") == b
  {
    var docs := [Form16With(a), Form26asWith(b)];
    assert docs[1..] == [Form26asWith(b)];
    assert docs[1..][1..] == [];
  }

  /** Positive TDS figures more than 100 apart are one high-severity
      inconsistency carrying the difference; within 100 the report is clean
      (so 50000 against 40000 is flagged, 40100 against 40000 is not). */
  lemma TdsMismatchCases(a: real, b: real)
    requires a > 0.0 && b > 0.0
    ensures var r := CheckConsistencies([Form16With(a), Form26asWith(b)]);
            (r.status == IssuesFound <==> a > b + 100.0 || b > a + 100.0)
            && (r.status == IssuesFound ==> r.inconsistencies[0].difference == Some(Abs(a - b)))
  {
    PairSums(a, b);
  }

  /** A Form 26AS with a zero total is a warning, not an inconsistency: the
      report counts one issue and stays clean. */
  lemma ZeroForm26asIsOnlyAWarning(a: real)
    requires a > 0.0
    ensures CheckConsistencies([Form16With(a), Form26asWith(0.0)]).status == Clean
    ensures CheckConsistencies([Form16With(a), Form26asWith(0.0)]).totalIssues == 1
  {
    var docs := [Form16With(a), Form26asWith(0.0)];
    PairSums(a, 0.0);
    assert Lacking26as(docs) == 1 by {
      var tail := [Form26asWith(0.0)];
      assert docs[1..] == tail;
      assert tail[1..] == [];
      assert Lacks26asTotal(tail[0]);
      assert Lacking26as(tail) == 1;
      assert !Lacks26asTotal(docs[0]);
    }
    assert !PansDisagree(docs);
    assert KindSum(docs, SalarySlip, "gross_salary") == 0.0 by {
      assert !HasKind(docs, SalarySlip);
    }
  }
}

=== FILE: deadlines.dfy ===
/**
 The tax calendar: the seven statutory dates of an Indian financial year
 (advance-tax installments, the Form 16 issue date and the two ITR filing
 dates), each classified against today as overdue or upcoming, in date order.
 */
module Deadlines {
  import opened Values
  import opened Calendar

  datatype DeadlineCategory = FilingDate | AdvanceTaxDate | TdsDate

  /** The seven statutory dates; the title and description of each are text
      fixed by its kind. */
  datatype DeadlineKind = ItrIndividualDue | ItrBusinessDue | AdvanceQ1Due | AdvanceQ2Due | AdvanceQ3Due
    | AdvanceQ4Due | Form16IssueDue
  {
    function Title(): string {
      match this
      case ItrIndividualDue => "ITR Filing Deadline (Individual)"
      case ItrBusinessDue => "ITR Filing Deadline (Business)"
      case AdvanceQ1Due => "Advance Tax - Q1"
      case AdvanceQ2Due => "Advance Tax - Q2"
      case AdvanceQ3Due => "Advance Tax - Q3"
      case AdvanceQ4Due => "Advance Tax - Q4"
      case Form16IssueDue => "TDS Certificate (Form 16) Due Date"
    }

    function Description(): string {
      match this
      case ItrIndividualDue => "Last date to file Income Tax Return for individuals"
      case ItrBusinessDue => "Last date to file Income Tax Return for businesses"
      case AdvanceQ1Due => "First installment of advance tax (15% of estimated tax)"
      case AdvanceQ2Due => "Second installment of advance tax (45% of estimated tax)"
      case AdvanceQ3Due => "Third installment of advance tax (75% of estimated tax)"
      case AdvanceQ4Due => "Final installment of advance tax (100% of estimated tax)"
      case Form16IssueDue => "Employers must issue Form 16 to employees"
    }
  }

  datatype Deadline = Deadline(kind: DeadlineKind, date: Date, priority: Priority, category: DeadlineCategory)

  datatype Classified = Classified(deadline: Deadline, daysUntil: int, isOverdue: bool, isUpcoming: bool)

  datatype DeadlineTable = DeadlineTable(financialYear: int, deadlines: seq<Classified>, count: nat)

  /** The financial year (by its starting calendar year) that contains `today`:
      it runs from April to March. */
  function DefaultFinancialYear(today: Date): int {
    if today.month >= 4 then today.year else today.year - 1
  }

  lemma FinancialYearContainsToday(today: Date)
    requires ValidDate(today)
    ensures var y := DefaultFinancialYear(today);
            !Before(today, Date(y, 4, 1)) && Before(today, Date(y + 1, 4, 1))
  {
  }

  /** The years whose dates the table handles: four-digit years, so that the
      `YYYY-MM-DD` text sorts in date order, with a following year. */
  predicate TableYear(start: int) {
    1000 <= start <= 9998
  }

  function ItrIndividual(start: int): Deadline {
    Deadline(ItrIndividualDue, Date(start + 1, 7, 31), High, FilingDate)
  }
  function ItrBusiness(start: int): Deadline {
    Deadline(ItrBusinessDue, Date(start + 1, 10, 31), High, FilingDate)
  }
  function AdvanceQ1(start: int): Deadline {
    Deadline(AdvanceQ1Due, Date(start, 6, 15), Medium, AdvanceTaxDate)
  }
  function AdvanceQ2(start: int): Deadline {
    Deadline(AdvanceQ2Due, Date(start, 9, 15), Medium, AdvanceTaxDate)
  }
  function AdvanceQ3(start: int): Deadline {
    Deadline(AdvanceQ3Due, Date(start, 12, 15), Medium, AdvanceTaxDate)
  }
  function AdvanceQ4(start: int): Deadline {
    Deadline(AdvanceQ4Due, Date(start + 1, 3, 15), Medium, AdvanceTaxDate)
  }
  function Form16Issue(start: int): Deadline {
    Deadline(Form16IssueDue, Date(start + 1, 6, 15), Medium, TdsDate)
  }

  /** The deadlines in the order they are declared. */
  function Declared(start: int): seq<Deadline> {
    [ItrIndividual(start), ItrBusiness(start), AdvanceQ1(start), AdvanceQ2(start), AdvanceQ3(start),
     AdvanceQ4(start), Form16Issue(start)]
  }

  /** The same deadlines in calendar order. */
  function Chronological(start: int): seq<Deadline> {
    [AdvanceQ1(start), AdvanceQ2(start), AdvanceQ3(start), AdvanceQ4(start), Form16Issue(start),
     ItrIndividual(start), ItrBusiness(start)]
  }

  // ---------------------------------------------------------------------
  // Classification.

  /** Ordinals order dates exactly as the calendar does. */
  lemma OrdinalOrder(a: Date, b: Date)
    requires ValidDate(a) && ValidDate(b)
    ensures Ordinal(a) < Ordinal(b) <==> Before(a, b)
    ensures Ordinal(a) == Ordinal(b) <==> a == b
  {
    if Before(a, b) {
      OrdinalMonotone(a, b);
    } else if Before(b, a) {
      OrdinalMonotone(b, a);
    }
  }

  /** Whole calendar days from today to the deadline; overdue when negative,
      upcoming when 0 to 30. */
  function Classify(d: Deadline, today: Date): (c: Classified)
    requires ValidDate(d.date) && ValidDate(today)
    ensures c.deadline == d
    ensures c.daysUntil == Ordinal(d.date) - Ordinal(today)
    ensures c.isOverdue <==> Before(d.date, today)
    ensures c.daysUntil == 0 <==> d.date == today
    ensures c.isUpcoming <==> !Before(d.date, today) && c.daysUntil <= 30
  {
    var days := DaysBetween(today, d.date);
    OrdinalOrder(d.date, today);
    Classified(d, days, days < 0, 0 <= days <= 30)
  }

  function ClassifyAll(ds: seq<Deadline>, today: Date): (r: seq<Classified>)
    requires forall i :: 0 <= i < |ds| ==> ValidDate(ds[i].date)
    requires ValidDate(today)
    ensures |r| == |ds|
    ensures forall i :: 0 <= i < |ds| ==> r[i] == Classify(ds[i], today)
  {
    if |ds| == 0 then [] else [Classify(ds[0], today)] + ClassifyAll(ds[1..], today)
  }

  // ---------------------------------------------------------------------
  // Sorting by date.

  predicate DateLe(a: Date, b: Date) {
    !Before(b, a)
  }

  predicate ChronoSorted(s: seq<Classified>) {
    forall i, j :: 0 <= i < j < |s| ==> DateLe(s[i].deadline.date, s[j].deadline.date)
  }

  predicate DistinctDates(s: seq<Classified>) {
    forall i, j :: 0 <= i < j < |s| ==> s[i].deadline.date != s[j].deadline.date
  }

  lemma DateLeTransitive(a: Date, b: Date, c: Date)
    requires DateLe(a, b) && DateLe(b, c)
    ensures DateLe(a, c)
  {
  }

  /** The source sorts by the `YYYY-MM-DD` text of each date. For
      four-digit years that key orders dates exactly as `DateLe` does. */
  lemma DateLeIsKeyOrder(a: Date, b: Date)
    requires ValidDate(a) && ValidDate(b) && 1000 <= a.year && 1000 <= b.year
    ensures DateLe(a, b) <==> !TextLess(IsoDate(b), IsoDate(a))
    ensures Before(a, b) <==> TextLess(IsoDate(a), IsoDate(b))
  {
    IsoTextOrder(a, b);
    IsoTextOrder(b, a);
  }

  /** Every entry of `s` is dated no later than `d`. */
  predicate AllDateLe(s: seq<Classified>, d: Date) {
    forall i :: 0 <= i < |s| ==> DateLe(s[i].deadline.date, d)
  }

  lemma ChronoSplit(s: seq<Classified>)
    requires ChronoSorted(s) && |s| > 0
    ensures ChronoSorted(s[..|s| - 1]) && AllDateLe(s[..|s| - 1], s[|s| - 1].deadline.date)
  {
  }

  lemma DateBoundedByLast(s: seq<Classified>, d: Date)
    requires ChronoSorted(s) && |s| > 0 && DateLe(s[|s| - 1].deadline.date, d)
    ensures AllDateLe(s, d)
  {
    forall i | 0 <= i < |s| ensures DateLe(s[i].deadline.date, d) {
      if i < |s| - 1 {
        DateLeTransitive(s[i].deadline.date, s[|s| - 1].deadline.date, d);
      }
    }
  }

  lemma DateBoundedByMultiset(front: seq<Classified>, init: seq<Classified>, x: Classified, d: Date)
    requires multiset(front) == multiset(init) + multiset{x}
    requires AllDateLe(init, d) && DateLe(x.deadline.date, d)
    ensures AllDateLe(front, d)
  {
    forall i | 0 <= i < |front| ensures DateLe(front[i].deadline.date, d) {
      var y := front[i];
      assert y in multiset(front);
      if y != x {
        assert y in multiset(init);
        var k :| 0 <= k < |init| && init[k] == y;
      }
    }
  }

  lemma ChronoAppend(s: seq<Classified>, x: Classified)
    requires ChronoSorted(s) && AllDateLe(s, x.deadline.date)
    ensures ChronoSorted(s + [x])
  {
  }

  /** Insert `x` after every entry whose date is not later. */
  function InsertByDate(x: Classified, s: seq<Classified>): (r: seq<Classified>)
    requires ChronoSorted(s)
    ensures ChronoSorted(r)
    ensures multiset(r) == multiset(s) + multiset{x}
  {
    if |s| == 0 then [x]
    else if DateLe(s[|s| - 1].deadline.date, x.deadline.date) then
      DateBoundedByLast(s, x.deadline.date);
      ChronoAppend(s, x);
      s + [x]
    else
      var init := s[..|s| - 1];
      var last := s[|s| - 1];
      ChronoSplit(s);
      var front := InsertByDate(x, init);
      DateBoundedByMultiset(front, init, x, last.deadline.date);
      ChronoAppend(front, last);
      assert s == init + [last];
      front + [last]
  }

  /** `deadlines.sort(key=lambda x: x["date"])`. */
  function SortByDate(xs: seq<Classified>): (r: seq<Classified>)
    ensures ChronoSorted(r)
    ensures multiset(r) == multiset(xs)
  {
    if |xs| == 0 then []
    else
      var init := xs[..|xs| - 1];
      assert xs == init + [xs[|xs| - 1]];
      InsertByDate(xs[|xs| - 1], SortByDate(init))
  }

  /** Two date-ordered arrangements of the same entries, with distinct
      dates, start with the same entry. */
  lemma SameFirst(a: seq<Classified>, b: seq<Classified>)
    requires ChronoSorted(a) && ChronoSorted(b) && DistinctDates(a)
    requires multiset(a) == multiset(b) && |a| > 0 && |b| > 0
    ensures a[0] == b[0]
  {
    assert b[0] in multiset(a);
    var j :| 0 <= j < |a| && a[j] == b[0];
    assert a[0] in multiset(b);
    var k :| 0 <= k < |b| && b[k] == a[0];
    if j > 0 {
      assert false;
    }
  }

  lemma MultisetTail(a: seq<Classified>)
    requires |a| > 0
    ensures multiset(a[1..]) == multiset(a) - multiset{a[0]}
  {
    assert a == [a[0]] + a[1..];
  }

  /** With distinct dates there is only one date-ordered arrangement. */
  lemma {:induction false} SortedArrangementUnique(a: seq<Classified>, b: seq<Classified>)
    requires ChronoSorted(a) && ChronoSorted(b) && DistinctDates(a)
    requires multiset(a) == multiset(b)
    ensures a == b
    decreases |a|
  {
    assert |a| == |multiset(a)| == |multiset(b)| == |b|;
    if |a| > 0 {
      SameFirst(a, b);
      MultisetTail(a);
      MultisetTail(b);
      SortedArrangementUnique(a[1..], b[1..]);
    }
  }

  // ---------------------------------------------------------------------
  // The table.

  function FinancialYearOf(financialYear: Option<int>, today: Date): int {
    if financialYear.Some? then financialYear.value else DefaultFinancialYear(today)
  }

  lemma DatesValid(start: int)
    requires TableYear(start)
    ensures forall i :: 0 <= i < 7 ==> ValidDate(Declared(start)[i].date)
    ensures forall i :: 0 <= i < 7 ==> ValidDate(Chronological(start)[i].date)
  {
  }

  /** Consecutive dates in calendar order put the whole list in order. */
  lemma {:induction false} ChainIncreasing(ds: seq<Deadline>)
    requires forall i :: 0 <= i < |ds| - 1 ==> Before(ds[i].date, ds[i + 1].date)
    ensures forall i, j :: 0 <= i < j < |ds| ==> Before(ds[i].date, ds[j].date)
  {
    if |ds| > 1 {
      var tail := ds[1..];
      assert forall i :: 0 <= i < |tail| ==> tail[i] == ds[i + 1];
      ChainIncreasing(tail);
      forall i, j | 0 <= i < j < |ds|
        ensures Before(ds[i].date, ds[j].date)
      {
        if i > 0 {
          assert ds[i] == tail[i - 1] && ds[j] == tail[j - 1];
        } else if j > 1 {
          assert ds[j] == tail[j - 1] && ds[1] == tail[0];
        }
      }
    }
  }

  lemma ChronologicalIncreasing(start: int)
    requires TableYear(start)
    ensures forall i, j :: 0 <= i < j < 7 ==> Before(Chronological(start)[i].date, Chronological(start)[j].date)
  {
    ChainIncreasing(Chronological(start));
  }

  /** The day numbers of the deadlines in calendar order. */
  function DayNumbers(start: int): (r: seq<int>)
    requires TableYear(start)
    ensures |r| == 7
  {
    [Ordinal(AdvanceQ1(start).date), Ordinal(AdvanceQ2(start).date), Ordinal(AdvanceQ3(start).date),
     Ordinal(AdvanceQ4(start).date), Ordinal(Form16Issue(start).date), Ordinal(ItrIndividual(start).date),
     Ordinal(ItrBusiness(start).date)]
  }

  /** The calendar order moves the two filing dates to the end. */
  lemma ChronologicalIsRotation(start: int)
    ensures Chronological(start) == Declared(start)[2..] + Declared(start)[..2]
  {
    var ds := Declared(start);
    var es := ds[2..] + ds[..2];
    assert |es| == 7;
    assert es[0] == ds[2] && es[1] == ds[3] && es[2] == ds[4] && es[3] == ds[5];
    assert es[4] == ds[6] && es[5] == ds[0] && es[6] == ds[1];
  }

  /** An entry classified against today as `Classify` does it. */
  predicate ClassifiedAs(c: Classified, today: Date) {
    ValidDate(c.deadline.date) && ValidDate(today) && c == Classify(c.deadline, today)
  }

  /** The declared deadlines, each classified against today. */
  function ClassifiedDeclared(start: int, today: Date): (r: seq<Classified>)
    requires TableYear(start) && ValidDate(today)
    ensures |r| == 7
    ensures forall i :: 0 <= i < 7 ==> r[i].deadline == Declared(start)[i] && ClassifiedAs(r[i], today)
  {
    DatesValid(start);
    ClassifyAll(Declared(start), today)
  }

  /** The declared deadlines, classified, in calendar order. */
  function Table(start: int, today: Date): (r: seq<Classified>)
    requires TableYear(start) && ValidDate(today)
    ensures |r| == 7
    ensures forall i :: 0 <= i < 7 ==> r[i].deadline == Chronological(start)[i] && ClassifiedAs(r[i], today)
  {
    var d := ClassifiedDeclared(start, today);
    ChronologicalIsRotation(start);
    Rotated(d, Declared(start), 2, today);
    d[2..] + d[..2]
  }

  /** Rotating the entries rotates their deadlines and keeps each entry. */
  lemma Rotated(d: seq<Classified>, ds: seq<Deadline>, k: int, today: Date)
    requires |d| == |ds| && 0 <= k <= |d|
    requires forall i :: 0 <= i < |d| ==> d[i].deadline == ds[i] && ClassifiedAs(d[i], today)
    ensures forall i :: 0 <= i < |d| ==>
              (d[k..] + d[..k])[i].deadline == (ds[k..] + ds[..k])[i] && ClassifiedAs((d[k..] + d[..k])[i], today)
  {
    forall i | 0 <= i < |d|
      ensures (d[k..] + d[..k])[i].deadline == (ds[k..] + ds[..k])[i] && ClassifiedAs((d[k..] + d[..k])[i], today)
    {
      var j := if i < |d| - k then i + k else i - (|d| - k);
      assert (d[k..] + d[..k])[i] == d[j];
      assert (ds[k..] + ds[..k])[i] == ds[j];
    }
  }

  /** Day numbers of the table's dates. */
  lemma DayNumbersAreOrdinals(start: int)
    requires TableYear(start)
    ensures forall i :: 0 <= i < 7 ==>
              ValidDate(Chronological(start)[i].date) && DayNumbers(start)[i] == Ordinal(Chronological(start)[i].date)
  {
    DatesValid(start);
  }

  /** Moving a prefix to the end keeps the entries. */
  lemma RotationPermutes(d: seq<Classified>, k: int)
    requires 0 <= k <= |d|
    ensures multiset(d[k..] + d[..k]) == multiset(d)
  {
    assert d == d[..k] + d[k..];
  }

  /** The table is date-sorted with distinct dates and holds the declared
      deadlines. */
  lemma TableShape(start: int, today: Date)
    requires TableYear(start) && ValidDate(today)
    ensures ChronoSorted(Table(start, today)) && DistinctDates(Table(start, today))
    ensures multiset(Table(start, today)) == multiset(ClassifiedDeclared(start, today))
  {
    ChronologicalIncreasing(start);
    IncreasingSorted(Table(start, today), Chronological(start));
    RotationPermutes(ClassifiedDeclared(start, today), 2);
  }

  /** Entries carrying deadlines in strictly increasing date order are
      date-sorted with distinct dates. */
  lemma IncreasingSorted(r: seq<Classified>, ds: seq<Deadline>)
    requires |r| == |ds| && forall i :: 0 <= i < |r| ==> r[i].deadline == ds[i]
    requires forall i, j :: 0 <= i < j < |ds| ==> Before(ds[i].date, ds[j].date)
    ensures ChronoSorted(r) && DistinctDates(r)
  {
  }

  /** `deadlines.sort(key=lambda x: x["date"])` on the declared list. */
  function SortDeclared(start: int, today: Date): (r: seq<Classified>)
    requires TableYear(start) && ValidDate(today)
    ensures ChronoSorted(r)
  {
    SortByDate(ClassifiedDeclared(start, today))
  }

  /** Sorting the declared list by date gives the table. */
  lemma SortedIsTable(start: int, today: Date)
    requires TableYear(start) && ValidDate(today)
    ensures SortDeclared(start, today) == Table(start, today)
  {
    TableShape(start, today);
    SortedArrangementUnique(Table(start, today), SortDeclared(start, today));
  }

  /** `_get_tax_deadlines_internal`: the financial year given or the one
      containing today, its seven deadlines classified and sorted by date. */
  function GetDeadlines(financialYear: Option<int>, today: Date): (r: DeadlineTable)
    requires ValidDate(today) && TableYear(FinancialYearOf(financialYear, today))
    ensures r.financialYear == FinancialYearOf(financialYear, today)
    ensures r.count == |r.deadlines| == 7
    ensures r.deadlines == Table(r.financialYear, today)
  {
    var start := FinancialYearOf(financialYear, today);
    var sorted := SortDeclared(start, today);
    SortedIsTable(start, today);
    DeadlineTable(start, sorted, |sorted|)
  }

  /** An entry whose date has a four-digit-year ISO text. */
  predicate Keyed(c: Classified) {
    ValidDate(c.deadline.date) && 1000 <= c.deadline.date.year
  }

  /** Every entry is keyed, and the keys strictly increase. */
  predicate KeysIncreasing(s: seq<Classified>) {
    && (forall i :: 0 <= i < |s| ==> Keyed(s[i]))
    && forall i, j :: 0 <= i < j < |s| ==> TextLess(IsoDate(s[i].deadline.date), IsoDate(s[j].deadline.date))
  }

  /** Entries carrying keyed deadlines in increasing date order have
      increasing keys. */
  lemma IncreasingKeys(r: seq<Classified>, ds: seq<Deadline>)
    requires |r| == |ds| && forall i :: 0 <= i < |r| ==> r[i].deadline == ds[i]
    requires forall i :: 0 <= i < |ds| ==> ValidDate(ds[i].date) && 1000 <= ds[i].date.year
    requires forall i, j :: 0 <= i < j < |ds| ==> Before(ds[i].date, ds[j].date)
    ensures KeysIncreasing(r)
  {
    forall i, j | 0 <= i < j < |r|
      ensures TextLess(IsoDate(r[i].deadline.date), IsoDate(r[j].deadline.date))
    {
      DateLeIsKeyOrder(ds[i].date, ds[j].date);
    }
  }

  lemma ChronologicalKeyed(start: int)
    requires TableYear(start)
    ensures forall i :: 0 <= i < 7 ==> ValidDate(Chronological(start)[i].date) && 1000 <= Chronological(start)[i].date.year
  {
    DatesValid(start);
  }

  /** The returned list is in strictly increasing order of its `date` text,
      the key the source sorts by. */
  lemma DeadlinesInKeyOrder(financialYear: Option<int>, today: Date)
    requires ValidDate(today) && TableYear(FinancialYearOf(financialYear, today))
    ensures KeysIncreasing(GetDeadlines(financialYear, today).deadlines)
  {
    var start := FinancialYearOf(financialYear, today);
    ChronologicalIncreasing(start);
    ChronologicalKeyed(start);
    IncreasingKeys(Table(start, today), Chronological(start));
  }

  /** Consecutive deadlines lie more than 30 days apart. */
  lemma DayNumbersSpread(start: int)
    requires TableYear(start)
    ensures forall i :: 0 <= i < 6 ==> DayNumbers(start)[i + 1] - DayNumbers(start)[i] > 30
  {
    MonthTable(start);
    MonthTable(start + 1);
    YearStep(start);
    var o := DayNumbers(start);
    assert o[1] - o[0] > 30 && o[2] - o[1] > 30 && o[3] - o[2] > 30;
    assert o[4] - o[3] > 30 && o[5] - o[4] > 30 && o[6] - o[5] > 30;
  }

  /** Steps of more than 30 spread every pair more than 30 apart. */
  lemma {:induction false} SpreadOut(xs: seq<int>)
    requires forall i :: 0 <= i < |xs| - 1 ==> xs[i + 1] - xs[i] > 30
    ensures forall i, j :: 0 <= i < j < |xs| ==> xs[j] - xs[i] > 30
  {
    if |xs| > 1 {
      var tail := xs[1..];
      assert forall i :: 0 <= i < |tail| ==> tail[i] == xs[i + 1];
      SpreadOut(tail);
      forall i, j | 0 <= i < j < |xs|
        ensures xs[j] - xs[i] > 30
      {
        if i > 0 {
          assert xs[i] == tail[i - 1] && xs[j] == tail[j - 1];
        } else if j > 1 {
          assert xs[j] == tail[j - 1] && xs[1] == tail[0];
        }
      }
    }
  }

  /** The dates lie more than 30 days apart, so at most one is upcoming. */
  lemma AtMostOneUpcoming(financialYear: Option<int>, today: Date)
    requires ValidDate(today) && TableYear(FinancialYearOf(financialYear, today))
    ensures var r := GetDeadlines(financialYear, today).deadlines;
            forall i, j :: 0 <= i < j < |r| ==> !(r[i].isUpcoming && r[j].isUpcoming)
  {
    var start := FinancialYearOf(financialYear, today);
    DayNumbersSpread(start);
    SpreadOut(DayNumbers(start));
    DayNumbersAreOrdinals(start);
  }
}

=== FILE: documents.dfy ===
/**
 Document records as the store hands them to the pipeline, the eleven
 document kinds, their required-field catalog, and the metadata validation
 of the extraction fallback.
 */
module Documents {
  import opened Values

  /** The eleven document kinds the system knows, and every other type string. */
  datatype DocKind =
    | SalarySlip
    | Form16
    | Form26AS
    | BankInterestCertificate
    | InvestmentProof
    | HomeLoanStatement
    | RentReceipt
    | CapitalGains
    | DonationReceipt
    | MedicalBill
    | EducationLoan
    | Unknown(name: string)

  /** The wire name of a kind. */
  function Name(k: DocKind): string {
    match k
    case SalarySlip => "salary_slip"
    case Form16 => "form_16"
    case Form26AS => "form_26as"
    case BankInterestCertificate => "bank_interest_certificate"
    case InvestmentProof => "investment_proof"
    case HomeLoanStatement => "home_loan_statement"
    case RentReceipt => "rent_receipt"
    case CapitalGains => "capital_gains"
    case DonationReceipt => "donation_receipt"
    case MedicalBill => "medical_bill"
    case EducationLoan => "education_loan"
    case Unknown(n) => n
  }

  /** The kind a `document_type` string selects in the source's `==` dispatch. */
  function KindOf(s: string): (k: DocKind)
    ensures Name(k) == s
  {
    if s == "salary_slip" then SalarySlip
    else if s == "form_16" then Form16
    else if s == "form_26as" then Form26AS
    else if s == "bank_interest_certificate" then BankInterestCertificate
    else if s == "investment_proof" then InvestmentProof
    else if s == "home_loan_statement" then HomeLoanStatement
    else if s == "rent_receipt" then RentReceipt
    else if s == "capital_gains" then CapitalGains
    else if s == "donation_receipt" then DonationReceipt
    else if s == "medical_bill" then MedicalBill
    else if s == "education_loan" then EducationLoan
    else Unknown(s)
  }

  /** Parsing and naming are inverse on the known kinds. */
  lemma KindNameRoundTrip(k: DocKind)
    requires !k.Unknown?
    ensures KindOf(Name(k)) == k
  {
  }

  /** A document record with its `document_type` already parsed (see
      `Record`); `uploaded_at` may be absent. */
  datatype Document = Document(id: string, kind: DocKind, metadata: Metadata, uploadedAt: Option<Value>)
  {
    function Kind(): DocKind {
      kind
    }

    /** The `document_type` string the record carries. */
    function DocType(): string {
      Name(kind)
    }
  }

  /** A record as the store holds it: the type string (missing reads as "")
      is parsed once, and printing the parsed kind gives the string back. */
  function Record(id: string, docType: string, metadata: Metadata, uploadedAt: Option<Value>): (d: Document)
    ensures d.DocType() == docType
    ensures d.id == id && d.metadata == metadata && d.uploadedAt == uploadedAt
  {
    Document(id, KindOf(docType), metadata, uploadedAt)
  }

  /** Does some document have kind `k`? */
  predicate HasKind(docs: seq<Document>, k: DocKind) {
    exists i :: 0 <= i < |docs| && docs[i].Kind() == k
  }

  /** The documents of kind `k`, in order: every document of that kind, each
      as often as the input holds it, and nothing else. */
  function OfKind(docs: seq<Document>, k: DocKind): (r: seq<Document>)
    ensures |r| <= |docs|
    ensures forall i :: 0 <= i < |r| ==> r[i].Kind() == k
    ensures forall d :: multiset(r)[d] == if d.Kind() == k then multiset(docs)[d] else 0
    ensures |r| == 0 <==> !HasKind(docs, k)
  {
    if |docs| == 0 then []
    else
      var rest := OfKind(docs[1..], k);
      HasKindCons(docs, k);
      var r := if docs[0].Kind() == k then [docs[0]] + rest else rest;
      assert multiset(docs) == multiset{docs[0]} + multiset(docs[1..]) by {
        assert docs == [docs[0]] + docs[1..];
      }
      assert multiset(r) == (if docs[0].Kind() == k then multiset{docs[0]} else multiset{}) + multiset(rest);
      r
  }

  lemma HasKindCons(docs: seq<Document>, k: DocKind)
    requires |docs| > 0
    ensures HasKind(docs, k) <==> docs[0].Kind() == k || HasKind(docs[1..], k)
  {
    if HasKind(docs[1..], k) {
      var i :| 0 <= i < |docs[1..]| && docs[1..][i].Kind() == k;
      assert docs[i + 1].Kind() == k;
    }
    if HasKind(docs, k) && docs[0].Kind() != k {
      var i :| 0 <= i < |docs| && docs[i].Kind() == k;
      assert docs[1..][i - 1].Kind() == k;
    }
  }

  /** The `required_fields` lists of the type catalog; unknown types have none. */
  function RequiredFields(k: DocKind): seq<string> {
    match k
    case SalarySlip => ["month", "year", "employer"]
    case Form16 => ["financial_year", "source"]
    case Form26AS => ["financial_year"]
    case BankInterestCertificate => ["bank_name", "financial_year"]
    case InvestmentProof => ["investment_type", "section", "financial_year"]
    case HomeLoanStatement => ["lender", "component", "financial_year"]
    case RentReceipt => ["period"]
    case CapitalGains => ["asset_type", "broker", "financial_year"]
    case DonationReceipt => ["trust_name", "deduction_rate", "financial_year"]
    case MedicalBill => ["relation", "section"]
    case EducationLoan => ["lender", "student", "financial_year"]
    case Unknown(_) => []
  }

  /** A field counts as present when its key exists with a truthy value. */
  predicate Present(m: Metadata, field: string) {
    field in m && Truthy(m[field])
  }

  /** The fields of `fields` that are absent or falsy, in their catalog order. */
  function MissingFields(fields: seq<string>, m: Metadata): (r: seq<string>)
    ensures |r| <= |fields|
    ensures forall f :: f in r <==> f in fields && !Present(m, f)
  {
    if |fields| == 0 then []
    else
      var rest := MissingFields(fields[1..], m);
      assert forall f :: f in fields <==> f == fields[0] || f in fields[1..];
      if Present(m, fields[0]) then rest else [fields[0]] + rest
  }

  const MissingFieldPrefix: string := "Missing required field: "

  datatype Extraction = Extraction(
    metadata: Metadata,
    confidenceScore: real,
    validationErrors: seq<string>,
    suggestions: seq<string>)

  /** One "Missing required field" message per field, in order. */
  function FieldErrors(missing: seq<string>): (errors: seq<string>)
    ensures |errors| == |missing|
    ensures forall f :: MissingFieldPrefix + f in errors <==> f in missing
  {
    var errors := seq(|missing|, i requires 0 <= i < |missing| => MissingFieldPrefix + missing[i]);
    assert forall f :: MissingFieldPrefix + f in errors <==> f in missing by {
      forall f
        ensures MissingFieldPrefix + f in errors <==> f in missing
      {
        if MissingFieldPrefix + f in errors {
          var i :| 0 <= i < |errors| && errors[i] == MissingFieldPrefix + f;
          assert (MissingFieldPrefix + f)[|MissingFieldPrefix|..] == f;
          assert (MissingFieldPrefix + missing[i])[|MissingFieldPrefix|..] == missing[i];
        }
        if f in missing {
          var i :| 0 <= i < |missing| && missing[i] == f;
          assert errors[i] == MissingFieldPrefix + f;
        }
      }
    }
    errors
  }

  /** The extraction used when the AI service is unavailable: the caller's
      metadata, `fileName` filled from `file_name` when missing, validated
      against the kind's required fields. */
  function ExtractFallback(docType: string, userMetadata: Metadata): (r: Extraction)
    ensures forall k :: k in userMetadata ==> k in r.metadata && r.metadata[k] == userMetadata[k]
    ensures forall k :: k in r.metadata && k != "fileName" ==> k in userMetadata
    ensures "fileName" !in userMetadata && "file_name" in userMetadata ==>
              "fileName" in r.metadata && r.metadata["fileName"] == userMetadata["file_name"]
    ensures "fileName" in r.metadata ==> "fileName" in userMetadata || "file_name" in userMetadata
    ensures |r.validationErrors| == |MissingFields(RequiredFields(KindOf(docType)), r.metadata)|
    ensures |r.validationErrors| <= |RequiredFields(KindOf(docType))|
    ensures forall f :: MissingFieldPrefix + f in r.validationErrors <==>
              f in RequiredFields(KindOf(docType)) && !Present(r.metadata, f)
    ensures r.confidenceScore == 0.5
  {
    var extracted :=
      if "fileName" !in userMetadata && "file_name" in userMetadata
      then userMetadata["fileName" := userMetadata["file_name"]]
      else userMetadata;
    var missing := MissingFields(RequiredFields(KindOf(docType)), extracted);
    var errors := FieldErrors(missing);
    Extraction(extracted, 0.5, errors, ["AI extraction unavailable. Using provided metadata only."])
  }
}

=== FILE: filing.dfy ===
/**
 The auto-filing outputs: the ITR draft projected from the tax summary, the
 four-stage filing checklist built from the gap analysis and the consistency
 report, and the completion status of the analysis endpoint.
 */
module Filing {
  import opened Values
  import opened Documents
  import opened Slabs
  import opened Summary
  import opened Consistency
  import opened Gaps
  import opened Calendar

  // ---------------------------------------------------------------------
  // The ITR draft.

  datatype PersonalInfo = PersonalInfo(name: Value, pan: Value, aadhaar: Value, dob: Value, email: Value, mobile: Value)
  datatype SalaryIncome = SalaryIncome(grossSalary: real, tds: real, employerName: Value, employerTan: string)
  datatype OtherIncome = OtherIncome(interestIncome: real, capitalGains: real, otherSources: real)
  datatype ItrDeductions = ItrDeductions(
    section80c: real,
    section80d: real,
    section80g: real,
    section24b: real,
    section80e: real,
    hra: real,
    standardDeduction: real)
  datatype TaxComputation = TaxComputation(
    grossTotalIncome: real,
    totalDeductions: real,
    taxableIncome: real,
    taxOnTotalIncome: real,
    tds: real,
    advanceTax: real,
    selfAssessmentTax: real,
    netTaxPayable: real,
    refund: real)
  /** The signature block: no place yet, the draft's date, and a signature to come. */
  datatype Verification = Verification(place: string, date: Date, signatureRequired: bool)
  datatype Completeness = Completeness(personalInfo: real, incomeDetails: real, deductions: real, overall: real)

  datatype ItrDraft = ItrDraft(
    financialYear: string,
    assessmentYear: string,
    itrForm: string,
    personal: PersonalInfo,
    salary: SalaryIncome,
    other: OtherIncome,
    deductions: ItrDeductions,
    computation: TaxComputation,
    verification: Verification,
    status: string,
    completeness: Completeness)

  /** The draft's deduction schedule: each statutory item at its cap, HRA
      at half the salary, donations uncapped. */
  function DeductionSchedule(s: TaxSummary): (d: ItrDeductions)
    ensures d.section80c <= Cap80C && d.section80d <= Cap80D
    ensures d.section24b <= CapHomeLoanInterest && d.section80e <= CapEducationLoanInterest
    ensures d.hra <= s.income.totalSalary * 0.5
    ensures d.section80c + d.section80d + d.hra + Min(s.deductions.nps.total, CapNps) + d.section24b
            + d.section80e + d.section80g == CappedDeductions(s.deductions, s.income.totalSalary)
    ensures d.standardDeduction == StandardDeduction
  {
    ItrDeductions(
      Min(s.deductions.section80c.total, 150000.0),
      Min(s.deductions.section80d.total, 25000.0),
      s.deductions.donations,
      Min(s.deductions.homeLoanInterest, 200000.0),
      Min(s.deductions.educationLoanInterest, 40000.0),
      Min(s.deductions.hra.total, s.income.totalSalary * 0.5),
      50000.0)
  }

  /** `generate_itr_draft`; `today` stands for the clock read of the
      verification date, `profile` for the optional user profile. */
  function GenerateItrDraft(docs: seq<Document>, profile: Option<Metadata>, today: Date): (r: ItrDraft)
    requires AllReadable(docs)
    ensures r.computation.grossTotalIncome
            == r.salary.grossSalary + r.other.interestIncome + r.other.capitalGains + r.other.otherSources
    ensures r.computation.totalDeductions
            == r.deductions.section80c + r.deductions.section80d + r.deductions.hra + r.deductions.standardDeduction
    ensures r.computation.taxOnTotalIncome == Tax(r.computation.taxableIncome)
    ensures r.computation.netTaxPayable - r.computation.refund == r.computation.taxOnTotalIncome - r.computation.tds
    ensures r.computation.netTaxPayable == 0.0 || r.computation.refund == 0.0
    ensures r.computation.tds == r.salary.tds
    ensures r.computation.advanceTax == 0.0 && r.computation.selfAssessmentTax == 0.0
    ensures r.deductions == DeductionSchedule(Aggregate(docs))
    ensures profile.None? ==> r.personal.name == VStr("") && r.personal.email == VStr("")
    ensures r.personal.pan == Aggregate(docs).income.pan
    ensures r.salary.grossSalary == Aggregate(docs).income.totalSalary
    ensures r.salary.tds == Aggregate(docs).tds.tdsDeducted
    ensures r.other.interestIncome == Aggregate(docs).income.bankInterest
    ensures r.other.capitalGains == Aggregate(docs).income.capitalGains && r.other.otherSources == 0.0
    ensures r.computation.taxableIncome == Aggregate(docs).estimate.taxableIncome
    ensures r.computation.netTaxPayable == Aggregate(docs).estimate.netPayable
    ensures r.computation.refund == Aggregate(docs).estimate.netRefundable
    ensures r.verification.date == today && r.verification.place == "" && r.verification.signatureRequired
  {
    var s := Aggregate(docs);
    AggregateNeverFillsNps(docs);
    var p := if profile.Some? then profile.value else map[];
    var d := DeductionSchedule(s);
    ItrDraft(
      "2023-24", "2024-25", "ITR-1",
      PersonalInfo(Get(p, "name", VStr("")), s.income.pan, Get(p, "aadhaar", VStr("")), Get(p, "dob", VStr("")),
                   Get(p, "email", VStr("")), Get(p, "mobile", VStr(""))),
      SalaryIncome(s.income.totalSalary, s.tds.tdsDeducted, s.income.employerName, ""),
      OtherIncome(s.income.bankInterest, s.income.capitalGains, 0.0),
      d,
      TaxComputation(
        s.income.totalSalary + s.income.otherIncome,
        d.section80c + d.section80d + d.hra + 50000.0,
        s.estimate.taxableIncome,
        s.estimate.totalTax,
        s.tds.tdsDeducted,
        s.tds.advanceTax,
        s.tds.selfAssessmentTax,
        s.estimate.netPayable,
        s.estimate.netRefundable),
      Verification("", today, true),
      "draft",
      Completeness(0.8, 0.9, 0.85, 0.85))
  }

  /** The draft's `total_deductions` omits home-loan interest, education-loan
      interest and donations (NPS is always 0): its taxable income is gross
      income less total deductions exactly when those three are absent. */
  lemma DraftTotalOmitsItems(docs: seq<Document>, profile: Option<Metadata>, today: Date)
    requires AllReadable(docs)
    ensures var r := GenerateItrDraft(docs, profile, today);
            r.computation.totalDeductions + r.deductions.section24b + r.deductions.section80e + r.deductions.section80g
            == CappedDeductions(Aggregate(docs).deductions, Aggregate(docs).income.totalSalary) + StandardDeduction
    ensures var r := GenerateItrDraft(docs, profile, today);
            r.deductions.section24b + r.deductions.section80e + r.deductions.section80g == 0.0 ==>
              r.computation.taxableIncome == Max(0.0, r.computation.grossTotalIncome - r.computation.totalDeductions)
  {
    AggregateNeverFillsNps(docs);
  }

  // ---------------------------------------------------------------------
  // Headings: `s.replace('_', ' ').title()` on ASCII text.

  predicate IsLetter(c: char) {
    'a' <= c <= 'z' || 'A' <= c <= 'Z'
  }

  /** A letter in title case: upper-cased when it starts a word. */
  function TitleChar(c: char, startsWord: bool): char {
    if !IsLetter(c) then c else if startsWord then UpperChar(c) else LowerChar(c)
  }

  /** Does position `i` of `s` start a word, given whether a letter preceded `s`? */
  predicate StartsWord(s: string, i: int, afterLetter: bool)
    requires 0 <= i < |s|
  {
    if i == 0 then !afterLetter else !IsLetter(s[i - 1])
  }

  /** `str.title()`: a letter after a non-letter is upper-cased, any other
      letter lower-cased; digits and spaces separate words. */
  function Title(s: string): (t: string)
    ensures |t| == |s|
    ensures forall i :: 0 <= i < |s| ==> t[i] == TitleChar(s[i], StartsWord(s, i, false))
  {
    TitleAfter(s, false)
  }

  /** `Title` of `s` when the character before it was a letter or not. */
  function TitleAfter(s: string, afterLetter: bool): (t: string)
    ensures |t| == |s|
    ensures forall i :: 0 <= i < |s| ==> t[i] == TitleChar(s[i], StartsWord(s, i, afterLetter))
  {
    if |s| == 0 then ""
    else
      var rest := TitleAfter(s[1..], IsLetter(s[0]));
      var t := [TitleChar(s[0], !afterLetter)] + rest;
      assert forall i :: 1 <= i < |s| ==> t[i] == TitleChar(s[i], StartsWord(s, i, afterLetter)) by {
        forall i | 1 <= i < |s|
          ensures t[i] == TitleChar(s[i], StartsWord(s, i, afterLetter))
        {
          assert t[i] == rest[i - 1] && s[1..][i - 1] == s[i];
          if i > 1 {
            assert s[1..][i - 2] == s[i - 1];
          }
        }
      }
      t
  }

  /** Title casing keeps letters letters, and is idempotent per character. */
  lemma TitleCharStable(c: char, startsWord: bool)
    ensures IsLetter(TitleChar(c, startsWord)) <==> IsLetter(c)
    ensures TitleChar(TitleChar(c, startsWord), startsWord) == TitleChar(c, startsWord)
  {
  }

  /** Title casing a title-cased text changes nothing. */
  lemma TitleIdempotent(s: string)
    ensures Title(Title(s)) == Title(s)
  {
    var t := Title(s);
    var u := Title(t);
    forall i | 0 <= i < |s|
      ensures u[i] == t[i]
    {
      TitleCharStable(s[i], StartsWord(s, i, false));
      if i > 0 {
        TitleCharStable(s[i - 1], StartsWord(s, i - 1, false));
      }
    }
  }

  /** `s.replace('_', ' ')`. */
  function Unscore(s: string): (r: string)
    ensures |r| == |s|
    ensures forall i :: 0 <= i < |s| ==> r[i] == if s[i] == '_' then ' ' else s[i]
    ensures '_' !in r
  {
    if |s| == 0 then ""
    else [if s[0] == '_' then ' ' else s[0]] + Unscore(s[1..])
  }

  function Heading(s: string): string {
    Title(Unscore(s))
  }

  /** The heading of Form 26AS: a letter after a digit starts a word. */
  lemma Form26asHeading()
    ensures Heading("form_26as") == "Form 26As"
  {
    UnscoreForm26as();
    TitleForm26as("form 26as");
  }

  lemma UnscoreForm26as()
    ensures Unscore("form_26as") == "form 26as"
  {
    var s, t := "form_26as", "form 26as";
    var u := Unscore(s);
    forall i | 0 <= i < 9
      ensures u[i] == t[i]
    {
      assert u[i] == if s[i] == '_' then ' ' else s[i];
    }
  }

  lemma TitleForm26as(s: string)
    requires s == "form 26as"
    ensures Title(s) == "Form 26As"
  {
    var t := Title(s);
    assert !IsLetter(s[4]) && !IsLetter(s[5]) && !IsLetter(s[6]);
    assert t[0] == 'F' && t[1] == 'o' && t[2] == 'r' && t[3] == 'm' && t[4] == ' ';
    assert t[5] == '2' && t[6] == '6' && t[7] == 'A' && t[8] == 's';
  }

  // ---------------------------------------------------------------------
  // The checklist.

  datatype ItemStatus = Pending | Completed

  /** An item's description: fixed text, the document's `uploaded_at` value
      (its rendering into text is not modelled), or an issue's description. */
  datatype Description = Text(text: string) | UploadedOn(at: Option<Value>) | IssueText(issue: Issue)

  datatype Item = Item(task: string, status: ItemStatus, priority: Priority, description: Description)

  /** The stage statuses by their wire values: `complete`, `incomplete`, `clean`, `review_needed`, `ready`,
      `pending` and `not_started`. */
  datatype StageStatus = StageComplete | StageIncomplete | StageClean | StageReviewNeeded | StageReady | StagePending
    | StageNotStarted

  datatype Stage = Stage(status: StageStatus, items: seq<Item>)

  datatype Checklist = Checklist(documentCollection: Stage, dataVerification: Stage, itrPreparation: Stage, filing: Stage)

  /** The wire name of an issue kind. */
  function IssueTypeName(k: IssueKind): string {
    match k
    case TdsMismatch => "tds_mismatch"
    case IncomeVariance => "income_variance"
    case PanMismatch => "pan_mismatch"
    case Missing26asData => "missing_26as_data"
  }

  /** One pending upload task per missing document. */
  function UploadItems(missing: seq<MissingDocument>): (r: seq<Item>)
    ensures |r| == |missing|
    ensures forall i :: 0 <= i < |r| ==>
              r[i] == Item("Upload " + Heading(Name(missing[i].kind)), Pending, missing[i].priority,
                           Text(missing[i].description))
  {
    if |missing| == 0 then []
    else
      var m := missing[0];
      [Item("Upload " + Heading(Name(m.kind)), Pending, m.priority, Text(m.description))] + UploadItems(missing[1..])
  }

  /** One completed, low-priority verification task per uploaded document. */
  function VerifyItems(docs: seq<Document>): (r: seq<Item>)
    ensures |r| == |docs|
    ensures forall i :: 0 <= i < |r| ==>
              r[i] == Item("Verify " + Heading(docs[i].DocType()), Completed, Low, UploadedOn(docs[i].uploadedAt))
  {
    if |docs| == 0 then []
    else
      [Item("Verify " + Heading(docs[0].DocType()), Completed, Low, UploadedOn(docs[0].uploadedAt))]
      + VerifyItems(docs[1..])
  }

  /** One pending task per issue, at the issue's severity, headed by `verb`. */
  function IssueItems(verb: string, issues: seq<Issue>): (r: seq<Item>)
    ensures |r| == |issues|
    ensures forall i :: 0 <= i < |r| ==>
              r[i] == Item(verb + Heading(IssueTypeName(issues[i].kind)), Pending, issues[i].severity, IssueText(issues[i]))
  {
    if |issues| == 0 then []
    else
      [Item(verb + Heading(IssueTypeName(issues[0].kind)), Pending, issues[0].severity, IssueText(issues[0]))]
      + IssueItems(verb, issues[1..])
  }

  const ReviewComputation: Item := Item("Review tax computation", Pending, High, Text("Verify all calculations are correct"))
  const VerifyDeductions: Item :=
    Item("Verify deductions", Pending, Medium, Text("Ensure all deduction claims are supported by documents"))

  const FilingItems: seq<Item> := [
    Item("Generate ITR JSON", Pending, High, Text("Generate JSON file for e-filing")),
    Item("Download ITR PDF", Pending, High, Text("Download ITR form PDF for review")),
    Item("E-verify ITR", Pending, High, Text("E-verify using Aadhaar OTP or Net Banking"))
  ]

  /** The document-collection stage: pending uploads, then completed checks. */
  function CollectionStage(docs: seq<Document>, g: GapAnalysis): (st: Stage)
    ensures st.status == StageComplete <==> g.status == Ready
    ensures |st.items| == |g.missing| + |docs|
    ensures forall i :: 0 <= i < |g.missing| ==>
              st.items[i].status == Pending && st.items[i].priority == g.missing[i].priority
    ensures forall i :: |g.missing| <= i < |st.items| ==>
              st.items[i].status == Completed && st.items[i].description == UploadedOn(docs[i - |g.missing|].uploadedAt)
  {
    var upload := UploadItems(g.missing);
    var verify := VerifyItems(docs);
    assert forall i :: |g.missing| <= i < |upload + verify| ==> (upload + verify)[i] == verify[i - |g.missing|];
    Stage(if g.status == Ready then StageComplete else StageIncomplete, upload + verify)
  }

  /** The data-verification stage: a pending task per inconsistency, then
      per warning. */
  function VerificationStage(report: Report): (st: Stage)
    ensures st.status == StageClean <==> report.status == Clean
    ensures |st.items| == |report.inconsistencies| + |report.warnings|
    ensures forall i :: 0 <= i < |st.items| ==>
              st.items[i].status == Pending
              && st.items[i].description == IssueText((report.inconsistencies + report.warnings)[i])
  {
    var issues := report.inconsistencies + report.warnings;
    var resolve := IssueItems("Resolve: ", report.inconsistencies);
    var review := IssueItems("Review: ", report.warnings);
    assert forall i :: 0 <= i < |issues| ==> (resolve + review)[i].description == IssueText(issues[i]) by {
      forall i | 0 <= i < |issues|
        ensures (resolve + review)[i].description == IssueText(issues[i])
      {
        if i < |resolve| {
          assert (resolve + review)[i] == resolve[i] && issues[i] == report.inconsistencies[i];
        } else {
          assert (resolve + review)[i] == review[i - |resolve|] && issues[i] == report.warnings[i - |resolve|];
        }
      }
    }
    Stage(if report.status == Clean then StageClean else StageReviewNeeded, resolve + review)
  }

  /** The ITR-preparation stage: auto-fill, done once the documents are
      complete, then two review tasks. */
  function PreparationStage(g: GapAnalysis): (st: Stage)
    ensures st.status == StageReady <==> g.status == Ready
    ensures |st.items| == 3
    ensures st.items[0].status == Completed <==> g.status == Ready
    ensures st.items[1..] == [ReviewComputation, VerifyDeductions]
  {
    var ready := g.status == Ready;
    Stage(if ready then StageReady else StagePending,
      [Item("Auto-fill ITR form", if ready then Completed else Pending, High,
            Text("ITR form will be auto-filled from uploaded documents")),
       ReviewComputation, VerifyDeductions])
  }

  /** `generate_checklist`. */
  function GenerateChecklist(docs: seq<Document>, g: GapAnalysis, report: Report): (c: Checklist)
    ensures c.documentCollection == CollectionStage(docs, g)
    ensures c.dataVerification == VerificationStage(report)
    ensures c.itrPreparation == PreparationStage(g)
    ensures c.filing == Stage(StageNotStarted, FilingItems)
  {
    Checklist(CollectionStage(docs, g), VerificationStage(report), PreparationStage(g), Stage(StageNotStarted, FilingItems))
  }

  /** The number of pending items of a list. */
  function PendingCount(items: seq<Item>): nat {
    if |items| == 0 then 0
    else (if items[0].status == Pending then 1 else 0) + PendingCount(items[1..])
  }

  lemma {:induction false} PendingCountAppend(a: seq<Item>, b: seq<Item>)
    ensures PendingCount(a + b) == PendingCount(a) + PendingCount(b)
  {
    if |a| == 0 {
      assert a + b == b;
    } else {
      assert (a + b)[1..] == a[1..] + b;
      PendingCountAppend(a[1..], b);
    }
  }

  /** A list whose items are all pending, or all completed. */
  lemma {:induction false} PendingCountUniform(items: seq<Item>, st: ItemStatus)
    requires forall i :: 0 <= i < |items| ==> items[i].status == st
    ensures PendingCount(items) == if st == Pending then |items| else 0
  {
    if |items| > 0 {
      PendingCountUniform(items[1..], st);
    }
  }

  function AllItems(c: Checklist): seq<Item> {
    c.documentCollection.items + c.dataVerification.items + c.itrPreparation.items + c.filing.items
  }

  lemma CollectionPending(docs: seq<Document>, g: GapAnalysis)
    ensures PendingCount(CollectionStage(docs, g).items) == |g.missing|
  {
    var items := CollectionStage(docs, g).items;
    var n := |g.missing|;
    assert items == items[..n] + items[n..];
    PendingCountUniform(items[..n], Pending);
    PendingCountUniform(items[n..], Completed);
    PendingCountAppend(items[..n], items[n..]);
  }

  lemma PreparationPending(g: GapAnalysis)
    ensures PendingCount(PreparationStage(g).items) == if g.status == Ready then 2 else 3
  {
    var items := PreparationStage(g).items;
    assert items == [items[0]] + items[1..];
    PendingCountAppend([items[0]], items[1..]);
    PendingCountUniform(items[1..], Pending);
  }

  lemma FilingPending()
    ensures PendingCount(FilingItems) == 3
  {
    PendingCountUniform(FilingItems, Pending);
  }

  /** The open tasks of a checklist: one per missing document, one per
      reported issue, the two review tasks (three before the documents are
      complete) and the three filing steps. */
  lemma OpenTasks(docs: seq<Document>, g: GapAnalysis, report: Report)
    ensures PendingCount(AllItems(GenerateChecklist(docs, g, report)))
            == |g.missing| + |report.inconsistencies| + |report.warnings|
               + (if g.status == Ready then 2 else 3) + 3
  {
    var dc := CollectionStage(docs, g).items;
    var dv := VerificationStage(report).items;
    var ip := PreparationStage(g).items;
    assert AllItems(GenerateChecklist(docs, g, report)) == dc + dv + ip + FilingItems;
    CollectionPending(docs, g);
    PendingCountUniform(dv, Pending);
    PreparationPending(g);
    FilingPending();
    PendingCountAppend(dc, dv);
    PendingCountAppend(dc + dv, ip);
    PendingCountAppend(dc + dv + ip, FilingItems);
  }

  /** On the documents' own reports: one data task per reported issue, and
      the collection stage is complete exactly when Form 16 and Form 26AS are
      both uploaded, in which case every collection task is done. */
  lemma ChecklistOfDocuments(docs: seq<Document>)
    requires ConsistencyReadable(docs)
    ensures var c := GenerateChecklist(docs, AnalyzeGaps(docs), CheckConsistencies(docs));
            |c.dataVerification.items| == CheckConsistencies(docs).totalIssues
    ensures var c := GenerateChecklist(docs, AnalyzeGaps(docs), CheckConsistencies(docs));
            c.documentCollection.status == StageComplete <==> HasKind(docs, Form16) && HasKind(docs, Form26AS)
    ensures var c := GenerateChecklist(docs, AnalyzeGaps(docs), CheckConsistencies(docs));
            c.documentCollection.status == StageComplete ==>
              forall i :: 0 <= i < |c.documentCollection.items| ==> c.documentCollection.items[i].status == Completed
  {
    var g := AnalyzeGaps(docs);
    var report := CheckConsistencies(docs);
    CollectionOfReadyGaps(docs, g);
    var c := GenerateChecklist(docs, g, report);
    assert c.documentCollection == CollectionStage(docs, g);
    assert c.dataVerification == VerificationStage(report);
  }

  /** When the gap analysis is ready nothing is missing, so every collection
      task is an uploaded document, already done. */
  lemma CollectionOfReadyGaps(docs: seq<Document>, g: GapAnalysis)
    requires g.status == Ready <==> |g.missing| == 0
    ensures CollectionStage(docs, g).status == StageComplete ==>
              forall i :: 0 <= i < |CollectionStage(docs, g).items| ==> CollectionStage(docs, g).items[i].status == Completed
  {
  }

  // ---------------------------------------------------------------------
  // The completion status of the analysis endpoint.

  datatype CompletionStatus = CompletionStatus(documents: real, verification: real, overall: real)

  /** Document completion and verification (100 when clean, 50 otherwise),
      averaged. */
  function CompletionStatusOf(g: GapAnalysis, report: Report): (c: CompletionStatus)
    ensures c.documents == g.completion
    ensures c.verification == 100.0 <==> report.status == Clean
    ensures c.verification == 50.0 <==> report.status.IssuesFound?
    ensures 2.0 * c.overall == c.documents + c.verification
    ensures 0.0 <= g.completion <= 100.0 ==> 25.0 <= c.overall <= 100.0
    ensures g.completion <= 100.0 ==> (c.overall == 100.0 <==> g.completion == 100.0 && report.status == Clean)
  {
    if report.status == Clean then CompletionStatus(g.completion, 100.0, (g.completion + 100.0) / 2.0)
    else CompletionStatus(g.completion, 50.0, (g.completion + 50.0) / 2.0)
  }

  datatype AutoFileAnalysis = AutoFileAnalysis(
    gaps: GapAnalysis,
    consistencies: Report,
    draft: ItrDraft,
    checklist: Checklist,
    completion: CompletionStatus)

  /** The completion block of the analysis, from the documents' own gaps and report. */
  function FilingCompletion(docs: seq<Document>): (c: CompletionStatus)
    requires ConsistencyReadable(docs)
    ensures 25.0 <= c.overall <= 100.0
    ensures c.overall == 100.0 <==>
              HasKind(docs, Form16) && HasKind(docs, Form26AS) && OtherDocuments(docs) >= 4
              && !TdsFlagged(KindSum(docs, Form16, "tds"), KindSum(docs, Form26AS, "total_tds"))
  {
    CompletionFull(docs);
    CompletionStatusOf(AnalyzeGaps(docs), CheckConsistencies(docs))
  }

  /** The auto-file analysis endpoint: everything from the same documents. */
  function AnalyzeForFiling(docs: seq<Document>, profile: Option<Metadata>, today: Date): (r: AutoFileAnalysis)
    requires AllReadable(docs) && ConsistencyReadable(docs)
    ensures 25.0 <= r.completion.overall <= 100.0
    ensures r.completion.overall == 100.0 <==>
              HasKind(docs, Form16) && HasKind(docs, Form26AS) && OtherDocuments(docs) >= 4
              && !TdsFlagged(KindSum(docs, Form16, "tds"), KindSum(docs, Form26AS, "total_tds"))
    ensures r.checklist.documentCollection.status == StageComplete <==> r.gaps.status == Ready
  {
    var g := AnalyzeGaps(docs);
    var report := CheckConsistencies(docs);
    AutoFileAnalysis(g, report, GenerateItrDraft(docs, profile, today), GenerateChecklist(docs, g, report),
      FilingCompletion(docs))
  }
}

=== FILE: gaps.dfy ===
/**
 The document gap analysis of the auto-filing feature: which required
 documents are missing, which Form 16 uploads look incomplete, soft
 recommendations, and the completion percentage over its own seven-entry
 catalog (not the eleven-entry type catalog of the upload path).
 */
module Gaps {
  import opened Values
  import opened Documents

  datatype CatalogEntry = CatalogEntry(kind: DocKind, required: bool, description: string)

  /** The catalog of the gap analysis, in its declaration order. */
  const GapCatalog: seq<CatalogEntry> := [
    CatalogEntry(Form16, true, "Form 16 (Part A & B) - Salary certificate from employer"),
    CatalogEntry(Form26AS, true, "Form 26AS/AIS - Tax credit statement"),
    CatalogEntry(SalarySlip, false, "Salary slips for all months"),
    CatalogEntry(InvestmentProof, false, "Investment proofs for deductions"),
    CatalogEntry(RentReceipt, false, "Rent receipts for HRA claim"),
    CatalogEntry(HomeLoanStatement, false, "Home loan interest certificate"),
    CatalogEntry(BankInterestCertificate, false, "Bank interest certificates")
  ]

  datatype MissingDocument = MissingDocument(kind: DocKind, priority: Priority, description: string, action: string)
  datatype IncompleteDocument = IncompleteDocument(kind: DocKind, issue: string, action: string)
  datatype Recommendation = Recommendation(kind: DocKind, priority: Priority, description: string, action: string)

  datatype GapStatus = Ready | Incomplete

  datatype GapAnalysis = GapAnalysis(
    missing: seq<MissingDocument>,
    incomplete: seq<IncompleteDocument>,
    recommendations: seq<Recommendation>,
    completion: real,
    status: GapStatus)

  // ---------------------------------------------------------------------
  // Completion percentage, for any catalog.

  /** `required_docs.get(kind, {}).get('required', False)`. */
  predicate IsRequired(catalog: seq<CatalogEntry>, k: DocKind) {
    if |catalog| == 0 then false
    else if catalog[0].kind == k then catalog[0].required
    else IsRequired(catalog[1..], k)
  }

  function RequiredCount(catalog: seq<CatalogEntry>): nat {
    if |catalog| == 0 then 0
    else (if catalog[0].required then 1 else 0) + RequiredCount(catalog[1..])
  }

  function UploadedRequired(catalog: seq<CatalogEntry>, docs: seq<Document>): (n: nat)
    ensures n <= RequiredCount(catalog)
  {
    if |catalog| == 0 then 0
    else (if catalog[0].required && HasKind(docs, catalog[0].kind) then 1 else 0)
         + UploadedRequired(catalog[1..], docs)
  }

  /** Documents (not types) whose kind the catalog does not mark required. */
  function OptionalCount(catalog: seq<CatalogEntry>, docs: seq<Document>): (n: nat)
    ensures n <= |docs|
  {
    if |docs| == 0 then 0
    else (if IsRequired(catalog, docs[0].Kind()) then 0 else 1) + OptionalCount(catalog, docs[1..])
  }

  function MinR(a: real, b: real): real { if a <= b then a else b }

  /** `calculate_completion_percentage`: 80 points spread over the required
      types, 5 per optional document up to 20, capped at 100; 100 for a
      catalog without required types. */
  function CompletionPercentage(docs: seq<Document>, catalog: seq<CatalogEntry>): (r: real)
    ensures 0.0 <= r <= 100.0
    ensures RequiredCount(catalog) == 0 ==> r == 100.0
  {
    var requiredCount := RequiredCount(catalog);
    if requiredCount == 0 then 100.0
    else
      var uploaded := UploadedRequired(catalog, docs);
      var base := (uploaded as real / requiredCount as real) * 80.0;
      var bonus := MinR(OptionalCount(catalog, docs) as real * 5.0, 20.0);
      DivAtMostOne(uploaded, requiredCount);
      assert 0.0 <= base <= 80.0 && 0.0 <= bonus <= 20.0;
      MinR(100.0, base + bonus)
  }

  lemma DivAtMostOne(a: nat, b: nat)
    requires 0 < b && a <= b
    ensures 0.0 <= (a as real / b as real) * 80.0 <= 80.0
  {
    assert a as real / b as real <= 1.0;
  }

  // ---------------------------------------------------------------------
  // The gap analysis itself.

  /** A Form 16 is flagged when neither `part_a` nor `part_b` is truthy. */
  predicate LacksBothParts(d: Document) {
    !Truthy(Get(d.metadata, "part_a", VNull)) && !Truthy(Get(d.metadata, "part_b", VNull))
  }

  /** The number of Form 16 documents of `docs` that lack both parts. */
  function LackingForm16(docs: seq<Document>): nat {
    if |docs| == 0 then 0
    else LackingForm16(docs[..|docs| - 1]) + (if docs[|docs| - 1].Kind() == Form16 && LacksBothParts(docs[|docs| - 1]) then 1 else 0)
  }

  /** Without any Form 16 there is nothing to flag. */
  lemma {:induction false} NoForm16NoneLacking(docs: seq<Document>)
    ensures !HasKind(docs, Form16) ==> LackingForm16(docs) == 0
  {
    if |docs| > 0 && !HasKind(docs, Form16) {
      var init := docs[..|docs| - 1];
      assert !HasKind(init, Form16) by {
        forall i | 0 <= i < |init| ensures init[i].Kind() != Form16 { assert init[i] == docs[i]; }
      }
      NoForm16NoneLacking(init);
      assert docs[|docs| - 1].Kind() != Form16;
    }
  }

  const IncompleteForm16Entry: IncompleteDocument :=
    IncompleteDocument(Form16, "Missing Part A or Part B", "Ensure both Part A and Part B are uploaded")

  /** One entry per Form 16 of `docs`, in order, that lacks both parts. */
  function IncompleteForm16(docs: seq<Document>): (r: seq<IncompleteDocument>)
    ensures |r| == LackingForm16(docs)
    ensures forall i :: 0 <= i < |r| ==> r[i] == IncompleteForm16Entry
    ensures |r| > 0 <==> exists i :: 0 <= i < |docs| && docs[i].Kind() == Form16 && LacksBothParts(docs[i])
  {
    if |docs| == 0 then []
    else
      var init := docs[..|docs| - 1];
      var last := docs[|docs| - 1];
      var front := IncompleteForm16(init);
      assert (exists i :: 0 <= i < |docs| && docs[i].Kind() == Form16 && LacksBothParts(docs[i]))
             <==> (last.Kind() == Form16 && LacksBothParts(last))
                  || exists i :: 0 <= i < |init| && init[i].Kind() == Form16 && LacksBothParts(init[i]) by {
        if exists i :: 0 <= i < |docs| && docs[i].Kind() == Form16 && LacksBothParts(docs[i]) {
          var i :| 0 <= i < |docs| && docs[i].Kind() == Form16 && LacksBothParts(docs[i]);
          if i < |init| { assert init[i] == docs[i]; }
        }
        if exists i :: 0 <= i < |init| && init[i].Kind() == Form16 && LacksBothParts(init[i]) {
          var i :| 0 <= i < |init| && init[i].Kind() == Form16 && LacksBothParts(init[i]);
          assert docs[i] == init[i];
        }
      }
      if last.Kind() == Form16 && LacksBothParts(last) then front + [IncompleteForm16Entry] else front
  }

  const MissingForm16: MissingDocument := MissingDocument(Form16, High, GapCatalog[0].description,
    "Upload Form 16 Part A and Part B from your employer")
  const MissingForm26AS: MissingDocument := MissingDocument(Form26AS, High, GapCatalog[1].description,
    "Download Form 26AS from income tax portal and upload")

  const RecommendInvestmentProof: Recommendation := Recommendation(InvestmentProof, Medium,
    "Upload investment proofs to maximize deductions", "Upload LIC receipts, PPF statements, ELSS certificates, etc.")
  const RecommendRentReceipt: Recommendation := Recommendation(RentReceipt, Low,
    "Rent receipts can help claim HRA deduction", "Upload rent receipts if you're paying rent")
  const RecommendBankInterest: Recommendation := Recommendation(BankInterestCertificate, Medium,
    "Bank interest income needs to be declared", "Upload bank interest certificates if interest > \U{20B9}40,000")

  /** The required documents absent from the upload set, Form 16 first. */
  function MissingDocuments(docs: seq<Document>): (r: seq<MissingDocument>)
    ensures |r| <= 2
    ensures MissingForm16 in r <==> !HasKind(docs, Form16)
    ensures MissingForm26AS in r <==> !HasKind(docs, Form26AS)
    ensures forall i :: 0 <= i < |r| ==> r[i] == MissingForm16 || r[i] == MissingForm26AS
    ensures |r| == 2 ==> r == [MissingForm16, MissingForm26AS]
    ensures |r| == 0 <==> HasKind(docs, Form16) && HasKind(docs, Form26AS)
  {
    assert MissingForm16.kind != MissingForm26AS.kind;
    (if HasKind(docs, Form16) then [] else [MissingForm16])
    + (if HasKind(docs, Form26AS) then [] else [MissingForm26AS])
  }

  /** The position of each recommendation in the source's order. */
  function RecommendationSlot(k: DocKind): nat {
    if k == InvestmentProof then 0
    else if k == RentReceipt then 1
    else if k == BankInterestCertificate then 2
    else 3
  }

  /** Every entry of `r` is one of the three fixed recommendations. */
  predicate KnownRecommendations(r: seq<Recommendation>) {
    forall i :: 0 <= i < |r| ==>
      r[i] == RecommendInvestmentProof || r[i] == RecommendRentReceipt || r[i] == RecommendBankInterest
  }

  /** The entries of `r` follow the source's order, each at most once. */
  predicate InRecommendationOrder(r: seq<Recommendation>) {
    forall i, j :: 0 <= i < j < |r| ==> RecommendationSlot(r[i].kind) < RecommendationSlot(r[j].kind)
  }

  /** The soft nudges: investment proofs when none, rent receipts when salary
      slips but no rent receipts, bank interest certificates when none. Each
      appears at most once, in that order, and nothing else appears. */
  function Recommendations(docs: seq<Document>): (r: seq<Recommendation>)
    ensures RecommendInvestmentProof in r <==> !HasKind(docs, InvestmentProof)
    ensures RecommendRentReceipt in r <==> HasKind(docs, SalarySlip) && !HasKind(docs, RentReceipt)
    ensures RecommendBankInterest in r <==> !HasKind(docs, BankInterestCertificate)
    ensures |r| == (if HasKind(docs, InvestmentProof) then 0 else 1)
                   + (if HasKind(docs, SalarySlip) && !HasKind(docs, RentReceipt) then 1 else 0)
                   + (if HasKind(docs, BankInterestCertificate) then 0 else 1)
    ensures KnownRecommendations(r)
    ensures InRecommendationOrder(r)
  {
    var investment := if HasKind(docs, InvestmentProof) then [] else [RecommendInvestmentProof];
    var rent := if HasKind(docs, SalarySlip) && !HasKind(docs, RentReceipt) then [RecommendRentReceipt] else [];
    var bank := if HasKind(docs, BankInterestCertificate) then [] else [RecommendBankInterest];
    RecommendationParts(investment, rent, bank);
    investment + rent + bank
  }

  /** The three optional parts, concatenated. */
  lemma RecommendationParts(investment: seq<Recommendation>, rent: seq<Recommendation>, bank: seq<Recommendation>)
    requires investment == [] || investment == [RecommendInvestmentProof]
    requires rent == [] || rent == [RecommendRentReceipt]
    requires bank == [] || bank == [RecommendBankInterest]
    ensures RecommendInvestmentProof in investment + rent + bank <==> |investment| > 0
    ensures RecommendRentReceipt in investment + rent + bank <==> |rent| > 0
    ensures RecommendBankInterest in investment + rent + bank <==> |bank| > 0
    ensures KnownRecommendations(investment + rent + bank)
    ensures InRecommendationOrder(investment + rent + bank)
  {
    var r := investment + rent + bank;
    assert RecommendInvestmentProof != RecommendRentReceipt && RecommendRentReceipt != RecommendBankInterest;
    assert RecommendInvestmentProof != RecommendBankInterest;
    forall i | 0 <= i < |r|
      ensures r[i] == if i < |investment| then RecommendInvestmentProof
                      else if i < |investment| + |rent| then RecommendRentReceipt
                      else RecommendBankInterest
    {
      if i < |investment| { assert r[i] == investment[i]; }
      else if i < |investment| + |rent| { assert r[i] == rent[i - |investment|]; }
      else { assert r[i] == bank[i - |investment| - |rent|]; }
    }
  }

  /** `analyze_document_gaps`. */
  function AnalyzeGaps(docs: seq<Document>): (g: GapAnalysis)
    ensures g.missing == MissingDocuments(docs)
    ensures g.recommendations == Recommendations(docs)
    ensures g.status == Ready <==> |g.missing| == 0
    ensures g.status == Ready <==> HasKind(docs, Form16) && HasKind(docs, Form26AS)
    ensures |g.incomplete| == LackingForm16(docs)
    ensures forall i :: 0 <= i < |g.incomplete| ==> g.incomplete[i] == IncompleteForm16Entry
    ensures |g.incomplete| > 0 <==> exists i :: 0 <= i < |docs| && docs[i].Kind() == Form16 && LacksBothParts(docs[i])
    ensures 0.0 <= g.completion <= 100.0
  {
    var missing := MissingDocuments(docs);
    var incomplete := if HasKind(docs, Form16) then IncompleteForm16(docs) else [];
    NoForm16NoneLacking(docs);
    GapAnalysis(missing, incomplete, Recommendations(docs), CompletionPercentage(docs, GapCatalog),
      if |missing| == 0 then Ready else Incomplete)
  }

  // ---------------------------------------------------------------------
  // The completion percentage over the gap catalog.

  lemma GapCatalogShape(docs: seq<Document>)
    ensures RequiredCount(GapCatalog) == 2
    ensures UploadedRequired(GapCatalog, docs)
            == (if HasKind(docs, Form16) then 1 else 0) + (if HasKind(docs, Form26AS) then 1 else 0)
    ensures forall k :: IsRequired(GapCatalog, k) <==> k == Form16 || k == Form26AS
  {
    var c0 := GapCatalog;
    var c1 := c0[1..];
    var c2 := c1[1..];
    var c3 := c2[1..];
    var c4 := c3[1..];
    var c5 := c4[1..];
    var c6 := c5[1..];
    assert c6 == [CatalogEntry(BankInterestCertificate, false, "Bank interest certificates")];
    forall k ensures IsRequired(GapCatalog, k) <==> k == Form16 || k == Form26AS {
      assert !IsRequired(c6, k);
      assert !IsRequired(c5, k);
      assert !IsRequired(c4, k);
      assert !IsRequired(c3, k);
      assert !IsRequired(c2, k);
      assert IsRequired(c1, k) <==> k == Form26AS;
    }
  }

  /** The number of required types (Form 16, Form 26AS) present. */
  function RequiredPresent(docs: seq<Document>): nat {
    (if HasKind(docs, Form16) then 1 else 0) + (if HasKind(docs, Form26AS) then 1 else 0)
  }

  /** Documents of any kind other than Form 16 and Form 26AS, unknown kinds included. */
  function OtherDocuments(docs: seq<Document>): nat {
    if |docs| == 0 then 0
    else (if docs[0].Kind() == Form16 || docs[0].Kind() == Form26AS then 0 else 1) + OtherDocuments(docs[1..])
  }

  lemma {:induction false} OptionalCountIsOther(docs: seq<Document>)
    ensures OptionalCount(GapCatalog, docs) == OtherDocuments(docs)
  {
    if |docs| > 0 {
      GapCatalogShape(docs);
      OptionalCountIsOther(docs[1..]);
    }
  }

  /** Over the gap catalog, completion is 40 points per required type present
      plus 5 per other document, the latter capped at 20. */
  lemma CompletionOverGapCatalog(docs: seq<Document>)
    ensures CompletionPercentage(docs, GapCatalog)
            == 40.0 * RequiredPresent(docs) as real + MinR(5.0 * OtherDocuments(docs) as real, 20.0)
  {
    GapCatalogShape(docs);
    OptionalCountIsOther(docs);
  }

  lemma {:induction false} NoDocumentsIff(docs: seq<Document>)
    ensures |docs| == 0 <==> RequiredPresent(docs) == 0 && OtherDocuments(docs) == 0
  {
    if |docs| > 0 {
      if docs[0].Kind() == Form16 {
        assert HasKind(docs, Form16);
      } else if docs[0].Kind() == Form26AS {
        assert HasKind(docs, Form26AS);
      }
    }
  }

  /** Completion is 100 exactly when both required types and at least four
      other documents are present. */
  lemma CompletionFull(docs: seq<Document>)
    ensures CompletionPercentage(docs, GapCatalog) == 100.0
            <==> HasKind(docs, Form16) && HasKind(docs, Form26AS) && OtherDocuments(docs) >= 4
  {
    CompletionOverGapCatalog(docs);
    RequiredPresentTwo(docs);
    ExtremesOf(CompletionPercentage(docs, GapCatalog), RequiredPresent(docs), OtherDocuments(docs));
  }

  /** Completion is 0 exactly for an empty upload set. */
  lemma CompletionEmpty(docs: seq<Document>)
    ensures CompletionPercentage(docs, GapCatalog) == 0.0 <==> |docs| == 0
  {
    CompletionOverGapCatalog(docs);
    NoDocumentsIff(docs);
    RequiredPresentTwo(docs);
    ExtremesOf(CompletionPercentage(docs, GapCatalog), RequiredPresent(docs), OtherDocuments(docs));
  }

  lemma RequiredPresentTwo(docs: seq<Document>)
    ensures RequiredPresent(docs) == 2 <==> HasKind(docs, Form16) && HasKind(docs, Form26AS)
    ensures RequiredPresent(docs) <= 2
  {
  }

  lemma ExtremesOf(c: real, n: nat, o: nat)
    requires n <= 2
    requires c == 40.0 * n as real + MinR(5.0 * o as real, 20.0)
    ensures c == 100.0 <==> n == 2 && o >= 4
    ensures c == 0.0 <==> n == 0 && o == 0
  {
    CompletionShape(n, o);
  }

  lemma CompletionShape(n: nat, o: nat)
    requires n <= 2
    ensures 40.0 * n as real + MinR(5.0 * o as real, 20.0) == 100.0 <==> n == 2 && o >= 4
    ensures 40.0 * n as real + MinR(5.0 * o as real, 20.0) == 0.0 <==> n == 0 && o == 0
  {
  }
}

=== FILE: health.dfy ===
/**
 The monthly tax health score: five factors (document completeness, data
 consistency, deduction use, tax planning, compliance) worth 30, 25, 20, 15
 and 10 points, summed, rounded half to even, and graded into four levels.
 */
module Health {
  import opened Values
  import opened Documents
  import opened Summary
  import opened Consistency
  import opened Gaps
  import opened Insights

  datatype FactorStatus = Excellent | Good | NeedsImprovement

  datatype Factor = Factor(name: string, score: real, maxScore: nat, status: FactorStatus)

  datatype Level = LevelExcellent | LevelGood | LevelFair | LevelNeedsImprovement

  datatype HealthScore = HealthScore(score: int, maxScore: nat, level: Level, message: string, factors: seq<Factor>)

  const MaxScore: nat := 100

  /** The grade of a factor: excellent from the first threshold, good from the second. */
  function Grade(x: real, excellent: real, good: real): FactorStatus {
    if x >= excellent then Excellent else if x >= good then Good else NeedsImprovement
  }

  // ---------------------------------------------------------------------
  // Python's `round` on a float: to the nearest integer, ties to even.

  function RoundHalfEven(x: real): (r: int)
    ensures x - 0.5 <= r as real <= x + 0.5
    ensures (r as real - x == 0.5 || x - r as real == 0.5) ==> r % 2 == 0
  {
    var f := x.Floor;
    var frac := x - f as real;
    if frac < 0.5 then f
    else if frac > 0.5 then f + 1
    else if f % 2 == 0 then f
    else f + 1
  }

  /** The rounded value is a nearest integer. */
  lemma RoundIsNearest(x: real, k: int)
    ensures Abs(x - RoundHalfEven(x) as real) <= Abs(x - k as real)
  {
    var r := RoundHalfEven(x);
    if k < r {
      assert k as real <= r as real - 1.0;
    } else if k > r {
      assert k as real >= r as real + 1.0;
    }
  }

  /** Rounding keeps the order. */
  lemma RoundMonotone(x: real, y: real)
    requires x <= y
    ensures RoundHalfEven(x) <= RoundHalfEven(y)
  {
    var rx := RoundHalfEven(x);
    var ry := RoundHalfEven(y);
    if rx > ry {
      assert false;
    }
  }

  // ---------------------------------------------------------------------
  // The factors.

  /** Document completeness, 30 points in proportion to the completion
      percentage, graded on the percentage. */
  function DocumentFactor(completion: real): (f: Factor)
    ensures f.maxScore == 30
    ensures 0.0 <= completion <= 100.0 ==> 0.0 <= f.score <= 30.0
    ensures f.score * 100.0 == completion * 30.0
    ensures f.status == Grade(completion, 90.0, 70.0)
  {
    Factor("Document Completeness", completion / 100.0 * 30.0, 30, Grade(completion, 90.0, 70.0))
  }

  /** Data consistency: full marks for a clean report, else five points off
      per reported issue, warnings included. */
  function ConsistencyFactor(report: Report): (f: Factor)
    ensures f.maxScore == 25
    ensures 0.0 <= f.score <= 25.0
    ensures report.status == Clean ==> f.score == 25.0
    ensures report.status.IssuesFound? ==> f.score == Max(0.0, 25.0 - 5.0 * report.totalIssues as real)
    ensures f.status == Grade(f.score, 20.0, 15.0)
  {
    var score := if report.status == Clean then 25 else if 25 - report.totalIssues * 5 >= 0 then 25 - report.totalIssues * 5 else 0;
    Factor("Data Consistency", score as real, 25, Grade(score as real, 20.0, 15.0))
  }

  /** Deduction use, in four steps of the headline deduction figure. */
  function DeductionFactor(d: Deductions): (f: Factor)
    ensures f.maxScore == 20
    ensures f.score == 5.0 || f.score == 10.0 || f.score == 15.0 || f.score == 20.0
    ensures f.score == 20.0 <==> HeadlineDeductions(d) >= 200000.0
    ensures f.score >= 15.0 <==> HeadlineDeductions(d) >= 150000.0
    ensures f.score >= 10.0 <==> HeadlineDeductions(d) >= 100000.0
    ensures f.status == Grade(f.score, 15.0, 10.0)
  {
    var total := HeadlineDeductions(d);
    var score := if total >= 200000.0 then 20 else if total >= 150000.0 then 15 else if total >= 100000.0 then 10 else 5;
    Factor("Deduction Optimization", score as real, 20, Grade(score as real, 15.0, 10.0))
  }

  /** Tax planning: nothing payable beats advance tax paid, which beats a
      small payable amount. */
  function PlanningFactor(s: TaxSummary): (f: Factor)
    ensures f.maxScore == 15
    ensures f.score == 15.0 <==> s.estimate.netPayable <= 0.0
    ensures f.score == 12.0 <==> s.estimate.netPayable > 0.0 && s.tds.advanceTax > 0.0
    ensures f.score == 10.0 <==> s.estimate.netPayable > 0.0 && s.tds.advanceTax <= 0.0 && s.estimate.netPayable < 10000.0
    ensures f.score == 5.0 <==> s.estimate.netPayable >= 10000.0 && s.tds.advanceTax <= 0.0
    ensures f.status == Grade(f.score, 12.0, 8.0)
  {
    var net := s.estimate.netPayable;
    var score := if net <= 0.0 then 15 else if s.tds.advanceTax > 0.0 then 12 else if net < 10000.0 then 10 else 5;
    Factor("Tax Planning", score as real, 15, Grade(score as real, 12.0, 8.0))
  }

  /** Compliance: ten points with no required document missing, then 7, 4, 0. */
  function ComplianceFactor(missing: nat): (f: Factor)
    ensures f.maxScore == 10
    ensures 0.0 <= f.score <= 10.0
    ensures f.score == 10.0 <==> missing == 0
    ensures f.score == 0.0 <==> missing >= 3
    ensures f.score == 10.0 - 3.0 * missing as real || missing >= 3
    ensures f.status == Grade(f.score, 8.0, 5.0)
  {
    var score := if missing == 0 then 10 else if missing == 1 then 7 else if missing == 2 then 4 else 0;
    Factor("Compliance", score as real, 10, Grade(score as real, 8.0, 5.0))
  }

  function Total(fs: seq<Factor>): real {
    if |fs| == 0 then 0.0 else Total(fs[..|fs| - 1]) + fs[|fs| - 1].score
  }

  function MaxTotal(fs: seq<Factor>): nat {
    if |fs| == 0 then 0 else MaxTotal(fs[..|fs| - 1]) + fs[|fs| - 1].maxScore
  }

  /** The totals of a five-factor list, term by term. */
  lemma TotalsOfFive(fs: seq<Factor>)
    requires |fs| == 5
    ensures Total(fs) == fs[0].score + fs[1].score + fs[2].score + fs[3].score + fs[4].score
    ensures MaxTotal(fs) == fs[0].maxScore + fs[1].maxScore + fs[2].maxScore + fs[3].maxScore + fs[4].maxScore
  {
    var f4 := fs[..4];
    var f3 := f4[..3];
    var f2 := f3[..2];
    var f1 := f2[..1];
    assert f1[..0] == [];
    assert Total(f1) == fs[0].score && MaxTotal(f1) == fs[0].maxScore;
    assert Total(f2) == Total(f1) + fs[1].score && MaxTotal(f2) == MaxTotal(f1) + fs[1].maxScore;
    assert Total(f3) == Total(f2) + fs[2].score && MaxTotal(f3) == MaxTotal(f2) + fs[2].maxScore;
    assert Total(f4) == Total(f3) + fs[3].score && MaxTotal(f4) == MaxTotal(f3) + fs[3].maxScore;
  }

  // ---------------------------------------------------------------------
  // Levels.

  const ExcellentMessage: string := "Your tax health is excellent! Keep up the good work."
  const GoodMessage: string := "Your tax health is good. A few improvements can make it excellent."
  const FairMessage: string := "Your tax health is fair. Focus on document completeness and deductions."
  const PoorMessage: string := "Your tax health needs improvement. Upload missing documents and optimize deductions."

  function LevelOf(score: int): Level {
    if score >= 85 then LevelExcellent
    else if score >= 70 then LevelGood
    else if score >= 55 then LevelFair
    else LevelNeedsImprovement
  }

  function MessageOf(level: Level): string {
    match level
    case LevelExcellent => ExcellentMessage
    case LevelGood => GoodMessage
    case LevelFair => FairMessage
    case LevelNeedsImprovement => PoorMessage
  }

  /** The levels in their order of merit. */
  function Merit(level: Level): nat {
    match level
    case LevelNeedsImprovement => 0
    case LevelFair => 1
    case LevelGood => 2
    case LevelExcellent => 3
  }

  /** A higher score never earns a lower level. */
  lemma LevelMonotone(a: int, b: int)
    requires a <= b
    ensures Merit(LevelOf(a)) <= Merit(LevelOf(b))
  {
  }

  // ---------------------------------------------------------------------
  // The score.

  /** `calculate_tax_health_score`, on the summary, the consistency report
      and the gap analysis of the same documents. */
  function CalculateHealth(s: TaxSummary, report: Report, g: GapAnalysis): (h: HealthScore)
    ensures |h.factors| == 5 && MaxTotal(h.factors) == h.maxScore == MaxScore
    ensures h.factors == [DocumentFactor(g.completion), ConsistencyFactor(report), DeductionFactor(s.deductions),
                          PlanningFactor(s), ComplianceFactor(|g.missing|)]
    ensures h.score == RoundHalfEven(Total(h.factors))
    ensures 0.0 <= g.completion <= 100.0 ==> 0 <= h.score <= MaxScore
    ensures h.level == LevelOf(h.score) && h.message == MessageOf(h.level)
  {
    var factors := [DocumentFactor(g.completion), ConsistencyFactor(report), DeductionFactor(s.deductions),
                    PlanningFactor(s), ComplianceFactor(|g.missing|)];
    var total := factors[0].score + factors[1].score + factors[2].score + factors[3].score + factors[4].score;
    TotalsOfFive(factors);
    var score := RoundHalfEven(total);
    HealthScore(score, MaxScore, LevelOf(score), MessageOf(LevelOf(score)), factors)
  }

  /** More of the completion percentage, everything else equal, never lowers
      the score. */
  lemma HealthMonotoneInCompletion(s: TaxSummary, report: Report, g: GapAnalysis, c: real)
    requires g.completion <= c
    ensures CalculateHealth(s, report, g).score <= CalculateHealth(s, report, g.(completion := c)).score
  {
    var a := CalculateHealth(s, report, g).factors;
    var b := CalculateHealth(s, report, g.(completion := c)).factors;
    TotalsOfFive(a);
    TotalsOfFive(b);
    RoundMonotone(Total(a), Total(b));
  }

  /** The endpoint's answer when the user has uploaded nothing. */
  const NoDocumentsHealth: HealthScore :=
    HealthScore(0, MaxScore, LevelNeedsImprovement, "Upload documents to calculate your tax health score", [])

  /** The health-score endpoint: the fixed answer for no documents, the
      computed score otherwise. */
  function HealthEndpoint(docs: seq<Document>): (h: HealthScore)
    requires AllReadable(docs) && ConsistencyReadable(docs)
    ensures 0 <= h.score <= MaxScore
    ensures |docs| == 0 <==> |h.factors| == 0
    ensures |docs| == 0 ==> h.score == 0 && h.level == LevelNeedsImprovement
  {
    if |docs| == 0 then NoDocumentsHealth
    else CalculateHealth(Aggregate(docs), CheckConsistencies(docs), AnalyzeGaps(docs))
  }

  /** Were the score computed for an empty upload set it would be 49: no
      completeness, a clean report, the lowest deduction step, nothing
      payable and both required documents missing. */
  lemma NothingUploadedScores49(docs: seq<Document>)
    requires AllReadable(docs) && ConsistencyReadable(docs)
    requires |docs| == 0
    ensures CalculateHealth(Aggregate(docs), CheckConsistencies(docs), AnalyzeGaps(docs)).score == 49
    ensures CalculateHealth(Aggregate(docs), CheckConsistencies(docs), AnalyzeGaps(docs)).level == LevelNeedsImprovement
  {
    var s := Aggregate(docs);
    var report := CheckConsistencies(docs);
    var g := AnalyzeGaps(docs);
    EmptySummary(docs);
    EmptyReport(docs);
    EmptyGaps(docs);
    ScoreOfNothing(s, report, g);
  }

  lemma ScoreOfNothing(s: TaxSummary, report: Report, g: GapAnalysis)
    requires s.estimate.netPayable == 0.0 && HeadlineDeductions(s.deductions) == 0.0
    requires report.status == Clean
    requires g.completion == 0.0 && |g.missing| == 2
    ensures CalculateHealth(s, report, g).score == 49
    ensures CalculateHealth(s, report, g).level == LevelNeedsImprovement
  {
    var h := CalculateHealth(s, report, g);
    TotalsOfFive(h.factors);
    assert Total(h.factors) == 49.0;
  }

  lemma EmptySummary(docs: seq<Document>)
    requires |docs| == 0
    ensures Aggregate(docs).estimate.netPayable == 0.0
    ensures HeadlineDeductions(Aggregate(docs).deductions) == 0.0
  {
    AggregateOfNothing(docs);
    FinishInitial();
  }

  lemma AggregateOfNothing(docs: seq<Document>)
    requires |docs| == 0
    ensures Aggregate(docs) == Finish(Initial)
  {
    assert Accumulate(docs) == Initial;
  }

  lemma FinishInitial()
    ensures Finish(Initial).estimate.netPayable == 0.0
    ensures HeadlineDeductions(Finish(Initial).deductions) == 0.0
  {
    var f := Finish(Initial);
    assert f.deductions == Initial.deductions;
    assert CappedDeductions(f.deductions, f.income.totalSalary) == 0.0;
    assert f.estimate.taxableIncome == 0.0;
  }

  lemma EmptyReport(docs: seq<Document>)
    requires |docs| == 0
    ensures CheckConsistencies(docs).status == Clean
  {
    assert !HasKind(docs, Form16);
  }

  lemma EmptyGaps(docs: seq<Document>)
    requires |docs| == 0
    ensures AnalyzeGaps(docs).completion == 0.0
    ensures |AnalyzeGaps(docs).missing| == 2
  {
    CompletionEmpty(docs);
    assert !HasKind(docs, Form16) && !HasKind(docs, Form26AS);
  }

  /** On the documents' own reports: the consistency factor loses points
      exactly when Form 16 and Form 26AS disagree on TDS, and the compliance
      factor never drops below four. */
  lemma FactorsOfDocuments(docs: seq<Document>)
    requires AllReadable(docs) && ConsistencyReadable(docs)
    ensures ConsistencyFactor(CheckConsistencies(docs)).score < 25.0
            <==> TdsFlagged(KindSum(docs, Form16, "tds"), KindSum(docs, Form26AS, "total_tds"))
    ensures ComplianceFactor(|AnalyzeGaps(docs).missing|).score >= 4.0
    ensures ComplianceFactor(|AnalyzeGaps(docs).missing|).score == 10.0
            <==> HasKind(docs, Form16) && HasKind(docs, Form26AS)
  {
    ConsistencyFactorOfReport(CheckConsistencies(docs));
  }

  /** The consistency factor loses points exactly when the report has an
      inconsistency. */
  lemma ConsistencyFactorOfReport(report: Report)
    requires report.status == Clean <==> |report.inconsistencies| == 0
    requires report.totalIssues == |report.inconsistencies| + |report.warnings|
    ensures ConsistencyFactor(report).score < 25.0 <==> |report.inconsistencies| > 0
  {
  }
}

=== FILE: insights.dfy ===
/**
 The tax insights feed: saving opportunities, risks, advance-tax and ITR
 nudges and optimization notes derived from a summary and a consistency
 report, merged and ordered by priority and timestamp. The clock is the
 parameter `now`; every insight of one feed carries its timestamp.
 */
module Insights {
  import opened Values
  import opened Documents
  import opened Slabs
  import opened Summary
  import opened Consistency
  import opened Calendar

  datatype InsightKind = OpportunityInsight | RiskInsight | DeadlineInsight | OptimizationInsight

  datatype Category =
    | HraClaim
    | Section80CRoom
    | Section80DRoom
    | NpsRoom
    | TdsMismatchRisk
    | Missing26asRisk
    | UndeclaredIncome
    | HighTaxPayable
    | AdvanceTaxDue
    | ItrFiling
    | RegimeSelection
    | StandardDeductionNote

  /** One feed entry. Messages that embed formatted amounts are not modelled. */
  datatype Insight = Insight(
    kind: InsightKind,
    category: Category,
    title: string,
    priority: Priority,
    action: string,
    impact: Option<string>,
    potentialSavings: Option<real>,
    deadline: Option<Date>,
    daysRemaining: Option<int>,
    timestamp: nat)

  // ---------------------------------------------------------------------
  // Savings estimate.

  /** `calculate_tax_savings`: the tax that an extra deduction would remove,
      never negative. */
  function TaxSavings(additional: real, s: TaxSummary): (r: real)
    ensures r >= 0.0
    ensures r >= s.estimate.totalTax - Tax(Max(0.0, s.estimate.taxableIncome - additional))
  {
    Max(0.0, s.estimate.totalTax - Tax(Max(0.0, s.estimate.taxableIncome - additional)))
  }

  /** On a finished summary a non-negative extra deduction saves at most the
      whole tax, and a larger one never saves less. */
  lemma SavingsBounds(a: real, b: real, s: TaxSummary)
    requires Finished(s) && 0.0 <= a <= b
    ensures TaxSavings(a, s) <= s.estimate.totalTax
    ensures TaxSavings(a, s) <= TaxSavings(b, s)
  {
    var taxable := s.estimate.taxableIncome;
    TaxMonotone(Max(0.0, taxable - b), Max(0.0, taxable - a));
  }

  /** No extra deduction saves nothing; one covering the whole taxable
      income saves the whole tax. */
  lemma SavingsExtremes(additional: real, s: TaxSummary)
    requires Finished(s)
    ensures additional <= 0.0 ==> TaxSavings(additional, s) == 0.0
    ensures additional >= s.estimate.taxableIncome ==> TaxSavings(additional, s) == s.estimate.totalTax
  {
    var taxable := s.estimate.taxableIncome;
    if additional <= 0.0 {
      TaxMonotone(taxable, Max(0.0, taxable - additional));
    }
  }

  // ---------------------------------------------------------------------
  // Membership by category.

  /** Some insight of `r` has category `c`. */
  predicate Has(r: seq<Insight>, c: Category) {
    exists i :: 0 <= i < |r| && r[i].category == c
  }

  lemma HasAppend(a: seq<Insight>, b: seq<Insight>, c: Category)
    ensures Has(a + b, c) <==> Has(a, c) || Has(b, c)
  {
    if Has(a + b, c) {
      var i :| 0 <= i < |a + b| && (a + b)[i].category == c;
      if i >= |a| { assert b[i - |a|] == (a + b)[i]; }
    }
    if Has(b, c) {
      var i :| 0 <= i < |b| && b[i].category == c;
      assert (a + b)[|a| + i] == b[i];
    }
    if Has(a, c) {
      var i :| 0 <= i < |a| && a[i].category == c;
      assert (a + b)[i] == a[i];
    }
  }

  /** Every insight of `r` has kind `k` and timestamp `stamp`. */
  predicate Stamped(r: seq<Insight>, k: InsightKind, stamp: nat) {
    forall i :: 0 <= i < |r| ==> r[i].kind == k && r[i].timestamp == stamp
  }

  lemma StampedAppend(a: seq<Insight>, b: seq<Insight>, k: InsightKind, stamp: nat)
    requires Stamped(a, k, stamp) && Stamped(b, k, stamp)
    ensures Stamped(a + b, k, stamp)
  {
  }

  // ---------------------------------------------------------------------
  // Opportunities.

  /** The HRA opportunity. It sums the rent of the rent receipts only when
      there are none, so the sum is 0 and nothing is ever suggested. */
  function HraOpportunity(docs: seq<Document>, s: TaxSummary, stamp: nat): (r: seq<Insight>)
    ensures r == []
  {
    if HasKind(docs, SalarySlip) && !HasKind(docs, RentReceipt) then
      var totalRent := KindSum(docs, RentReceipt, "monthly_rent") * 12.0;
      if totalRent > 0.0 then
        var claimable := Min(totalRent, s.income.totalSalary * 0.5);
        if claimable > s.deductions.hra.total then
          [Insight(OpportunityInsight, HraClaim, "HRA Claim Opportunity", High,
             "Upload rent receipts to maximize HRA deduction", None,
             Some(TaxSavings(claimable - s.deductions.hra.total, s)), None, None, stamp)]
        else []
      else []
    else []
  }

  /** Suggest filling a capped deduction when more than `threshold` of the
      cap remains. */
  function RoomOpportunity(current: real, cap: real, threshold: real, category: Category, title: string,
                           priority: Priority, action: string, s: TaxSummary, stamp: nat): (r: seq<Insight>)
    ensures |r| == if current < cap - threshold && current < cap then 1 else 0
    ensures Stamped(r, OpportunityInsight, stamp)
    ensures forall i :: 0 <= i < |r| ==>
              r[i].category == category && r[i].priority == priority
              && r[i].potentialSavings == Some(TaxSavings(cap - current, s))
  {
    if current < cap then
      var remaining := cap - current;
      if remaining > threshold then
        [Insight(OpportunityInsight, category, title, priority, action, None,
           Some(TaxSavings(remaining, s)), None, None, stamp)]
      else []
    else []
  }

  function Section80COpportunity(s: TaxSummary, stamp: nat): (r: seq<Insight>)
    ensures |r| == if s.deductions.section80c.total < 140000.0 then 1 else 0
    ensures Stamped(r, OpportunityInsight, stamp)
    ensures forall i :: 0 <= i < |r| ==>
              r[i].category == Section80CRoom && r[i].priority == Medium
              && r[i].potentialSavings == Some(TaxSavings(Cap80C - s.deductions.section80c.total, s))
  {
    RoomOpportunity(s.deductions.section80c.total, 150000.0, 10000.0, Section80CRoom, "Maximize Section 80C",
      Medium, "Consider investing in ELSS, PPF, or LIC to maximize Section 80C", s, stamp)
  }

  function Section80DOpportunity(s: TaxSummary, stamp: nat): (r: seq<Insight>)
    ensures |r| == if s.deductions.section80d.total < 20000.0 then 1 else 0
    ensures Stamped(r, OpportunityInsight, stamp)
    ensures forall i :: 0 <= i < |r| ==>
              r[i].category == Section80DRoom && r[i].priority == Medium
              && r[i].potentialSavings == Some(TaxSavings(Cap80D - s.deductions.section80d.total, s))
  {
    RoomOpportunity(s.deductions.section80d.total, 25000.0, 5000.0, Section80DRoom, "Health Insurance Deduction",
      Medium, "Review your health insurance premiums to maximize Section 80D", s, stamp)
  }

  function NpsOpportunity(s: TaxSummary, stamp: nat): (r: seq<Insight>)
    ensures |r| == if s.deductions.nps.total < 40000.0 then 1 else 0
    ensures Stamped(r, OpportunityInsight, stamp)
    ensures forall i :: 0 <= i < |r| ==>
              r[i].category == NpsRoom && r[i].priority == Low
              && r[i].potentialSavings == Some(TaxSavings(CapNps - s.deductions.nps.total, s))
  {
    RoomOpportunity(s.deductions.nps.total, 50000.0, 10000.0, NpsRoom, "NPS Contribution Opportunity",
      Low, "Increase NPS contribution to maximize tax savings", s, stamp)
  }

  /** A list whose insights all have category `c` has `k` exactly when
      `k` is `c` and the list is non-empty. */
  lemma HasUniform(r: seq<Insight>, c: Category, k: Category)
    requires forall i :: 0 <= i < |r| ==> r[i].category == c
    ensures Has(r, k) <==> k == c && |r| > 0
  {
    if |r| > 0 { assert r[0].category == c; }
  }

  /** The position of each opportunity in the source's order. */
  function OpportunitySlot(c: Category): nat {
    if c == Section80CRoom then 0 else if c == Section80DRoom then 1 else 2
  }

  /** Every insight of `r` is an 80C, 80D or NPS opportunity. */
  predicate RoomCategories(r: seq<Insight>) {
    forall i :: 0 <= i < |r| ==> r[i].category in {Section80CRoom, Section80DRoom, NpsRoom}
  }

  /** Each insight of `r` comes before every insight of a later slot. */
  predicate InSlotOrder(r: seq<Insight>) {
    forall i, j :: 0 <= i < j < |r| ==> OpportunitySlot(r[i].category) < OpportunitySlot(r[j].category)
  }

  /** `detect_opportunities`: one insight per deduction with room left, in
      the order 80C, 80D, NPS, and nothing else. */
  function DetectOpportunities(docs: seq<Document>, s: TaxSummary, stamp: nat): (r: seq<Insight>)
    ensures |r| == (if s.deductions.section80c.total < 140000.0 then 1 else 0)
                   + (if s.deductions.section80d.total < 20000.0 then 1 else 0)
                   + (if s.deductions.nps.total < 40000.0 then 1 else 0)
    ensures RoomCategories(r)
    ensures InSlotOrder(r)
    ensures Stamped(r, OpportunityInsight, stamp)
    ensures Has(r, Section80CRoom) <==> s.deductions.section80c.total < 140000.0
    ensures Has(r, Section80DRoom) <==> s.deductions.section80d.total < 20000.0
    ensures Has(r, NpsRoom) <==> s.deductions.nps.total < 40000.0
    ensures !Has(r, HraClaim)
  {
    var h := HraOpportunity(docs, s, stamp);
    var c := Section80COpportunity(s, stamp);
    var d := Section80DOpportunity(s, stamp);
    var n := NpsOpportunity(s, stamp);
    OpportunityParts(h, c, d, n, stamp)
  }

  /** The opportunity list assembled from its four parts, HRA always empty. */
  function OpportunityParts(h: seq<Insight>, c: seq<Insight>, d: seq<Insight>, n: seq<Insight>, stamp: nat): (r: seq<Insight>)
    requires h == [] && |c| <= 1 && |d| <= 1 && |n| <= 1
    requires forall i :: 0 <= i < |c| ==> c[i].category == Section80CRoom
    requires forall i :: 0 <= i < |d| ==> d[i].category == Section80DRoom
    requires forall i :: 0 <= i < |n| ==> n[i].category == NpsRoom
    requires Stamped(c, OpportunityInsight, stamp) && Stamped(d, OpportunityInsight, stamp)
    requires Stamped(n, OpportunityInsight, stamp)
    ensures |r| == |c| + |d| + |n|
    ensures RoomCategories(r)
    ensures InSlotOrder(r)
    ensures Stamped(r, OpportunityInsight, stamp)
    ensures Has(r, Section80CRoom) <==> |c| > 0
    ensures Has(r, Section80DRoom) <==> |d| > 0
    ensures Has(r, NpsRoom) <==> |n| > 0
    ensures !Has(r, HraClaim)
  {
    OpportunityCategories(c, d, n);
    OpportunityOrder(c, d, n);
    StampedAppend(c, d, OpportunityInsight, stamp);
    StampedAppend(c + d, n, OpportunityInsight, stamp);
    assert h + c + d + n == [] + c + d + n;
    h + c + d + n
  }

  lemma OpportunityOrder(c: seq<Insight>, d: seq<Insight>, n: seq<Insight>)
    requires |c| <= 1 && |d| <= 1 && |n| <= 1
    requires forall i :: 0 <= i < |c| ==> c[i].category == Section80CRoom
    requires forall i :: 0 <= i < |d| ==> d[i].category == Section80DRoom
    requires forall i :: 0 <= i < |n| ==> n[i].category == NpsRoom
    ensures forall i :: 0 <= i < |[] + c + d + n| ==>
              ([] + c + d + n)[i].category in {Section80CRoom, Section80DRoom, NpsRoom}
    ensures forall i, j :: 0 <= i < j < |[] + c + d + n| ==>
              OpportunitySlot(([] + c + d + n)[i].category) < OpportunitySlot(([] + c + d + n)[j].category)
  {
    var r := [] + c + d + n;
    forall i | 0 <= i < |r| ensures OpportunitySlot(r[i].category) == if i < |c| then 0 else if i < |c| + |d| then 1 else 2 {
      if i < |c| { assert r[i] == c[i]; }
      else if i < |c| + |d| { assert r[i] == d[i - |c|]; }
      else { assert r[i] == n[i - |c| - |d|]; }
    }
  }

  lemma OpportunityCategories(c: seq<Insight>, d: seq<Insight>, n: seq<Insight>)
    requires forall i :: 0 <= i < |c| ==> c[i].category == Section80CRoom
    requires forall i :: 0 <= i < |d| ==> d[i].category == Section80DRoom
    requires forall i :: 0 <= i < |n| ==> n[i].category == NpsRoom
    ensures Has([] + c + d + n, Section80CRoom) <==> |c| > 0
    ensures Has([] + c + d + n, Section80DRoom) <==> |d| > 0
    ensures Has([] + c + d + n, NpsRoom) <==> |n| > 0
    ensures !Has([] + c + d + n, HraClaim)
  {
    assert [] + c + d + n == (c + d) + n;
    forall k ensures Has([] + c + d + n, k) <==>
                       (k == Section80CRoom && |c| > 0) || (k == Section80DRoom && |d| > 0) || (k == NpsRoom && |n| > 0) {
      HasAppend(c, d, k);
      HasAppend(c + d, n, k);
      HasUniform(c, Section80CRoom, k);
      HasUniform(d, Section80DRoom, k);
      HasUniform(n, NpsRoom, k);
    }
  }

  /** A summary aggregated from documents never has NPS contributions, so
      the NPS suggestion is always part of its opportunities. */
  lemma AggregateAlwaysSuggestsNps(docs: seq<Document>, stamp: nat)
    requires AllReadable(docs)
    ensures Has(DetectOpportunities(docs, Aggregate(docs), stamp), NpsRoom)
  {
    AggregateNeverFillsNps(docs);
  }

  // ---------------------------------------------------------------------
  // Risks.

  /** One critical risk per TDS mismatch of the consistency report, carrying its action. */
  function TdsRisks(issues: seq<Issue>, stamp: nat): (r: seq<Insight>)
    ensures |r| == CountKind(issues, TdsMismatch)
    ensures forall i :: 0 <= i < |r| ==>
              r[i].category == TdsMismatchRisk && r[i].priority == Critical
              && r[i].kind == RiskInsight && r[i].timestamp == stamp
  {
    if |issues| == 0 then []
    else
      var last := issues[|issues| - 1];
      TdsRisks(issues[..|issues| - 1], stamp)
      + (if last.kind == TdsMismatch
         then [Insight(RiskInsight, TdsMismatchRisk, "TDS Mismatch Detected", Critical, last.action,
                 Some("May result in tax notice or refund delay"), None, None, None, stamp)]
         else [])
  }

  predicate BankInterestUndeclared(docs: seq<Document>, s: TaxSummary) {
    s.income.otherIncome > 0.0 && s.income.bankInterest > 40000.0 && !HasKind(docs, BankInterestCertificate)
  }

  /** Only TDS mismatch risks are critical. */
  predicate CriticalOnlyForTds(r: seq<Insight>) {
    forall i :: 0 <= i < |r| ==> (r[i].priority == Critical <==> r[i].category == TdsMismatchRisk)
  }

  /** `detect_risks`. */
  function DetectRisks(docs: seq<Document>, s: TaxSummary, report: Report, stamp: nat): (r: seq<Insight>)
    ensures Stamped(r, RiskInsight, stamp)
    ensures |r| == CountKind(report.inconsistencies, TdsMismatch)
                   + (if HasKind(docs, Form26AS) then 0 else 1)
                   + (if BankInterestUndeclared(docs, s) then 1 else 0)
                   + (if s.estimate.netPayable > 10000.0 then 1 else 0)
    ensures Has(r, TdsMismatchRisk) <==> CountKind(report.inconsistencies, TdsMismatch) > 0
    ensures Has(r, Missing26asRisk) <==> !HasKind(docs, Form26AS)
    ensures Has(r, UndeclaredIncome) <==> BankInterestUndeclared(docs, s)
    ensures Has(r, HighTaxPayable) <==> s.estimate.netPayable > 10000.0
    ensures CriticalOnlyForTds(r)
  {
    var tds := TdsRisks(report.inconsistencies, stamp);
    var missing :=
      if !HasKind(docs, Form26AS)
      then [Insight(RiskInsight, Missing26asRisk, "Form 26AS Not Uploaded", High,
              "Download and upload Form 26AS from income tax portal", Some("ITR may be rejected or delayed"),
              None, None, None, stamp)]
      else [];
    var bank :=
      if s.income.otherIncome > 0.0 && s.income.bankInterest > 40000.0 && !HasKind(docs, BankInterestCertificate)
      then [Insight(RiskInsight, UndeclaredIncome, "Bank Interest Declaration", Medium,
              "Upload bank interest certificates and declare in ITR", Some("May attract penalty for non-declaration"),
              None, None, None, stamp)]
      else [];
    var payable :=
      if s.estimate.netPayable > 10000.0
      then [Insight(RiskInsight, HighTaxPayable, "High Tax Payable", High,
              "Pay advance tax before March 15 to avoid interest under Section 234B/234C",
              Some("Interest charges if not paid on time"), None, None, None, stamp)]
      else [];
    RiskParts(tds, missing, bank, payable, stamp);
    tds + missing + bank + payable
  }

  lemma RiskParts(tds: seq<Insight>, missing: seq<Insight>, bank: seq<Insight>, payable: seq<Insight>, stamp: nat)
    requires forall i :: 0 <= i < |tds| ==> tds[i].category == TdsMismatchRisk && tds[i].priority == Critical
    requires forall i :: 0 <= i < |missing| ==> missing[i].category == Missing26asRisk && missing[i].priority == High
    requires forall i :: 0 <= i < |bank| ==> bank[i].category == UndeclaredIncome && bank[i].priority == Medium
    requires forall i :: 0 <= i < |payable| ==> payable[i].category == HighTaxPayable && payable[i].priority == High
    requires Stamped(tds, RiskInsight, stamp) && Stamped(missing, RiskInsight, stamp)
    requires Stamped(bank, RiskInsight, stamp) && Stamped(payable, RiskInsight, stamp)
    ensures Stamped(tds + missing + bank + payable, RiskInsight, stamp)
    ensures Has(tds + missing + bank + payable, TdsMismatchRisk) <==> |tds| > 0
    ensures Has(tds + missing + bank + payable, Missing26asRisk) <==> |missing| > 0
    ensures Has(tds + missing + bank + payable, UndeclaredIncome) <==> |bank| > 0
    ensures Has(tds + missing + bank + payable, HighTaxPayable) <==> |payable| > 0
    ensures CriticalOnlyForTds(tds + missing + bank + payable)
  {
    var r := tds + missing + bank + payable;
    forall k ensures Has(r, k) <==>
                       (k == TdsMismatchRisk && |tds| > 0) || (k == Missing26asRisk && |missing| > 0)
                       || (k == UndeclaredIncome && |bank| > 0) || (k == HighTaxPayable && |payable| > 0) {
      HasAppend(tds, missing, k);
      HasAppend(tds + missing, bank, k);
      HasAppend(tds + missing + bank, payable, k);
      HasUniform(tds, TdsMismatchRisk, k);
      HasUniform(missing, Missing26asRisk, k);
      HasUniform(bank, UndeclaredIncome, k);
      HasUniform(payable, HighTaxPayable, k);
    }
    forall i | 0 <= i < |r| ensures (r[i].priority == Critical <==> r[i].category == TdsMismatchRisk) {
      if i < |tds| { assert r[i] == tds[i]; }
      else if i < |tds| + |missing| { assert r[i] == missing[i - |tds|]; }
      else if i < |tds| + |missing| + |bank| { assert r[i] == bank[i - |tds| - |missing|]; }
      else { assert r[i] == payable[i - |tds| - |missing| - |bank|]; }
    }
  }

  /** Plain sums of a field over documents none of which contributes are 0. */
  lemma {:induction false} BankInterestWithoutCertificates(docs: seq<Document>)
    requires AllReadable(docs) && !HasKind(docs, BankInterestCertificate)
    ensures SumOf(docs, BankInterest) == 0.0
  {
    if |docs| > 0 {
      var init := docs[..|docs| - 1];
      assert !HasKind(init, BankInterestCertificate) by {
        forall i | 0 <= i < |init| ensures init[i].Kind() != BankInterestCertificate {
          assert init[i] == docs[i];
        }
      }
      assert AllReadable(init) by {
        forall i | 0 <= i < |init| ensures Readable(init[i]) { assert init[i] == docs[i]; }
      }
      BankInterestWithoutCertificates(init);
      assert docs[|docs| - 1].Kind() != BankInterestCertificate;
    }
  }

  /** Bank interest enters an aggregated summary only through bank interest
      certificates, so the undeclared-interest risk never fires on it. */
  lemma AggregateNeverUndeclared(docs: seq<Document>)
    requires AllReadable(docs)
    ensures !BankInterestUndeclared(docs, Aggregate(docs))
  {
    if !HasKind(docs, BankInterestCertificate) {
      AggregateSumsArePermutationInvariant(docs, docs, BankInterest);
      BankInterestWithoutCertificates(docs);
    }
  }

  /** On a document set and its own consistency report, a TDS risk is raised
      exactly when Form 16 and Form 26AS TDS disagree by more than 100. */
  lemma TdsRiskIffMismatch(docs: seq<Document>, s: TaxSummary, stamp: nat)
    requires ConsistencyReadable(docs)
    ensures Has(DetectRisks(docs, s, CheckConsistencies(docs), stamp), TdsMismatchRisk)
            <==> TdsFlagged(KindSum(docs, Form16, "tds"), KindSum(docs, Form26AS, "total_tds"))
  {
    var report := CheckConsistencies(docs);
    CountKindUniform(report.inconsistencies, TdsMismatch, TdsMismatch);
  }

  // ---------------------------------------------------------------------
  // Deadline nudges.

  /** A quarterly advance-tax nudge, raised 0 to 7 days before the due date. */
  function AdvanceTaxNudge(due: Date, description: string, now: Instant, stamp: nat): (r: seq<Insight>)
    requires ValidDate(due) && ValidInstant(now)
    ensures |r| == if 0 <= DaysUntil(due, now) <= 7 then 1 else 0
    ensures Stamped(r, DeadlineInsight, stamp)
    ensures forall i :: 0 <= i < |r| ==>
              r[i].category == AdvanceTaxDue && r[i].deadline == Some(due)
              && r[i].daysRemaining == Some(DaysUntil(due, now))
              && (r[i].priority == Critical <==> DaysUntil(due, now) <= 3)
              && (r[i].priority == Critical || r[i].priority == High)
  {
    var days := DaysUntil(due, now);
    if 0 <= days <= 7 then
      [Insight(DeadlineInsight, AdvanceTaxDue, description + " Due", if days <= 3 then Critical else High,
         "Pay advance tax before " + LongDate(due), None, None, Some(due), Some(days), stamp)]
    else []
  }

  /** The ITR nudge, raised 0 to 30 days before July 31 of the next year. */
  function ItrNudge(now: Instant, stamp: nat): (r: seq<Insight>)
    requires ValidInstant(now) && now.date.year < 9999
    ensures |r| == if 0 <= DaysUntil(Date(now.date.year + 1, 7, 31), now) <= 30 then 1 else 0
    ensures Stamped(r, DeadlineInsight, stamp)
  {
    var due := Date(now.date.year + 1, 7, 31);
    var days := DaysUntil(due, now);
    if 0 <= days <= 30 then
      [Insight(DeadlineInsight, ItrFiling, "ITR Filing Deadline", if days <= 7 then Critical else High,
         "File your ITR before July 31 to avoid penalty", None, None, Some(due), Some(days), stamp)]
    else []
  }

  /** Every insight of `r` is an advance-tax installment due in `year`. */
  predicate InstallmentsOf(r: seq<Insight>, year: int) {
    forall i :: 0 <= i < |r| ==>
      r[i].category == AdvanceTaxDue && r[i].deadline.Some? && r[i].deadline.value.year == year
  }

  lemma InstallmentsAppend(a: seq<Insight>, b: seq<Insight>, year: int)
    requires InstallmentsOf(a, year) && InstallmentsOf(b, year)
    ensures InstallmentsOf(a + b, year)
  {
  }

  /** A nudge is due when its date is 0 to 7 whole days away. */
  predicate NudgeWindow(due: Date, now: Instant)
    requires ValidDate(due) && ValidInstant(now)
  {
    0 <= DaysUntil(due, now) <= 7
  }

  /** `x` is a nudge raised inside the window of its own due date, carrying
      the days left, and critical exactly when at most 3 days are left. */
  predicate NudgeOn(x: Insight, now: Instant) {
    x.deadline.Some? && ValidDate(x.deadline.value) && ValidInstant(now)
    && NudgeWindow(x.deadline.value, now)
    && x.daysRemaining == Some(DaysUntil(x.deadline.value, now))
    && (x.priority == Critical <==> DaysUntil(x.deadline.value, now) <= 3)
  }

  predicate AllNudgesOn(r: seq<Insight>, now: Instant) {
    forall i :: 0 <= i < |r| ==> NudgeOn(r[i], now)
  }

  lemma AllNudgesOnAppend(a: seq<Insight>, b: seq<Insight>, now: Instant)
    requires AllNudgesOn(a, now) && AllNudgesOn(b, now)
    ensures AllNudgesOn(a + b, now)
  {
  }

  /** The nudges for the three installments of the current year: one
      exactly when June 15, September 15 or December 15 is 0 to 7 days
      away, and never more, since those dates lie 92 and 91 days apart. */
  function CurrentYearNudges(now: Instant, stamp: nat): (r: seq<Insight>)
    requires ValidInstant(now) && now.date.year < 9999
    ensures Stamped(r, DeadlineInsight, stamp)
    ensures |r| <= 1
    ensures |r| == 1 <==> NudgeWindow(Date(now.date.year, 6, 15), now) || NudgeWindow(Date(now.date.year, 9, 15), now)
                          || NudgeWindow(Date(now.date.year, 12, 15), now)
    ensures InstallmentsOf(r, now.date.year)
    ensures AllNudgesOn(r, now)
  {
    var y := now.date.year;
    var q1 := AdvanceTaxNudge(Date(y, 6, 15), "Q1 Advance Tax", now, stamp);
    var q2 := AdvanceTaxNudge(Date(y, 9, 15), "Q2 Advance Tax", now, stamp);
    var q3 := AdvanceTaxNudge(Date(y, 12, 15), "Q3 Advance Tax", now, stamp);
    InstallmentSpacing(now);
    InstallmentsAppend(q1, q2, y);
    InstallmentsAppend(q1 + q2, q3, y);
    StampedAppend(q1, q2, DeadlineInsight, stamp);
    StampedAppend(q1 + q2, q3, DeadlineInsight, stamp);
    AllNudgesOnAppend(q1, q2, now);
    AllNudgesOnAppend(q1 + q2, q3, now);
    q1 + q2 + q3
  }

  /** `get_upcoming_deadlines`: the four advance-tax installments (June 15,
      September 15 and December 15 of the current year, March 15 of the
      next) and the ITR date, July 31 of the next year. One nudge is raised
      exactly when a Q1 to Q3 installment of the current year is 0 to 7
      days away, and never more than one. */
  function UpcomingDeadlines(now: Instant, stamp: nat): (r: seq<Insight>)
    requires ValidInstant(now) && now.date.year < 9999
    ensures Stamped(r, DeadlineInsight, stamp)
    ensures |r| <= 1
    ensures |r| == 1 <==> NudgeWindow(Date(now.date.year, 6, 15), now) || NudgeWindow(Date(now.date.year, 9, 15), now)
                          || NudgeWindow(Date(now.date.year, 12, 15), now)
    ensures InstallmentsOf(r, now.date.year)
    ensures AllNudgesOn(r, now)
  {
    var q4 := AdvanceTaxNudge(Date(now.date.year + 1, 3, 15), "Q4 Advance Tax", now, stamp);
    var itr := ItrNudge(now, stamp);
    NextYearNudgesNeverFire(now, stamp);
    assert CurrentYearNudges(now, stamp) + q4 + itr == CurrentYearNudges(now, stamp);
    CurrentYearNudges(now, stamp) + q4 + itr
  }

  /** Both next-year dates lie more than 30 days past the end of the
      current year, so neither the Q4 nudge nor the ITR nudge can fire: in
      the source they are dead code. */
  lemma NextYearNudgesNeverFire(now: Instant, stamp: nat)
    requires ValidInstant(now) && now.date.year < 9999
    ensures AdvanceTaxNudge(Date(now.date.year + 1, 3, 15), "Q4 Advance Tax", now, stamp) == []
    ensures ItrNudge(now, stamp) == []
  {
    NextYearIsFar(now);
  }

  lemma NextYearIsFar(now: Instant)
    requires ValidInstant(now) && now.date.year < 9999
    ensures DaysUntil(Date(now.date.year + 1, 3, 15), now) > 30
    ensures DaysUntil(Date(now.date.year + 1, 7, 31), now) > 30
  {
    var y := now.date.year;
    OrdinalWithinYear(now.date);
    MonthTable(y + 1);
    assert Ordinal(Date(y + 1, 3, 15)) >= DaysBeforeYear(y + 1) + 74;
    assert Ordinal(Date(y + 1, 7, 31)) >= DaysBeforeYear(y + 1) + 212;
  }

  /** The current-year installments are 92 and 91 days apart. */
  lemma InstallmentSpacing(now: Instant)
    requires ValidInstant(now) && now.date.year < 9999
    ensures DaysUntil(Date(now.date.year, 9, 15), now) == DaysUntil(Date(now.date.year, 6, 15), now) + 92
    ensures DaysUntil(Date(now.date.year, 12, 15), now) == DaysUntil(Date(now.date.year, 9, 15), now) + 91
  {
    MonthTable(now.date.year);
  }

  // ---------------------------------------------------------------------
  // Optimizations.

  /** The deduction figure of the optimization and health checks: 80C and
      80D capped, HRA taken raw. */
  function HeadlineDeductions(d: Deductions): (r: real)
    ensures r - d.hra.total <= Cap80C + Cap80D
    ensures r - d.hra.total <= d.section80c.total + d.section80d.total
    ensures d.section80c.total <= Cap80C && d.section80d.total <= Cap80D
            ==> r == d.section80c.total + d.section80d.total + d.hra.total
    ensures d.section80c.total >= Cap80C && d.section80d.total >= Cap80D ==> r == Cap80C + Cap80D + d.hra.total
  {
    Min(d.section80c.total, 150000.0) + Min(d.section80d.total, 25000.0) + d.hra.total
  }

  /** `suggest_optimizations`: the old-regime suggestion exactly when the
      headline deductions pass 200000, the standard-deduction note exactly
      when there is salary, in that order. */
  function SuggestOptimizations(s: TaxSummary, stamp: nat): (r: seq<Insight>)
    ensures forall i :: 0 <= i < |r| ==> r[i].kind == OptimizationInsight && r[i].timestamp == stamp
    ensures |r| == (if HeadlineDeductions(s.deductions) > 200000.0 then 1 else 0)
                   + (if s.income.totalSalary > 0.0 then 1 else 0)
    ensures Has(r, RegimeSelection) <==> HeadlineDeductions(s.deductions) > 200000.0
    ensures Has(r, StandardDeductionNote) <==> s.income.totalSalary > 0.0
    ensures forall i :: 0 <= i < |r| ==>
              (r[i].category == RegimeSelection && r[i].priority == Medium)
              || (r[i].category == StandardDeductionNote && r[i].priority == Low)
  {
    var regime :=
      if HeadlineDeductions(s.deductions) > 200000.0
      then [Insight(OptimizationInsight, RegimeSelection, "Consider Old Tax Regime", Medium,
              "Compare old vs new regime in Tax Summary", None, None, None, None, stamp)]
      else [];
    var note :=
      if s.income.totalSalary > 0.0
      then [Insight(OptimizationInsight, StandardDeductionNote, "Standard Deduction Applied", Low,
              "No action needed", None, None, None, None, stamp)]
      else [];
    OptimizationParts(regime, note);
    regime + note
  }

  lemma OptimizationParts(regime: seq<Insight>, note: seq<Insight>)
    requires forall i :: 0 <= i < |regime| ==> regime[i].category == RegimeSelection
    requires forall i :: 0 <= i < |note| ==> note[i].category == StandardDeductionNote
    ensures Has(regime + note, RegimeSelection) <==> |regime| > 0
    ensures Has(regime + note, StandardDeductionNote) <==> |note| > 0
  {
    HasAppend(regime, note, RegimeSelection);
    HasAppend(regime, note, StandardDeductionNote);
    HasUniform(regime, RegimeSelection, RegimeSelection);
    HasUniform(regime, RegimeSelection, StandardDeductionNote);
    HasUniform(note, StandardDeductionNote, RegimeSelection);
    HasUniform(note, StandardDeductionNote, StandardDeductionNote);
  }

  /** The headline figure counts HRA uncapped: it can exceed the 80C, 80D
      and HRA part of the deductions the tax is actually computed with. */
  lemma HeadlineCountsRawHra(d: Deductions, totalSalary: real)
    requires d.hra.total >= totalSalary * 0.5
    ensures HeadlineDeductions(d)
            == Min(d.section80c.total, Cap80C) + Min(d.section80d.total, Cap80D)
               + Min(d.hra.total, totalSalary * 0.5) + (d.hra.total - totalSalary * 0.5)
  {
  }

  // ---------------------------------------------------------------------
  // Ordering.

  /** `{'critical': 0, 'high': 1, 'medium': 2, 'low': 3}`. */
  function Rank(p: Priority): nat {
    match p
    case Critical => 0
    case High => 1
    case Medium => 2
    case Low => 3
  }

  /** The sort key order: priority rank, then timestamp. */
  predicate KeyLe(a: Insight, b: Insight) {
    Rank(a.priority) < Rank(b.priority) || (Rank(a.priority) == Rank(b.priority) && a.timestamp <= b.timestamp)
  }

  predicate Sorted(s: seq<Insight>) {
    forall i, j :: 0 <= i < j < |s| ==> KeyLe(s[i], s[j])
  }

  /** Every element of `s` has a key not greater than `b`'s. */
  predicate AllKeyLe(s: seq<Insight>, b: Insight) {
    forall i :: 0 <= i < |s| ==> KeyLe(s[i], b)
  }

  /** A sorted list with a last element: its front is sorted and bounded by it. */
  lemma SortedSplit(s: seq<Insight>)
    requires Sorted(s) && |s| > 0
    ensures Sorted(s[..|s| - 1]) && AllKeyLe(s[..|s| - 1], s[|s| - 1]) && AllKeyLe(s, s[|s| - 1])
  {
  }

  /** A bound on a sorted list's last element bounds the whole list. */
  lemma BoundedByLast(s: seq<Insight>, x: Insight)
    requires Sorted(s) && |s| > 0 && KeyLe(s[|s| - 1], x)
    ensures AllKeyLe(s, x)
  {
    forall i | 0 <= i < |s| ensures KeyLe(s[i], x) {
      if i < |s| - 1 { assert KeyLe(s[i], s[|s| - 1]); }
    }
  }

  /** The bound holds for a list holding the same elements as a bounded one
      plus one more bounded element. */
  lemma BoundedByMultiset(front: seq<Insight>, init: seq<Insight>, x: Insight, b: Insight)
    requires multiset(front) == multiset(init) + multiset{x}
    requires AllKeyLe(init, b) && KeyLe(x, b)
    ensures AllKeyLe(front, b)
  {
    forall i | 0 <= i < |front| ensures KeyLe(front[i], b) {
      var y := front[i];
      assert y in multiset(front);
      if y != x {
        assert y in multiset(init);
        var k :| 0 <= k < |init| && init[k] == y;
      }
    }
  }

  lemma AppendSorted(s: seq<Insight>, b: Insight)
    requires Sorted(s) && AllKeyLe(s, b)
    ensures Sorted(s + [b])
  {
  }

  /** Insert `x` after every element whose key is not greater: the place a
      stable sort gives an element that came last. */
  function Insert(x: Insight, s: seq<Insight>): (r: seq<Insight>)
    requires Sorted(s)
    ensures Sorted(r)
    ensures multiset(r) == multiset(s) + multiset{x}
    ensures |s| > 0 && KeyLe(s[|s| - 1], x) ==> r == s + [x]
  {
    if |s| == 0 then [x]
    else if KeyLe(s[|s| - 1], x) then
      BoundedByLast(s, x);
      AppendSorted(s, x);
      s + [x]
    else
      var init := s[..|s| - 1];
      var last := s[|s| - 1];
      SortedSplit(s);
      var front := Insert(x, init);
      BoundedByMultiset(front, init, x, last);
      AppendSorted(front, last);
      assert s == init + [last];
      front + [last]
  }

  /** The sort key of an insight. */
  function Key(x: Insight): (nat, nat) {
    (Rank(x.priority), x.timestamp)
  }

  /** The insights of `s` whose key is `k`, in their order in `s`. */
  function Tied(s: seq<Insight>, k: (nat, nat)): seq<Insight> {
    if |s| == 0 then []
    else Tied(s[..|s| - 1], k) + (if Key(s[|s| - 1]) == k then [s[|s| - 1]] else [])
  }

  lemma TiedSnoc(s: seq<Insight>, x: Insight, k: (nat, nat))
    ensures Tied(s + [x], k) == Tied(s, k) + (if Key(x) == k then [x] else [])
  {
    assert (s + [x])[..|s|] == s;
  }

  /** Insertion puts `x` behind every insight with its key, so each run of
      equal keys keeps its order and gains `x` at its end. */
  lemma {:induction false} InsertStable(x: Insight, s: seq<Insight>, k: (nat, nat))
    requires Sorted(s)
    ensures Tied(Insert(x, s), k) == Tied(s, k) + (if Key(x) == k then [x] else [])
  {
    if |s| == 0 {
      TiedSnoc([], x, k);
      assert [] + [x] == [x];
    } else if KeyLe(s[|s| - 1], x) {
      TiedSnoc(s, x, k);
    } else {
      var init := s[..|s| - 1];
      var last := s[|s| - 1];
      var one := if Key(x) == k then [x] else [];
      var other := if Key(last) == k then [last] else [];
      assert one == [] || other == [];
      SortedSplit(s);
      calc {
        Tied(Insert(x, s), k);
        == { InsertBehind(x, s); }
        Tied(Insert(x, init) + [last], k);
        == { TiedSnoc(Insert(x, init), last, k); }
        Tied(Insert(x, init), k) + other;
        == { InsertStable(x, init, k); }
        Tied(init, k) + one + other;
        == { assert one + other == other + one; }
        Tied(init, k) + other + one;
        == { TiedSnoc(init, last, k); assert s == init + [last]; }
        Tied(s, k) + one;
      }
    }
  }

  /** An insight with a smaller key than the last goes in front of it. */
  lemma InsertBehind(x: Insight, s: seq<Insight>)
    requires Sorted(s) && |s| > 0 && !KeyLe(s[|s| - 1], x)
    ensures Sorted(s[..|s| - 1])
    ensures Insert(x, s) == Insert(x, s[..|s| - 1]) + [s[|s| - 1]]
  {
    SortedSplit(s);
  }

  lemma InsertStableAll(x: Insight, s: seq<Insight>)
    requires Sorted(s)
    ensures forall k :: Tied(Insert(x, s), k) == Tied(s, k) + (if Key(x) == k then [x] else [])
  {
    forall k ensures Tied(Insert(x, s), k) == Tied(s, k) + (if Key(x) == k then [x] else []) {
      InsertStable(x, s, k);
    }
  }

  lemma TiedSnocAll(s: seq<Insight>, x: Insight)
    ensures forall k :: Tied(s + [x], k) == Tied(s, k) + (if Key(x) == k then [x] else [])
  {
    forall k ensures Tied(s + [x], k) == Tied(s, k) + (if Key(x) == k then [x] else []) {
      TiedSnoc(s, x, k);
    }
  }

  /** Python's stable `list.sort` on the key (priority rank, timestamp):
      a key-ordered permutation in which insights with equal keys keep
      their input order. */
  function SortInsights(xs: seq<Insight>): (r: seq<Insight>)
    ensures Sorted(r)
    ensures multiset(r) == multiset(xs)
    ensures forall k :: Tied(r, k) == Tied(xs, k)
  {
    if |xs| == 0 then []
    else
      var init := xs[..|xs| - 1];
      var x := xs[|xs| - 1];
      assert xs == init + [x];
      var sorted := SortInsights(init);
      InsertStableAll(x, sorted);
      TiedSnocAll(init, x);
      Insert(x, sorted)
  }

  /** A list already in key order is left as it is. */
  lemma {:induction false} SortKeepsSorted(xs: seq<Insight>)
    requires Sorted(xs)
    ensures SortInsights(xs) == xs
  {
    if |xs| > 0 {
      var init := xs[..|xs| - 1];
      var x := xs[|xs| - 1];
      SortedSplit(xs);
      calc {
        SortInsights(xs);
        == { SortStep(xs); }
        Insert(x, SortInsights(init));
        == { SortKeepsSorted(init); }
        Insert(x, init);
        == { InsertAtEnd(x, init); }
        init + [x];
        == { assert init + [x] == xs; }
        xs;
      }
    }
  }

  lemma SortStep(xs: seq<Insight>)
    requires |xs| > 0
    ensures SortInsights(xs) == Insert(xs[|xs| - 1], SortInsights(xs[..|xs| - 1]))
  {
  }

  /** An element no smaller than all the others goes at the end. */
  lemma InsertAtEnd(x: Insight, s: seq<Insight>)
    requires Sorted(s) && AllKeyLe(s, x)
    ensures Insert(x, s) == s + [x]
  {
    if |s| > 0 {
      assert KeyLe(s[|s| - 1], x);
    }
  }

  /** Every insight of `r` carries the timestamp `stamp`. */
  predicate AllAt(r: seq<Insight>, stamp: nat) {
    forall i :: 0 <= i < |r| ==> r[i].timestamp == stamp
  }

  lemma AllAtAppend(a: seq<Insight>, b: seq<Insight>, stamp: nat)
    requires AllAt(a, stamp) && AllAt(b, stamp)
    ensures AllAt(a + b, stamp)
  {
  }

  /** A reordering keeps the common timestamp. */
  lemma AllAtPermutation(a: seq<Insight>, b: seq<Insight>, stamp: nat)
    requires multiset(a) == multiset(b) && AllAt(b, stamp)
    ensures AllAt(a, stamp)
  {
    forall i | 0 <= i < |a| ensures a[i].timestamp == stamp {
      assert a[i] in multiset(b);
      var j :| 0 <= j < |b| && b[j] == a[i];
    }
  }

  /** The insights of `s` with priority `p`, in their order in `s`. */
  function OfPriority(s: seq<Insight>, p: Priority): seq<Insight> {
    if |s| == 0 then []
    else OfPriority(s[..|s| - 1], p) + (if s[|s| - 1].priority == p then [s[|s| - 1]] else [])
  }

  /** When all timestamps agree, the insights tied on a key are those of one priority. */
  lemma {:induction false} TiedAtStamp(s: seq<Insight>, p: Priority, stamp: nat)
    requires AllAt(s, stamp)
    ensures Tied(s, (Rank(p), stamp)) == OfPriority(s, p)
  {
    if |s| > 0 {
      var init := s[..|s| - 1];
      assert AllAt(init, stamp) by {
        forall i | 0 <= i < |init| ensures init[i].timestamp == stamp { assert init[i] == s[i]; }
      }
      TiedAtStamp(init, p, stamp);
      assert Key(s[|s| - 1]) == (Rank(p), stamp) <==> s[|s| - 1].priority == p;
    }
  }

  /** The four feeds in the order the source concatenates them. */
  function Generated(docs: seq<Document>, s: TaxSummary, report: Report, now: Instant): (r: seq<Insight>)
    requires ValidInstant(now) && now.date.year < 9999
    ensures AllAt(r, Stamp(now))
  {
    var stamp := Stamp(now);
    var opportunities := DetectOpportunities(docs, s, stamp);
    var risks := DetectRisks(docs, s, report, stamp);
    var deadlines := UpcomingDeadlines(now, stamp);
    var optimizations := SuggestOptimizations(s, stamp);
    AllAtAppend(opportunities, risks, stamp);
    AllAtAppend(opportunities + risks, deadlines, stamp);
    AllAtAppend(opportunities + risks + deadlines, optimizations, stamp);
    opportunities + risks + deadlines + optimizations
  }

  /** `generate_tax_insights`: the four feeds sorted by priority. All
      insights of one call share its timestamp, so the stable sort keeps the
      insights of each priority in the order they were generated. */
  function GenerateInsights(docs: seq<Document>, s: TaxSummary, report: Report, now: Instant): (r: seq<Insight>)
    requires ValidInstant(now) && now.date.year < 9999
    ensures Sorted(r)
    ensures multiset(r) == multiset(DetectOpportunities(docs, s, Stamp(now)) + DetectRisks(docs, s, report, Stamp(now))
                                    + UpcomingDeadlines(now, Stamp(now)) + SuggestOptimizations(s, Stamp(now)))
    ensures AllAt(r, Stamp(now))
    ensures forall p :: OfPriority(r, p) == OfPriority(Generated(docs, s, report, now), p)
  {
    var all := Generated(docs, s, report, now);
    var r := SortInsights(all);
    AllAtPermutation(r, all, Stamp(now));
    forall p ensures OfPriority(r, p) == OfPriority(all, p) {
      TiedAtStamp(r, p, Stamp(now));
      TiedAtStamp(all, p, Stamp(now));
    }
    r
  }

  /** In a key-ordered list every critical insight precedes every other one. */
  lemma CriticalFirst(r: seq<Insight>, i: int, j: int)
    requires Sorted(r) && 0 <= i < j < |r|
    requires r[j].priority == Critical
    ensures r[i].priority == Critical
  {
    assert KeyLe(r[i], r[j]);
  }

  /** The feed endpoint: no documents, no insights; otherwise the insights of
      the documents' own summary and consistency report. */
  function InsightsFeed(docs: seq<Document>, now: Instant): (r: seq<Insight>)
    requires AllReadable(docs) && ConsistencyReadable(docs)
    requires ValidInstant(now) && now.date.year < 9999
    ensures |docs| == 0 <==> |r| == 0
    ensures Sorted(r)
  {
    if |docs| == 0 then []
    else
      FeedNonEmpty(docs, now);
      GenerateInsights(docs, Aggregate(docs), CheckConsistencies(docs), now)
  }

  /** Documents always leave NPS room, so their feed is never empty. */
  lemma FeedNonEmpty(docs: seq<Document>, now: Instant)
    requires AllReadable(docs) && ConsistencyReadable(docs)
    requires ValidInstant(now) && now.date.year < 9999
    ensures |GenerateInsights(docs, Aggregate(docs), CheckConsistencies(docs), now)| > 0
  {
    AggregateNeverFillsNps(docs);
    assert Has(DetectOpportunities(docs, Aggregate(docs), Stamp(now)), NpsRoom);
    GeneratedNonEmpty(docs, Aggregate(docs), CheckConsistencies(docs), now);
  }

  /** Sorting keeps every insight, so one opportunity makes the result non-empty. */
  lemma GeneratedNonEmpty(docs: seq<Document>, s: TaxSummary, report: Report, now: Instant)
    requires ValidInstant(now) && now.date.year < 9999
    requires |DetectOpportunities(docs, s, Stamp(now))| > 0
    ensures |GenerateInsights(docs, s, report, now)| > 0
  {
    var stamp := Stamp(now);
    var opportunities := DetectOpportunities(docs, s, stamp);
    var all := opportunities + DetectRisks(docs, s, report, stamp)
               + UpcomingDeadlines(now, stamp) + SuggestOptimizations(s, stamp);
    assert |all| >= |opportunities|;
    SameElementsSameLength(GenerateInsights(docs, s, report, now), all);
  }

  lemma SameElementsSameLength(a: seq<Insight>, b: seq<Insight>)
    requires multiset(a) == multiset(b)
    ensures |a| == |b|
  {
    assert |multiset(a)| == |multiset(b)|;
  }
}

=== FILE: regime.dfy ===
/**
 The local regime comparison used when the AI comparison fails: the old
 regime is the summary's own estimate, the "new" regime drops every deduction
 except the standard one but, as in the source, reuses the old slab table.
 */
module Regime {
  import opened Slabs
  import opened Summary
  import opened Documents

  datatype RegimeFigures = RegimeFigures(taxableIncome: real, totalTax: real, effectiveRate: real)

  datatype Choice = Old | New

  datatype Comparison = Comparison(
    oldRegime: RegimeFigures,
    newRegime: RegimeFigures,
    recommended: Choice,
    savings: real,
    explanation: string,
    recommendations: seq<string>)

  /** Tax as a percentage of the taxable income, which counts as at least 1. */
  function EffectiveRate(tax: real, taxable: real): (r: real)
    ensures r * Max(taxable, 1.0) == tax * 100.0
    ensures tax >= 0.0 ==> r >= 0.0
  {
    tax / Max(taxable, 1.0) * 100.0
  }

  function TaxUnder(c: Comparison, choice: Choice): real {
    if choice == Old then c.oldRegime.totalTax else c.newRegime.totalTax
  }

  function Other(choice: Choice): Choice {
    if choice == Old then New else Old
  }

  /** The `except` branch of `calculate_tax_regime_comparison`. */
  function FallbackComparison(s: TaxSummary): (c: Comparison)
    ensures c.oldRegime.taxableIncome == s.estimate.taxableIncome
    ensures c.oldRegime.totalTax == s.estimate.totalTax
    ensures c.newRegime.taxableIncome
            == Max(0.0, s.income.totalSalary + s.income.otherIncome - StandardDeduction)
    ensures c.newRegime.totalTax == Tax(c.newRegime.taxableIncome)
    ensures c.recommended == Old <==> c.oldRegime.totalTax < c.newRegime.totalTax
    ensures c.savings >= 0.0
    ensures TaxUnder(c, c.recommended) <= TaxUnder(c, Other(c.recommended))
    ensures TaxUnder(c, c.recommended) + c.savings == TaxUnder(c, Other(c.recommended))
    ensures c.oldRegime.effectiveRate == EffectiveRate(c.oldRegime.totalTax, c.oldRegime.taxableIncome)
    ensures c.newRegime.effectiveRate == EffectiveRate(c.newRegime.totalTax, c.newRegime.taxableIncome)
  {
    var taxableOld := s.estimate.taxableIncome;
    var taxableNew := Max(0.0, s.income.totalSalary + s.income.otherIncome - 50000.0);
    var taxNew := Tax(taxableNew);
    var taxOld := s.estimate.totalTax;
    Comparison(
      RegimeFigures(taxableOld, taxOld, EffectiveRate(taxOld, taxableOld)),
      RegimeFigures(taxableNew, taxNew, EffectiveRate(taxNew, taxableNew)),
      if taxOld < taxNew then Old else New,
      if taxOld - taxNew >= 0.0 then taxOld - taxNew else taxNew - taxOld,
      "Based on your deductions, the old regime appears more beneficial.",
      ["Consider maximizing Section 80C investments", "Review HRA claims if applicable"])
  }

  /** When the summary's deductions are non-negative, dropping them can only
      raise the taxable income and therefore the tax; the comparison then
      picks "old" exactly when the deductions save something, and the
      savings are the tax difference. */
  lemma OldRegimeNeverWorseFor(s: TaxSummary)
    requires Finished(s)
    requires CappedDeductions(s.deductions, s.income.totalSalary) >= 0.0
    ensures FallbackComparison(s).oldRegime.taxableIncome <= FallbackComparison(s).newRegime.taxableIncome
    ensures FallbackComparison(s).oldRegime.totalTax <= FallbackComparison(s).newRegime.totalTax
    ensures FallbackComparison(s).savings
            == FallbackComparison(s).newRegime.totalTax - FallbackComparison(s).oldRegime.totalTax
  {
    var c := FallbackComparison(s);
    TaxMonotone(c.oldRegime.taxableIncome, c.newRegime.taxableIncome);
  }

  /** The same for the summary of documents with non-negative amounts. */
  lemma OldRegimeNeverWorse(docs: seq<Document>)
    requires AllReadable(docs) && AllNonNegative(docs)
    ensures FallbackComparison(Aggregate(docs)).oldRegime.totalTax
            <= FallbackComparison(Aggregate(docs)).newRegime.totalTax
    ensures FallbackComparison(Aggregate(docs)).savings
            == FallbackComparison(Aggregate(docs)).newRegime.totalTax
               - FallbackComparison(Aggregate(docs)).oldRegime.totalTax
  {
    AggregateNonNegative(docs);
    OldRegimeNeverWorseFor(Aggregate(docs));
  }
}

=== FILE: slabs.dfy ===
/**
 The progressive slab tax used throughout the pipeline. The source writes the
 same if-chain out three times (summary, regime fallback, savings estimate);
 here it is the single function `Tax`, and `TableTax` is an independent,
 table-driven reading of the same brackets against which it is checked.
 */
module Slabs {

  /** Tax on a taxable income, with the strict `>` bracket tests of the
      source. Each bracket restarts from its own base, so the function jumps
      upward at 700000, 900000 and 1500000. */
  function Tax(x: real): (t: real)
    ensures 0.0 <= t
    ensures x <= 250000.0 ==> t == 0.0
    ensures x > 250000.0 ==> t <= (x - 250000.0) * 0.30
  {
    if x > 1500000.0 then 187500.0 + (x - 1500000.0) * 0.30
    else if x > 1200000.0 then 112500.0 + (x - 1200000.0) * 0.20
    else if x > 900000.0 then 67500.0 + (x - 900000.0) * 0.15
    else if x > 700000.0 then 37500.0 + (x - 700000.0) * 0.10
    else if x > 500000.0 then 12500.0 + (x - 500000.0) * 0.05
    else if x > 250000.0 then (x - 250000.0) * 0.05
    else 0.0
  }

  /** A bracket applies to incomes strictly above `floor`: `base + (x - floor) * rate`. */
  datatype Bracket = Bracket(floor: real, base: real, rate: real)

  /** The source's brackets, highest first, in the order its if-chain tests them. */
  const OldRegimeSlabs: seq<Bracket> := [
    Bracket(1500000.0, 187500.0, 0.30),
    Bracket(1200000.0, 112500.0, 0.20),
    Bracket(900000.0, 67500.0, 0.15),
    Bracket(700000.0, 37500.0, 0.10),
    Bracket(500000.0, 12500.0, 0.05),
    Bracket(250000.0, 0.0, 0.05)
  ]

  /** The first bracket (highest first) whose floor lies strictly below `x`; 0 below all of them. */
  function TableTax(table: seq<Bracket>, x: real): real {
    if |table| == 0 then 0.0
    else if x > table[0].floor then table[0].base + (x - table[0].floor) * table[0].rate
    else TableTax(table[1..], x)
  }

  /** Value of bracket `b` at income `x`. */
  function BracketValue(b: Bracket, x: real): real {
    b.base + (x - b.floor) * b.rate
  }

  /** Floors strictly decrease, rates are non-negative, the lowest base is
      non-negative, and at each floor the bracket below reaches at most the
      base of the bracket above: every discontinuity is a jump upward. */
  predicate UpwardTable(table: seq<Bracket>) {
    && (forall i :: 0 <= i < |table| ==> table[i].rate >= 0.0)
    && (|table| > 0 ==> table[|table| - 1].base >= 0.0)
    && (forall i :: 0 <= i < |table| - 1 ==>
          table[i + 1].floor < table[i].floor
          && BracketValue(table[i + 1], table[i].floor) <= table[i].base)
  }

  lemma RateStep(a: real, b: real, rate: real)
    requires a <= b && rate >= 0.0
    ensures a * rate <= b * rate
  {
    assert b * rate - a * rate == (b - a) * rate;
  }

  lemma MulNonNegative(a: real, rate: real)
    requires a >= 0.0 && rate >= 0.0
    ensures a * rate >= 0.0
  {
  }

  /** A table tax is never negative. */
  lemma {:induction false} TableTaxNonNegative(table: seq<Bracket>, x: real)
    requires UpwardTable(table)
    ensures TableTax(table, x) >= 0.0
    decreases |table|
  {
    if |table| > 0 {
      if x > table[0].floor {
        if |table| == 1 {
          var b := table[0];
          assert table[|table| - 1] == b;
          assert b.rate >= 0.0 && b.base >= 0.0;
          MulNonNegative(x - b.floor, b.rate);
          assert TableTax(table, x) == b.base + (x - b.floor) * b.rate >= 0.0;
        } else {
          assert UpwardTable(table[1..]);
          TableTaxNonNegative(table[1..], table[0].floor);
          TableTaxAtFloor(table);
          assert table[0].base >= 0.0;
          MulNonNegative(x - table[0].floor, table[0].rate);
          assert TableTax(table, x) == table[0].base + (x - table[0].floor) * table[0].rate;
        }
      } else {
        assert UpwardTable(table[1..]);
        TableTaxNonNegative(table[1..], x);
      }
    }
  }

  /** Just at the top floor, the rest of the table is evaluated by its first bracket. */
  lemma TableTaxAtFloor(table: seq<Bracket>)
    requires |table| > 1 && UpwardTable(table)
    ensures TableTax(table[1..], table[0].floor) == BracketValue(table[1], table[0].floor)
    ensures TableTax(table[1..], table[0].floor) <= table[0].base
  {
    assert table[1..][0] == table[1];
  }

  /** Every upward table yields a non-decreasing tax. */
  lemma {:induction false} TableTaxMonotone(table: seq<Bracket>, x: real, y: real)
    requires UpwardTable(table) && x <= y
    ensures TableTax(table, x) <= TableTax(table, y)
    decreases |table|
  {
    if |table| > 0 {
      var b := table[0];
      assert UpwardTable(table[1..]);
      if x > b.floor {
        RateStep(x - b.floor, y - b.floor, b.rate);
      } else if y > b.floor {
        CrossingFloor(table, x, y);
      } else {
        TableTaxMonotone(table[1..], x, y);
      }
    }
  }

  /** From below the top floor to above it the tax does not fall. */
  lemma {:induction false} CrossingFloor(table: seq<Bracket>, x: real, y: real)
    requires UpwardTable(table) && |table| > 0 && x <= table[0].floor < y
    ensures TableTax(table, x) <= TableTax(table, y)
    decreases |table|, 0
  {
    var b := table[0];
    assert b.rate >= 0.0;
    MulNonNegative(y - b.floor, b.rate);
    assert TableTax(table, y) == b.base + (y - b.floor) * b.rate;
    assert TableTax(table, x) == TableTax(table[1..], x);
    if |table| == 1 {
      assert table[|table| - 1] == b;
    } else {
      assert UpwardTable(table[1..]);
      TableTaxMonotone(table[1..], x, b.floor);
      TableTaxAtFloor(table);
    }
  }

  lemma OldRegimeSlabsUpward()
    ensures UpwardTable(OldRegimeSlabs)
  {
    var t := OldRegimeSlabs;
    assert |t| == 6;
    assert BracketValue(t[1], t[0].floor) == 172500.0;
    assert BracketValue(t[2], t[1].floor) == 112500.0;
    assert BracketValue(t[3], t[2].floor) == 57500.0;
    assert BracketValue(t[4], t[3].floor) == 22500.0;
    assert BracketValue(t[5], t[4].floor) == 12500.0;
  }

  /** The if-chain is the table. */
  lemma TaxIsTable(x: real)
    ensures Tax(x) == TableTax(OldRegimeSlabs, x)
  {
    var t0 := OldRegimeSlabs;
    var t1 := t0[1..];
    var t2 := t1[1..];
    var t3 := t2[1..];
    var t4 := t3[1..];
    var t5 := t4[1..];
    assert t5 == [Bracket(250000.0, 0.0, 0.05)];
    assert TableTax(t5, x) == if x > 250000.0 then (x - 250000.0) * 0.05 else 0.0;
    assert TableTax(t4, x) == if x > 500000.0 then 12500.0 + (x - 500000.0) * 0.05 else TableTax(t5, x);
    assert TableTax(t3, x) == if x > 700000.0 then 37500.0 + (x - 700000.0) * 0.10 else TableTax(t4, x);
    assert TableTax(t2, x) == if x > 900000.0 then 67500.0 + (x - 900000.0) * 0.15 else TableTax(t3, x);
    assert TableTax(t1, x) == if x > 1200000.0 then 112500.0 + (x - 1200000.0) * 0.20 else TableTax(t2, x);
  }

  /** `Tax` is non-decreasing on every pair of incomes. */
  lemma TaxMonotone(x: real, y: real)
    requires x <= y
    ensures Tax(x) <= Tax(y)
  {
    TaxIsTable(x);
    TaxIsTable(y);
    OldRegimeSlabsUpward();
    TableTaxMonotone(OldRegimeSlabs, x, y);
  }

  /** Values at the bracket edges. Because every test is a strict `>`, an
      edge belongs to the bracket below it. */
  lemma TaxAtEdges()
    ensures Tax(250000.0) == 0.0
    ensures Tax(500000.0) == 12500.0
    ensures Tax(700000.0) == 22500.0
    ensures Tax(900000.0) == 57500.0
    ensures Tax(1200000.0) == 112500.0
    ensures Tax(1500000.0) == 172500.0
    ensures Tax(2000000.0) == 337500.0
  {
  }

  /** Just above 700000, 900000 and 1500000 the tax exceeds the edge value by
      at least the jump 15000, 10000 and 15000 respectively; at 500000 and
      1200000 the table is continuous. */
  lemma TaxJumps(x: real)
    ensures 700000.0 < x ==> Tax(x) >= Tax(700000.0) + 15000.0
    ensures 900000.0 < x ==> Tax(x) >= Tax(900000.0) + 10000.0
    ensures 1500000.0 < x ==> Tax(x) >= Tax(1500000.0) + 15000.0
  {
  }
}

=== FILE: summary.dfy ===
/**
 The summary aggregator: one left-to-right pass over the documents that
 dispatches on the document kind, followed by the capped deductions, the
 standard deduction and the slab tax.
 */
module Summary {
  import opened Values
  import opened Documents
  import opened Slabs

  datatype Detail =
    | InvestmentDetail(investmentType: Value, amount: real)
    | RentDetail(monthlyRent: real, annualRent: real)

  datatype Section = Section(total: real, details: seq<Detail>)

  datatype Income = Income(
    totalSalary: real,
    employerName: Value,
    pan: Value,
    otherIncome: real,
    bankInterest: real,
    capitalGains: real)

  datatype Tds = Tds(tdsDeducted: real, advanceTax: real, selfAssessmentTax: real)

  datatype Deductions = Deductions(
    section80c: Section,
    section80d: Section,
    hra: Section,
    nps: Section,
    homeLoanInterest: real,
    educationLoanInterest: real,
    donations: real)

  datatype TaxEstimate = TaxEstimate(taxableIncome: real, totalTax: real, netPayable: real, netRefundable: real)

  datatype TaxSummary = TaxSummary(income: Income, tds: Tds, deductions: Deductions, estimate: TaxEstimate)

  const EmptySection: Section := Section(0.0, [])

  /** The summary before any document is read. */
  const Initial: TaxSummary := TaxSummary(
    Income(0.0, VStr(""), VStr(""), 0.0, 0.0, 0.0),
    Tds(0.0, 0.0, 0.0),
    Deductions(EmptySection, EmptySection, EmptySection, EmptySection, 0.0, 0.0, 0.0),
    TaxEstimate(0.0, 0.0, 0.0, 0.0))

  const Cap80C: real := 150000.0
  const Cap80D: real := 25000.0
  const CapNps: real := 50000.0
  const CapHomeLoanInterest: real := 200000.0
  const CapEducationLoanInterest: real := 40000.0
  const StandardDeduction: real := 50000.0

  function Min(a: real, b: real): real { if a <= b then a else b }
  function Max(a: real, b: real): real { if a >= b then a else b }

  /** Where an investment proof's `section` string sends its amount. */
  datatype InvestmentSection = In80C | In80D | Elsewhere

  /** `'80C' in s or s == '80C'` is tried before the 80D match, on the upper-cased section. */
  function ClassifySection(section: string): (c: InvestmentSection)
    ensures c == In80C <==> Contains(Upper(section), "80C")
    ensures c == In80D <==> !Contains(Upper(section), "80C") && Contains(Upper(section), "80D")
  {
    var u := Upper(section);
    if Contains(u, "80C") || u == "80C" then In80C
    else if Contains(u, "80D") || u == "80D" then In80D
    else Elsewhere
  }

  /** A home-loan statement counts only for its interest component. */
  predicate IsInterestComponent(m: Metadata)
    requires StrAt(m, "component")
  {
    Lower(Text(m, "component")) == "interest"
  }

  /** The metadata reads of the aggregation succeed on `d` (every amount is
      a number, a boolean, null, empty or missing; `section` and `component`
      are strings or missing). */
  predicate Readable(d: Document) {
    var m := d.metadata;
    match d.Kind()
    case SalarySlip => NumericAt(m, "gross_salary") && NumericAt(m, "net_salary") && NumericAt(m, "tds")
    case Form16 => NumericAt(m, "total_income") && NumericAt(m, "tds")
    case BankInterestCertificate => NumericAt(m, "interest_amount")
    case InvestmentProof => StrAt(m, "section") && NumericAt(m, "amount")
    case HomeLoanStatement => StrAt(m, "component") && (IsInterestComponent(m) ==> NumericAt(m, "amount"))
    case RentReceipt => NumericAt(m, "monthly_rent")
    case EducationLoan => NumericAt(m, "interest_amount")
    case DonationReceipt => NumericAt(m, "amount")
    case CapitalGains => NumericAt(m, "gains_amount")
    case _ => true
  }

  predicate AllReadable(docs: seq<Document>) {
    forall i :: 0 <= i < |docs| ==> Readable(docs[i])
  }

  function AddToSection(s: Section, amount: real, detail: Detail): Section {
    Section(s.total + amount, s.details + [detail])
  }

  /** The effect of one document on the running summary. */
  function Step(s: TaxSummary, d: Document): TaxSummary
    requires Readable(d)
  {
    var m := d.metadata;
    match d.Kind()
    case SalarySlip =>
      var employer := if Truthy(s.income.employerName) then s.income.employerName else Get(m, "employer", VStr(""));
      var pan := if Truthy(s.income.pan) then s.income.pan else Get(m, "pan", VStr(""));
      s.(income := s.income.(totalSalary := s.income.totalSalary + Num(m, "gross_salary"),
                             employerName := employer, pan := pan),
         tds := s.tds.(tdsDeducted := s.tds.tdsDeducted + Num(m, "tds")))
    case Form16 =>
      var employer := if Truthy(s.income.employerName) then s.income.employerName else Get(m, "employer_name", VStr(""));
      s.(income := s.income.(totalSalary := Max(s.income.totalSalary, Num(m, "total_income")),
                             employerName := employer),
         tds := s.tds.(tdsDeducted := s.tds.tdsDeducted + Num(m, "tds")))
    case BankInterestCertificate =>
      s.(income := s.income.(bankInterest := s.income.bankInterest + Num(m, "interest_amount")))
    case InvestmentProof =>
      var amount := Num(m, "amount");
      var detail := InvestmentDetail(Get(m, "investment_type", VStr("")), amount);
      (match ClassifySection(Text(m, "section"))
       case In80C => s.(deductions := s.deductions.(section80c := AddToSection(s.deductions.section80c, amount, detail)))
       case In80D => s.(deductions := s.deductions.(section80d := AddToSection(s.deductions.section80d, amount, detail)))
       case Elsewhere => s)
    case HomeLoanStatement =>
      if IsInterestComponent(m)
      then s.(deductions := s.deductions.(homeLoanInterest := s.deductions.homeLoanInterest + Num(m, "amount")))
      else s
    case RentReceipt =>
      var rent := Num(m, "monthly_rent");
      s.(deductions := s.deductions.(hra := AddToSection(s.deductions.hra, rent * 12.0, RentDetail(rent, rent * 12.0))))
    case EducationLoan =>
      s.(deductions := s.deductions.(educationLoanInterest := s.deductions.educationLoanInterest + Num(m, "interest_amount")))
    case DonationReceipt =>
      s.(deductions := s.deductions.(donations := s.deductions.donations + Num(m, "amount")))
    case CapitalGains =>
      s.(income := s.income.(capitalGains := s.income.capitalGains + Num(m, "gains_amount")))
    case _ => s
  }

  /** The running summary after the documents, read in list order. */
  function Accumulate(docs: seq<Document>): TaxSummary
    requires AllReadable(docs)
  {
    if |docs| == 0 then Initial
    else Step(Accumulate(docs[..|docs| - 1]), docs[|docs| - 1])
  }

  /** The deduction sum after the statutory caps; HRA is capped at half the salary. */
  function CappedDeductions(d: Deductions, totalSalary: real): real {
    Min(d.section80c.total, Cap80C)
    + Min(d.section80d.total, Cap80D)
    + Min(d.hra.total, totalSalary * 0.5)
    + Min(d.nps.total, CapNps)
    + Min(d.homeLoanInterest, CapHomeLoanInterest)
    + Min(d.educationLoanInterest, CapEducationLoanInterest)
    + d.donations
  }

  /** The relations every finished summary satisfies: other income is bank
      interest plus capital gains, the taxable income follows from the capped
      deductions and the standard deduction, the tax is the slab tax of it,
      and exactly the positive part of tax minus TDS is payable while the
      positive part of TDS minus tax is refundable. */
  predicate Finished(s: TaxSummary) {
    && s.income.otherIncome == s.income.bankInterest + s.income.capitalGains
    && s.estimate.taxableIncome
       == Max(0.0, s.income.totalSalary + s.income.otherIncome
                   - CappedDeductions(s.deductions, s.income.totalSalary) - StandardDeduction)
    && s.estimate.totalTax == Tax(s.estimate.taxableIncome)
    && s.estimate.netPayable == Max(0.0, s.estimate.totalTax - s.tds.tdsDeducted)
    && s.estimate.netRefundable == Max(0.0, s.tds.tdsDeducted - s.estimate.totalTax)
  }

  /** The derived figures computed after the document pass. */
  function Finish(s: TaxSummary): (r: TaxSummary)
    ensures Finished(r)
    ensures r.estimate.netPayable - r.estimate.netRefundable == r.estimate.totalTax - r.tds.tdsDeducted
    ensures r.estimate.netPayable == 0.0 || r.estimate.netRefundable == 0.0
    ensures r.estimate.taxableIncome >= 0.0 && r.estimate.totalTax >= 0.0
    ensures r.estimate.netPayable >= 0.0 && r.estimate.netRefundable >= 0.0
    ensures r.deductions == s.deductions && r.tds == s.tds
    ensures r.income == s.income.(otherIncome := r.income.otherIncome)
  {
    var other := s.income.bankInterest + s.income.capitalGains;
    var totalIncome := s.income.totalSalary + other;
    var taxable := Max(0.0, totalIncome - CappedDeductions(s.deductions, s.income.totalSalary) - StandardDeduction);
    var tax := Tax(taxable);
    s.(income := s.income.(otherIncome := other),
       estimate := TaxEstimate(taxable, tax, Max(0.0, tax - s.tds.tdsDeducted), Max(0.0, s.tds.tdsDeducted - tax)))
  }

  /** `calculate_tax_summary`. */
  function Aggregate(docs: seq<Document>): (r: TaxSummary)
    requires AllReadable(docs)
    ensures Finished(r)
    ensures r.estimate.netPayable - r.estimate.netRefundable == r.estimate.totalTax - r.tds.tdsDeducted
    ensures r.estimate.netPayable == 0.0 || r.estimate.netRefundable == 0.0
  {
    Finish(Accumulate(docs))
  }

  // ---------------------------------------------------------------------
  // Reference definition: the plain-sum fields as sums of per-document
  // contributions.

  /** The fields the pass fills by plain addition. */
  datatype Field =
    | TdsDeducted
    | BankInterest
    | CapitalGainsIncome
    | Section80C
    | Section80D
    | Hra
    | HomeLoanInterest
    | EducationLoanInterest
    | Donations

  function FieldOf(s: TaxSummary, f: Field): real {
    match f
    case TdsDeducted => s.tds.tdsDeducted
    case BankInterest => s.income.bankInterest
    case CapitalGainsIncome => s.income.capitalGains
    case Section80C => s.deductions.section80c.total
    case Section80D => s.deductions.section80d.total
    case Hra => s.deductions.hra.total
    case HomeLoanInterest => s.deductions.homeLoanInterest
    case EducationLoanInterest => s.deductions.educationLoanInterest
    case Donations => s.deductions.donations
  }

  /** What one document adds to field `f`, read off the dispatch table. */
  function Contribution(d: Document, f: Field): real
    requires Readable(d)
  {
    var m := d.metadata;
    var k := d.Kind();
    match f
    case TdsDeducted => if k == SalarySlip || k == Form16 then Num(m, "tds") else 0.0
    case BankInterest => if k == BankInterestCertificate then Num(m, "interest_amount") else 0.0
    case CapitalGainsIncome => if k == CapitalGains then Num(m, "gains_amount") else 0.0
    case Section80C =>
      if k == InvestmentProof && ClassifySection(Text(m, "section")) == In80C then Num(m, "amount") else 0.0
    case Section80D =>
      if k == InvestmentProof && ClassifySection(Text(m, "section")) == In80D then Num(m, "amount") else 0.0
    case Hra => if k == RentReceipt then Num(m, "monthly_rent") * 12.0 else 0.0
    case HomeLoanInterest => if k == HomeLoanStatement && IsInterestComponent(m) then Num(m, "amount") else 0.0
    case EducationLoanInterest => if k == EducationLoan then Num(m, "interest_amount") else 0.0
    case Donations => if k == DonationReceipt then Num(m, "amount") else 0.0
  }

  function SumOf(docs: seq<Document>, f: Field): real
    requires AllReadable(docs)
  {
    if |docs| == 0 then 0.0
    else SumOf(docs[..|docs| - 1], f) + Contribution(docs[|docs| - 1], f)
  }

  lemma StepAdds(s: TaxSummary, d: Document, f: Field)
    requires Readable(d)
    ensures FieldOf(Step(s, d), f) == FieldOf(s, f) + Contribution(d, f)
  {
  }

  /** Every plain-sum field of the pass is the sum of the documents' contributions. */
  lemma {:induction false} AccumulateIsSum(docs: seq<Document>, f: Field)
    requires AllReadable(docs)
    ensures FieldOf(Accumulate(docs), f) == SumOf(docs, f)
  {
    if |docs| > 0 {
      AccumulateIsSum(docs[..|docs| - 1], f);
      StepAdds(Accumulate(docs[..|docs| - 1]), docs[|docs| - 1], f);
    }
  }

  lemma ReadableAppend(a: seq<Document>, b: seq<Document>)
    requires AllReadable(a) && AllReadable(b)
    ensures AllReadable(a + b)
  {
    forall i | 0 <= i < |a + b| ensures Readable((a + b)[i]) {
      if i < |a| { assert (a + b)[i] == a[i]; } else { assert (a + b)[i] == b[i - |a|]; }
    }
  }

  lemma ReadableSlice(a: seq<Document>, lo: int, hi: int)
    requires AllReadable(a) && 0 <= lo <= hi <= |a|
    ensures AllReadable(a[lo..hi])
  {
    forall i | 0 <= i < hi - lo ensures Readable(a[lo..hi][i]) {
      assert a[lo..hi][i] == a[lo + i];
    }
  }

  lemma {:induction false} SumOfAppend(a: seq<Document>, b: seq<Document>, f: Field)
    requires AllReadable(a) && AllReadable(b) && AllReadable(a + b)
    ensures SumOf(a + b, f) == SumOf(a, f) + SumOf(b, f)
    decreases |b|
  {
    if |b| == 0 {
      assert a + b == a;
    } else {
      var c := b[..|b| - 1];
      ReadableSlice(b, 0, |b| - 1);
      assert b[0..|b| - 1] == c;
      ReadableAppend(a, c);
      var ab := a + b;
      var last := b[|b| - 1];
      assert ab[..|ab| - 1] == a + c;
      assert ab[|ab| - 1] == last;
      SumOfAppend(a, c, f);
      assert SumOf(ab, f) == SumOf(a + c, f) + Contribution(last, f);
      assert SumOf(b, f) == SumOf(c, f) + Contribution(last, f);
    }
  }

  /** Removing the element at `j` keeps every document readable. */
  lemma RemoveAtReadable(b: seq<Document>, j: int)
    requires AllReadable(b) && 0 <= j < |b|
    ensures AllReadable(b[..j]) && AllReadable(b[j + 1..]) && AllReadable([b[j]])
    ensures AllReadable(b[..j] + b[j + 1..]) && AllReadable(b[..j] + [b[j]])
  {
    ReadableSlice(b, 0, j);
    ReadableSlice(b, j + 1, |b|);
    ReadableSlice(b, j, j + 1);
    assert b[0..j] == b[..j] && b[j + 1..|b|] == b[j + 1..] && b[j..j + 1] == [b[j]];
    ReadableAppend(b[..j], b[j + 1..]);
    ReadableAppend(b[..j], [b[j]]);
  }

  lemma RemoveLastMultiset(a: seq<Document>, b: seq<Document>, j: int)
    requires multiset(a) == multiset(b) && |a| > 0 && 0 <= j < |b| && b[j] == a[|a| - 1]
    ensures multiset(a[..|a| - 1]) == multiset(b[..j] + b[j + 1..])
  {
    var x := a[|a| - 1];
    assert a == a[..|a| - 1] + [x];
    assert b == b[..j] + [x] + b[j + 1..];
    assert multiset(a[..|a| - 1]) == multiset(a) - multiset{x};
    assert multiset(b[..j] + b[j + 1..]) == multiset(b) - multiset{x};
  }

  lemma SumOfSingle(d: Document, f: Field)
    requires Readable(d)
    ensures AllReadable([d]) && SumOf([d], f) == Contribution(d, f)
  {
    assert [d][..0] == [];
  }

  /** Sum over `b` split around position `j`. */
  lemma SumOfSplit(b: seq<Document>, j: int, f: Field)
    requires AllReadable(b) && 0 <= j < |b|
    ensures AllReadable(b[..j] + b[j + 1..])
    ensures SumOf(b, f) == SumOf(b[..j] + b[j + 1..], f) + Contribution(b[j], f)
  {
    var front, back := b[..j], b[j + 1..];
    RemoveAtReadable(b, j);
    assert b == (front + [b[j]]) + back;
    SumOfSingle(b[j], f);
    SumOfAppend(front, back, f);
    SumOfAppend(front, [b[j]], f);
    SumOfAppend(front + [b[j]], back, f);
  }

  /** The plain sums do not depend on the order of the documents. */
  lemma {:induction false} SumOfPermutation(a: seq<Document>, b: seq<Document>, f: Field)
    requires AllReadable(a) && AllReadable(b)
    requires multiset(a) == multiset(b)
    ensures SumOf(a, f) == SumOf(b, f)
    decreases |a|
  {
    if |a| == 0 {
      assert |b| == |multiset(b)| == 0;
    } else {
      var x := a[|a| - 1];
      assert x in multiset(b);
      var j :| 0 <= j < |b| && b[j] == x;
      var front := a[..|a| - 1];
      ReadableSlice(a, 0, |a| - 1);
      assert a[0..|a| - 1] == front;
      RemoveLastMultiset(a, b, j);
      SumOfSplit(b, j, f);
      SumOfPermutation(front, b[..j] + b[j + 1..], f);
      assert SumOf(a, f) == SumOf(front, f) + Contribution(x, f);
    }
  }

  /** Aggregation makes TDS, bank interest, capital gains and every deduction
      total the plain sum of its documents' contributions, so none of them
      depends on the order of the documents. */
  lemma AggregateSumsArePermutationInvariant(a: seq<Document>, b: seq<Document>, f: Field)
    requires AllReadable(a) && AllReadable(b)
    requires multiset(a) == multiset(b)
    ensures FieldOf(Aggregate(a), f) == SumOf(a, f)
    ensures FieldOf(Aggregate(a), f) == FieldOf(Aggregate(b), f)
  {
    AccumulateIsSum(a, f);
    AccumulateIsSum(b, f);
    SumOfPermutation(a, b, f);
  }

  // ---------------------------------------------------------------------
  // Invariants of the pass.

  function DetailAmount(d: Detail): real {
    match d
    case InvestmentDetail(_, amount) => amount
    case RentDetail(_, annual) => annual
  }

  function DetailsTotal(details: seq<Detail>): real {
    if |details| == 0 then 0.0 else DetailsTotal(details[..|details| - 1]) + DetailAmount(details[|details| - 1])
  }

  /** A section's total is the sum of the amounts of its detail entries. */
  predicate Balanced(s: Section) {
    s.total == DetailsTotal(s.details)
  }

  lemma AddToSectionBalanced(s: Section, amount: real, detail: Detail)
    requires Balanced(s) && DetailAmount(detail) == amount
    ensures Balanced(AddToSection(s, amount, detail))
  {
    var d := s.details + [detail];
    assert d[..|d| - 1] == s.details;
  }

  /** The pass never touches NPS, advance tax or self-assessment tax, and its
      80C, 80D and HRA totals are the sums of their detail entries. */
  lemma {:induction false} AccumulateInvariants(docs: seq<Document>)
    requires AllReadable(docs)
    ensures Accumulate(docs).deductions.nps == EmptySection
    ensures Accumulate(docs).tds.advanceTax == 0.0
    ensures Accumulate(docs).tds.selfAssessmentTax == 0.0
    ensures Balanced(Accumulate(docs).deductions.section80c)
    ensures Balanced(Accumulate(docs).deductions.section80d)
    ensures Balanced(Accumulate(docs).deductions.hra)
  {
    if |docs| > 0 {
      var prev := Accumulate(docs[..|docs| - 1]);
      var d := docs[|docs| - 1];
      AccumulateInvariants(docs[..|docs| - 1]);
      var m := d.metadata;
      match d.Kind()
      case InvestmentProof =>
        var detail := InvestmentDetail(Get(m, "investment_type", VStr("")), Num(m, "amount"));
        AddToSectionBalanced(prev.deductions.section80c, Num(m, "amount"), detail);
        AddToSectionBalanced(prev.deductions.section80d, Num(m, "amount"), detail);
      case RentReceipt =>
        var rent := Num(m, "monthly_rent");
        AddToSectionBalanced(prev.deductions.hra, rent * 12.0, RentDetail(rent, rent * 12.0));
      case _ =>
    }
  }

  /** NPS, advance tax and self-assessment tax stay 0 for every document list. */
  lemma AggregateNeverFillsNps(docs: seq<Document>)
    requires AllReadable(docs)
    ensures Aggregate(docs).deductions.nps.total == 0.0
    ensures Aggregate(docs).tds.advanceTax == 0.0
    ensures Aggregate(docs).tds.selfAssessmentTax == 0.0
  {
    AccumulateInvariants(docs);
  }

  // ---------------------------------------------------------------------
  // Employer name and PAN: set once, from the first document that supplies
  // a truthy value, and never overwritten.

  /** Document `i` is a salary slip with a truthy `pan`. */
  predicate SlipPanAt(docs: seq<Document>, i: int)
    requires 0 <= i < |docs|
  {
    docs[i].Kind() == SalarySlip && Truthy(Get(docs[i].metadata, "pan", VStr("")))
  }

  /** The employer a document offers: `employer` on a salary slip,
      `employer_name` on a Form 16, nothing on any other kind. */
  function OfferedEmployer(d: Document): Value {
    match d.Kind()
    case SalarySlip => Get(d.metadata, "employer", VStr(""))
    case Form16 => Get(d.metadata, "employer_name", VStr(""))
    case _ => VStr("")
  }

  /** Document `i` offers a truthy employer name. */
  predicate EmployerAt(docs: seq<Document>, i: int)
    requires 0 <= i < |docs|
  {
    Truthy(OfferedEmployer(docs[i]))
  }

  /** One step keeps a truthy PAN and, when none is set yet, takes a salary
      slip's; the same for the employer name with any document's offer. */
  lemma StepIdentity(s: TaxSummary, d: Document)
    requires Readable(d)
    ensures Truthy(s.income.pan) ==> Step(s, d).income.pan == s.income.pan
    ensures !Truthy(s.income.pan) && d.Kind() == SalarySlip ==>
              Step(s, d).income.pan == Get(d.metadata, "pan", VStr(""))
    ensures !Truthy(s.income.pan) && d.Kind() != SalarySlip ==> Step(s, d).income.pan == s.income.pan
    ensures Truthy(s.income.employerName) ==> Step(s, d).income.employerName == s.income.employerName
    ensures !Truthy(s.income.employerName) && (d.Kind() == SalarySlip || d.Kind() == Form16) ==>
              Step(s, d).income.employerName == OfferedEmployer(d)
    ensures !Truthy(s.income.employerName) && d.Kind() != SalarySlip && d.Kind() != Form16 ==>
              Step(s, d).income.employerName == s.income.employerName
  {
  }

  /** Without a salary slip carrying a truthy PAN, the PAN stays falsy. */
  lemma {:induction false} NoSlipPanFalsy(docs: seq<Document>)
    requires AllReadable(docs)
    requires forall j :: 0 <= j < |docs| ==> !SlipPanAt(docs, j)
    ensures !Truthy(Accumulate(docs).income.pan)
  {
    if |docs| > 0 {
      var n := |docs| - 1;
      ReadableSlice(docs, 0, n);
      forall j | 0 <= j < n ensures !SlipPanAt(docs[..n], j) {
        assert docs[..n][j] == docs[j];
        assert !SlipPanAt(docs, j);
      }
      NoSlipPanFalsy(docs[..n]);
      assert !SlipPanAt(docs, n);
      StepIdentity(Accumulate(docs[..n]), docs[n]);
    }
  }

  /** Without a truthy employer offer, the employer name stays falsy. */
  lemma {:induction false} NoEmployerFalsy(docs: seq<Document>)
    requires AllReadable(docs)
    requires forall j :: 0 <= j < |docs| ==> !EmployerAt(docs, j)
    ensures !Truthy(Accumulate(docs).income.employerName)
  {
    if |docs| > 0 {
      var n := |docs| - 1;
      ReadableSlice(docs, 0, n);
      forall j | 0 <= j < n ensures !EmployerAt(docs[..n], j) {
        assert docs[..n][j] == docs[j];
        assert !EmployerAt(docs, j);
      }
      NoEmployerFalsy(docs[..n]);
      assert !EmployerAt(docs, n);
      StepIdentity(Accumulate(docs[..n]), docs[n]);
    }
  }

  lemma {:induction false} FirstPanWinsAccumulate(docs: seq<Document>, i: int)
    requires AllReadable(docs) && 0 <= i < |docs|
    requires SlipPanAt(docs, i)
    requires forall j :: 0 <= j < i ==> !SlipPanAt(docs, j)
    ensures Accumulate(docs).income.pan == Get(docs[i].metadata, "pan", VStr(""))
  {
    var n := |docs| - 1;
    ReadableSlice(docs, 0, n);
    if i == n {
      forall j | 0 <= j < n ensures !SlipPanAt(docs[..n], j) {
        assert docs[..n][j] == docs[j];
        assert !SlipPanAt(docs, j);
      }
      NoSlipPanFalsy(docs[..n]);
    } else {
      assert docs[..n][i] == docs[i];
      forall j | 0 <= j < i ensures !SlipPanAt(docs[..n], j) {
        assert docs[..n][j] == docs[j];
        assert !SlipPanAt(docs, j);
      }
      FirstPanWinsAccumulate(docs[..n], i);
    }
    StepIdentity(Accumulate(docs[..n]), docs[n]);
  }

  /** The PAN comes from the first salary slip whose `pan` is truthy. */
  lemma FirstPanWins(docs: seq<Document>, i: int)
    requires AllReadable(docs) && 0 <= i < |docs|
    requires SlipPanAt(docs, i)
    requires forall j :: 0 <= j < i ==> !SlipPanAt(docs, j)
    ensures Aggregate(docs).income.pan == Get(docs[i].metadata, "pan", VStr(""))
  {
    FirstPanWinsAccumulate(docs, i);
  }

  /** With no salary slip carrying a truthy PAN, the summary's PAN is falsy. */
  lemma NoPanWithoutSlip(docs: seq<Document>)
    requires AllReadable(docs)
    requires forall j :: 0 <= j < |docs| ==> !SlipPanAt(docs, j)
    ensures !Truthy(Aggregate(docs).income.pan)
  {
    NoSlipPanFalsy(docs);
  }

  lemma {:induction false} FirstEmployerWinsAccumulate(docs: seq<Document>, i: int)
    requires AllReadable(docs) && 0 <= i < |docs|
    requires EmployerAt(docs, i)
    requires forall j :: 0 <= j < i ==> !EmployerAt(docs, j)
    ensures Accumulate(docs).income.employerName == OfferedEmployer(docs[i])
  {
    var n := |docs| - 1;
    ReadableSlice(docs, 0, n);
    if i == n {
      forall j | 0 <= j < n ensures !EmployerAt(docs[..n], j) {
        assert docs[..n][j] == docs[j];
        assert !EmployerAt(docs, j);
      }
      NoEmployerFalsy(docs[..n]);
    } else {
      assert docs[..n][i] == docs[i];
      forall j | 0 <= j < i ensures !EmployerAt(docs[..n], j) {
        assert docs[..n][j] == docs[j];
        assert !EmployerAt(docs, j);
      }
      FirstEmployerWinsAccumulate(docs[..n], i);
    }
    StepIdentity(Accumulate(docs[..n]), docs[n]);
  }

  /** The employer name comes from the first salary slip (`employer`) or
      Form 16 (`employer_name`) that offers a truthy one. */
  lemma FirstEmployerWins(docs: seq<Document>, i: int)
    requires AllReadable(docs) && 0 <= i < |docs|
    requires EmployerAt(docs, i)
    requires forall j :: 0 <= j < i ==> !EmployerAt(docs, j)
    ensures Aggregate(docs).income.employerName == OfferedEmployer(docs[i])
  {
    FirstEmployerWinsAccumulate(docs, i);
  }

  /** With no truthy employer offer, the summary's employer name is falsy. */
  lemma NoEmployerWithoutOffer(docs: seq<Document>)
    requires AllReadable(docs)
    requires forall j :: 0 <= j < |docs| ==> !EmployerAt(docs, j)
    ensures !Truthy(Aggregate(docs).income.employerName)
  {
    NoEmployerFalsy(docs);
  }

  /** Every amount of the metadata of every document is non-negative. */
  predicate AllNonNegative(docs: seq<Document>) {
    forall i :: 0 <= i < |docs| ==> NonNegative(docs[i].metadata)
  }

  /** Every monetary field of the summary is non-negative. */
  predicate SummaryNonNegative(s: TaxSummary) {
    && s.income.totalSalary >= 0.0 && s.income.otherIncome >= 0.0
    && s.income.bankInterest >= 0.0 && s.income.capitalGains >= 0.0
    && s.tds.tdsDeducted >= 0.0 && s.tds.advanceTax >= 0.0 && s.tds.selfAssessmentTax >= 0.0
    && s.deductions.section80c.total >= 0.0 && s.deductions.section80d.total >= 0.0
    && s.deductions.hra.total >= 0.0 && s.deductions.nps.total >= 0.0
    && s.deductions.homeLoanInterest >= 0.0 && s.deductions.educationLoanInterest >= 0.0
    && s.deductions.donations >= 0.0
    && s.estimate.taxableIncome >= 0.0 && s.estimate.totalTax >= 0.0
    && s.estimate.netPayable >= 0.0 && s.estimate.netRefundable >= 0.0
  }

  lemma StepNonNegative(s: TaxSummary, d: Document)
    requires Readable(d) && NonNegative(d.metadata) && SummaryNonNegative(s)
    ensures SummaryNonNegative(Step(s, d))
  {
    var m := d.metadata;
    match d.Kind()
    case SalarySlip =>
      NumNonNegative(m, "gross_salary");
      NumNonNegative(m, "tds");
    case Form16 =>
      NumNonNegative(m, "tds");
    case BankInterestCertificate =>
      NumNonNegative(m, "interest_amount");
    case InvestmentProof =>
      NumNonNegative(m, "amount");
    case HomeLoanStatement =>
      if IsInterestComponent(m) {
        NumNonNegative(m, "amount");
      }
    case RentReceipt =>
      NumNonNegative(m, "monthly_rent");
    case EducationLoan =>
      NumNonNegative(m, "interest_amount");
    case DonationReceipt =>
      NumNonNegative(m, "amount");
    case CapitalGains =>
      NumNonNegative(m, "gains_amount");
    case _ =>
  }

  lemma {:induction false} AccumulateNonNegative(docs: seq<Document>)
    requires AllReadable(docs) && AllNonNegative(docs)
    ensures SummaryNonNegative(Accumulate(docs))
  {
    if |docs| > 0 {
      AccumulateNonNegative(docs[..|docs| - 1]);
      StepNonNegative(Accumulate(docs[..|docs| - 1]), docs[|docs| - 1]);
    }
  }

  /** With non-negative amounts, every field of the summary is non-negative
      and the capped deductions are non-negative too. */
  lemma AggregateNonNegative(docs: seq<Document>)
    requires AllReadable(docs) && AllNonNegative(docs)
    ensures SummaryNonNegative(Aggregate(docs))
    ensures CappedDeductions(Aggregate(docs).deductions, Aggregate(docs).income.totalSalary) >= 0.0
  {
    AccumulateNonNegative(docs);
  }

  // ---------------------------------------------------------------------
  // Dispatch details.

  /** A section naming both 80C and 80D is counted under 80C only. */
  lemma Section80CWinsOver80D(s: TaxSummary, d: Document)
    requires Readable(d) && d.Kind() == InvestmentProof
    requires Contains(Upper(Text(d.metadata, "section")), "80C")
    ensures Step(s, d).deductions.section80c.total == s.deductions.section80c.total + Num(d.metadata, "amount")
    ensures Step(s, d).deductions.section80d == s.deductions.section80d
  {
  }

  function SalarySlipDoc(gross: real): Document {
    Document("s", SalarySlip, map["gross_salary" := VNum(gross)], None)
  }

  function Form16Doc(income: real): Document {
    Document("f", Form16, map["total_income" := VNum(income)], None)
  }

  lemma SalarySlipStep(s: TaxSummary, gross: real)
    ensures Readable(SalarySlipDoc(gross))
    ensures Step(s, SalarySlipDoc(gross)).income.totalSalary == s.income.totalSalary + gross
  {
    assert SalarySlipDoc(gross).Kind() == SalarySlip;
  }

  lemma Form16Step(s: TaxSummary, income: real)
    ensures Readable(Form16Doc(income))
    ensures Step(s, Form16Doc(income)).income.totalSalary == Max(s.income.totalSalary, income)
  {
    assert Form16Doc(income).Kind() == Form16;
  }

  lemma AccumulatePair(d1: Document, d2: Document)
    requires Readable(d1) && Readable(d2)
    ensures AllReadable([d1, d2])
    ensures Accumulate([d1, d2]) == Step(Step(Initial, d1), d2)
  {
    var docs := [d1, d2];
    assert docs[..1] == [d1] && docs[..1][..0] == [];
    assert Accumulate(docs[..1]) == Step(Accumulate([]), d1);
    assert Accumulate(docs) == Step(Accumulate(docs[..1]), d2);
  }

  /** The salary total depends on document order: a Form 16 takes the
      maximum of the running total, a salary slip adds to it. A slip of
      `gross` followed by a smaller Form 16 of `income` gives `gross`; the
      other way round gives `gross + income`. */
  lemma TotalSalaryIsOrderSensitive(gross: real, income: real)
    requires 0.0 < income <= gross
    ensures AllReadable([SalarySlipDoc(gross), Form16Doc(income)])
    ensures AllReadable([Form16Doc(income), SalarySlipDoc(gross)])
    ensures Aggregate([SalarySlipDoc(gross), Form16Doc(income)]).income.totalSalary == gross
    ensures Aggregate([Form16Doc(income), SalarySlipDoc(gross)]).income.totalSalary == gross + income
  {
    var slip, f16 := SalarySlipDoc(gross), Form16Doc(income);
    SalarySlipStep(Initial, gross);
    Form16Step(Initial, income);
    Form16Step(Step(Initial, slip), income);
    SalarySlipStep(Step(Initial, f16), gross);
    AccumulatePair(slip, f16);
    AccumulatePair(f16, slip);
  }

  const ExampleSlip: Document :=
    Document("1", SalarySlip, map["gross_salary" := VNum(1200000.0), "tds" := VNum(90000.0), "employer" := VStr("Acme")], None)
  const ExampleProof: Document :=
    Document("2", InvestmentProof, map["section" := VStr("80C"), "amount" := VNum(150000.0)], None)

  lemma ExampleSteps()
    ensures Readable(ExampleSlip) && Readable(ExampleProof)
    ensures Step(Initial, ExampleSlip).income.totalSalary == 1200000.0
    ensures Step(Initial, ExampleSlip).income.employerName == VStr("Acme")
    ensures Step(Initial, ExampleSlip).tds.tdsDeducted == 90000.0
    ensures Step(Initial, ExampleSlip).deductions == Initial.deductions
    ensures Step(Initial, ExampleSlip).income.bankInterest == 0.0
    ensures Step(Initial, ExampleSlip).income.capitalGains == 0.0
    ensures Step(Step(Initial, ExampleSlip), ExampleProof)
         == Step(Initial, ExampleSlip).(deductions := Initial.deductions.(section80c :=
              Section(150000.0, [InvestmentDetail(VStr(""), 150000.0)])))
  {
    assert ExampleSlip.Kind() == SalarySlip;
    assert ExampleProof.Kind() == InvestmentProof;
    assert Upper("80C") == "80C";
    assert "80C" <= "80C";
    assert ClassifySection("80C") == In80C;
  }

  /** One salary slip (gross 1,200,000, TDS 90,000) and one 80C proof of
      150,000: taxable 1,000,000, tax 82,500, nothing payable, 7,500 refundable. */
  lemma SalaryAnd80CExample()
    ensures AllReadable([ExampleSlip, ExampleProof])
    ensures Aggregate([ExampleSlip, ExampleProof]).income.totalSalary == 1200000.0
    ensures Aggregate([ExampleSlip, ExampleProof]).income.employerName == VStr("Acme")
    ensures Aggregate([ExampleSlip, ExampleProof]).deductions.section80c.total == 150000.0
    ensures Aggregate([ExampleSlip, ExampleProof]).estimate.taxableIncome == 1000000.0
    ensures Aggregate([ExampleSlip, ExampleProof]).estimate.totalTax == 82500.0
    ensures Aggregate([ExampleSlip, ExampleProof]).estimate.netPayable == 0.0
    ensures Aggregate([ExampleSlip, ExampleProof]).estimate.netRefundable == 7500.0
  {
    ExampleSteps();
    AccumulatePair(ExampleSlip, ExampleProof);
    ExampleFinish(Step(Step(Initial, ExampleSlip), ExampleProof));
  }

  /** The derived figures of the worked example. */
  lemma ExampleFinish(s: TaxSummary)
    requires s.income.totalSalary == 1200000.0 && s.tds.tdsDeducted == 90000.0
    requires s.income.bankInterest == 0.0 && s.income.capitalGains == 0.0
    requires s.deductions == Initial.deductions.(section80c := Section(150000.0, [InvestmentDetail(VStr(""), 150000.0)]))
    ensures Finish(s).estimate.taxableIncome == 1000000.0
    ensures Finish(s).estimate.totalTax == 82500.0
    ensures Finish(s).estimate.netPayable == 0.0
    ensures Finish(s).estimate.netRefundable == 7500.0
  {
    assert CappedDeductions(s.deductions, 1200000.0) == 150000.0;
  }
}

=== FILE: values.dfy ===
/**
 Loosely typed metadata values, as the upstream extraction step stores them
 on a document record, and the tolerant reads the tax pipeline performs on
 them (`float(m.get(k, 0) or 0)` for amounts, `m.get(k, '')` for text).
 */
module Values {

  datatype Option<+T> = None | Some(value: T)

  /** One scalar metadata value. Nested lists and mappings are not modelled. */
  datatype Value = VNull | VBool(b: bool) | VNum(n: real) | VStr(s: string)

  type Metadata = map<string, Value>

  /** The priority / severity scale shared by every report. */
  datatype Priority = Critical | High | Medium | Low

  /** Python truthiness of a scalar. */
  predicate Truthy(v: Value) {
    match v
    case VNull => false
    case VBool(b) => b
    case VNum(n) => n != 0.0
    case VStr(s) => s != ""
  }

  /** `m.get(k, default)` */
  function Get(m: Metadata, k: string, default: Value): (v: Value)
    ensures k in m ==> v == m[k]
    ensures k !in m ==> v == default
  {
    if k in m then m[k] else default
  }

  /** A value `float(v or 0)` accepts: anything but a non-empty string,
      whose parsing (or failure) is not modelled. */
  predicate NumericOk(v: Value) {
    !v.VStr? || v.s == ""
  }

  predicate NumericAt(m: Metadata, k: string) {
    k !in m || NumericOk(m[k])
  }

  /** `float(m.get(k, 0) or 0)`: falsy and missing values read as 0. */
  function Num(m: Metadata, k: string): (r: real)
    requires NumericAt(m, k)
    ensures !Truthy(Get(m, k, VNull)) <==> r == 0.0
    ensures k in m && m[k].VNum? ==> r == m[k].n
    ensures k in m && m[k] == VBool(true) ==> r == 1.0
  {
    if k !in m then 0.0
    else match m[k]
      case VNull => 0.0
      case VBool(b) => if b then 1.0 else 0.0
      case VNum(n) => n
      case VStr(_) => 0.0
  }

  /** A value that `m.get(k, '')` can call `.upper()`/`.lower()` on. */
  predicate StrAt(m: Metadata, k: string) {
    k !in m || m[k].VStr?
  }

  /** `m.get(k, '')` for a key holding a string or nothing. */
  function Text(m: Metadata, k: string): (r: string)
    requires StrAt(m, k)
    ensures k in m ==> VStr(r) == m[k]
    ensures k !in m ==> r == ""
  {
    if k in m then m[k].s else ""
  }

  /** Every number stored in the metadata is non-negative. */
  predicate NonNegative(m: Metadata) {
    forall k :: k in m && m[k].VNum? ==> m[k].n >= 0.0
  }

  lemma NumNonNegative(m: Metadata, k: string)
    requires NumericAt(m, k) && NonNegative(m)
    ensures Num(m, k) >= 0.0
  {
  }

  // ASCII case mapping. Python's str.upper()/lower() also map non-ASCII
  // letters; that part is not modelled.

  function UpperChar(c: char): (u: char)
    ensures 'a' <= c <= 'z' ==> 'A' <= u <= 'Z'
    ensures !('a' <= c <= 'z') ==> u == c
  {
    if 'a' <= c <= 'z' then (c as int - 32) as char else c
  }

  function LowerChar(c: char): (l: char)
    ensures 'A' <= c <= 'Z' ==> 'a' <= l <= 'z'
    ensures !('A' <= c <= 'Z') ==> l == c
  {
    if 'A' <= c <= 'Z' then (c as int + 32) as char else c
  }

  function Upper(s: string): (u: string)
    ensures |u| == |s|
    ensures forall i :: 0 <= i < |s| ==> u[i] == UpperChar(s[i])
  {
    if |s| == 0 then "" else [UpperChar(s[0])] + Upper(s[1..])
  }

  function Lower(s: string): (l: string)
    ensures |l| == |s|
    ensures forall i :: 0 <= i < |s| ==> l[i] == LowerChar(s[i])
  {
    if |s| == 0 then "" else [LowerChar(s[0])] + Lower(s[1..])
  }

  /** Python's `sub in s` for strings. */
  predicate Contains(s: string, sub: string)
    decreases |s|
  {
    sub <= s || (|s| > 0 && Contains(s[1..], sub))
  }

  /** `sub` occurs in `s` starting at index `i`. */
  predicate MatchAt(s: string, sub: string, i: int) {
    0 <= i <= |s| - |sub| && s[i..i + |sub|] == sub
  }

  /** `Contains` agrees with the existence of a matching window. */
  lemma {:induction false} ContainsIff(s: string, sub: string)
    ensures Contains(s, sub) <==> exists i :: MatchAt(s, sub, i)
    decreases |s|
  {
    if sub <= s {
      assert MatchAt(s, sub, 0);
    } else if |s| > 0 {
      ContainsIff(s[1..], sub);
      if Contains(s[1..], sub) {
        var i :| MatchAt(s[1..], sub, i);
        assert s[i + 1..i + 1 + |sub|] == s[1..][i..i + |sub|];
        assert MatchAt(s, sub, i + 1);
      }
      if exists i :: MatchAt(s, sub, i) {
        var i :| MatchAt(s, sub, i);
        if i > 0 {
          assert s[1..][i - 1..i - 1 + |sub|] == s[i..i + |sub|];
          assert MatchAt(s[1..], sub, i - 1);
        }
      }
    }
  }
}
